=== FILE: README.md ===
# Clinical study report backend — a Dafny model of its core

This project models the service logic of a backend for writing clinical
study reports (CSRs). The modelled pieces are:

- **Source documents** are uploaded per study. Their text is extracted, cut into
  paragraph chunks and stored as RAG chunks.
- **AI generation** retrieves the earliest chunks of each source type. It
  renders a prompt template with a study context, or falls back to a fixed
  prompt.
- **QC** reconciles a CSR document's open issues against the five default
  sections.
- **Get-or-create services** keep one CSR document per study with its default
  sections.
- **Access checks** decide member, editor and owner access to a study.
- **Language** is resolved per request and per document.
- **Interface messages** come in Russian and English.
- **Passwords** are cut to bcrypt's 72-byte limit before hashing.

The database is one immutable value (`Store.Db`): every table is a sequence
of rows in storage order, plus one counter for fresh primary keys. Each
service is a function from a store to a new store and a result. Errors
that the code raises are `Result`/`Option` failures. The modules follow
the source files:

- `Chunking`, `Retrieval` and `Ingest`: the RAG pipeline.
- `Renderer`, `TemplateContext`, `PromptBuilder` and `AiGenerate`: templating and prompts.
- `RequestLanguage`, `ContentLanguage`, `Messages` and `QcConfig`: language.
- `QcModel` and `QcRules`: the QC engine.
- `SectionDefaults`, `CsrDefaults`, `OutputDefaults`, `CsrLink` and `Documents`: get-or-create.
- `Schemas`, `StudyAccess` and `StudyMembers`: validation and access.
- `Security`: password bytes.
- `Text`, `Seqs`, `Sorting`, `Assoc` and `Wrappers`: generic helpers. These cover Python string operations, first-match queries, stable `ORDER BY`, insertion-ordered dictionaries, and Option/Result.

## Model

| member | source | states |
|---|---|---|
| Chunking.CollapseNewlineRuns | app/services/rag_chunking.py:85 | collapsing runs of three or more newlines never lengthens the text and keeps every non-whitespace character in order |
| Chunking.CollapseNewlineRunsShape | app/services/rag_chunking.py:85 | after collapsing, no three newlines are adjacent; the text keeps its last two characters, and short texts are unchanged |
| Chunking.SqueezeSpaces | app/services/rag_chunking.py:89 | squeezing space runs leaves no two adjacent spaces, keeps the first character and the visible text, and never lengthens |
| Chunking.CleanLinesJoin | app/services/rag_chunking.py:88-92 | cleaning each line and re-joining with newlines never lengthens, leaves no double space and keeps the visible text |
| Chunking.CleanWhitespace | app/services/rag_chunking.py:77-94 | `_clean_whitespace` output has no leading or trailing whitespace and no two adjacent spaces; it is never longer than the input and keeps every visible character in order |
| Chunking.CleanWhitespaceEmptyIff | app/services/rag_chunking.py:77-94 | cleaning yields the empty string exactly when the input is all whitespace |
| Chunking.StrippedNonEmpty | app/services/rag_chunking.py:24-30 | stripped, non-empty pieces are all visible and together hold the visible text of all pieces |
| Chunking.Paragraphs | app/services/rag_chunking.py:19-30 | the paragraphs split at blank lines, stripped, with empty ones skipped: each is visible and together they hold the text's visible characters in order |
| Chunking.GreedyShapeSnoc | app/services/rag_chunking.py:37-48 | closing a group that could not take the next paragraph keeps the greedy invariant |
| Chunking.GreedyFromFlatten | app/services/rag_chunking.py:24-48 | the greedy loop neither drops, duplicates, splits nor reorders paragraphs |
| Chunking.GreedyFromShape | app/services/rag_chunking.py:34-48 | a new group starts only when adding the next paragraph with its "\n\n" would exceed the maximum; a group of two or more paragraphs fits |
| Chunking.GreedyGroups | app/services/rag_chunking.py:24-55 | the greedy groups concatenate back to the paragraphs and satisfy the greedy invariant |
| Chunking.GroupChunksNoneDropped | app/services/rag_chunking.py:37-55 | a group with visible text is never dropped when closed: chunk i is group i joined and cleaned |
| Chunking.GroupChunksText | app/services/rag_chunking.py:37-55 | closing the groups keeps every visible character of the paragraphs in order |
| Chunking.GroupChunksSize | app/services/rag_chunking.py:34-55 | a closed chunk longer than the maximum is the cleaned form of a single paragraph that alone exceeds it |
| Chunking.Merged | app/services/rag_chunking.py:65-67 | a merged chunk holds the visible text of both parts and is at most their lengths plus 2 |
| Chunking.MergeSmallFromLength | app/services/rag_chunking.py:59-72 | the merge pass never adds a chunk and never empties a non-empty list |
| Chunking.MergeSmallFromVisible | app/services/rag_chunking.py:59-72 | the merge pass never produces a blank chunk |
| Chunking.MergeSmallFromText | app/services/rag_chunking.py:59-72 | the merge pass keeps every visible character in order |
| Chunking.MergeSmallFromSize | app/services/rag_chunking.py:59-72 | every chunk after merging fits the maximum or is an unchanged input chunk |
| Chunking.MergeSmall | app/services/rag_chunking.py:59-72 | the merge pass keeps visibility and visible text, adds no oversized chunk, and empties nothing; a non-positive minimum switches it off |
| Chunking.MergeSmallFromCollapses | app/services/rag_chunking.py:61-67 | after an emitted chunk, a run of short chunks that fit with it, blank lines included, is absorbed into it |
| Chunking.MergeSmallCollapses | app/services/rag_chunking.py:59-71 | when every chunk after the first is below the minimum and all fit together in the maximum, the merge pass leaves a single chunk |
| Chunking.MergeSmallNoShortChunks | app/services/rag_chunking.py:61-71 | with no chunk below the minimum the merge pass changes nothing |
| Chunking.MergeSmallFromPrefix | app/services/rag_chunking.py:59-71 | the pass only merges into the last emitted chunk, so chunks emitted before it are never changed again |
| Chunking.MergeRule | app/services/rag_chunking.py:61-71 | at any position, the next chunk joins the last emitted chunk exactly when it is below the minimum and the two plus "\n\n" fit the maximum; otherwise it starts a new output chunk |
| Chunking.MergeSmallStart | app/services/rag_chunking.py:59-71 | with a positive minimum the first chunk is always emitted on its own before the rule applies |
| Chunking.MergeSmallMixed | app/services/rag_chunking.py:61-71 | after a first chunk, a short chunk that fits joins it and a following long chunk stays on its own, even when all three would fit |
| Chunking.MergeKeepsFirstChunk | app/services/rag_chunking.py:61-71 | the first chunk is never merged away: its visible text starts the first output chunk |
| Chunking.PackFacts | app/services/rag_chunking.py:24-55 | greedy packing then closing keeps all chunks visible and the visible text in order; an oversized chunk is a single oversized paragraph |
| Chunking.ChunkText | app/services/rag_chunking.py:5-74 | `chunk_text` returns no empty or blank chunk and keeps the text's visible characters in order; it returns [] exactly for all-whitespace input, and a chunk exceeds the maximum only as one oversized paragraph |
| Retrieval.Matching | app/services/rag_retrieval.py:24-27 | the filtered rows are exactly the chunks of the study and source type |
| Retrieval.ByOrderIndex | app/services/rag_retrieval.py:28 | ordering by order_index is a total preorder |
| Retrieval.QueryEarliest | app/services/rag_retrieval.py:24-31 | a query returns min(limit, matches) matching chunks sorted by order_index, and skips no matching chunk that sorts earlier than one it returns |
| Retrieval.RetrieveRagChunksSpec | app/services/rag_retrieval.py:7-34 | the keys are the requested source types (the four defaults when none) once each in request order, each mapped to its query |
| Retrieval.RetrieveDefaultTypes | app/services/rag_retrieval.py:18-19 | with no types given, exactly protocol, sap, tlf and csr_prev are queried, in that order |
| Retrieval.Texts | app/services/rag_retrieval.py:45 | the texts are the chunks' texts, in list order |
| Retrieval.ContextBlockContents | app/services/rag_retrieval.py:44-46 | a block holds every chunk text in order with only "\n\n" added between them; no chunks give "" |
| Retrieval.BuildRagContextTextSpec | app/services/rag_retrieval.py:37-48 | `build_rag_context_text` keeps exactly the input keys in order and maps each to its block |
| Ingest.NewRows | app/services/rag_ingest.py:40-49 | one new row per chunk text |
| Ingest.NewRowsOwned | app/services/rag_ingest.py:41-48 | the new rows all belong to the ingested source document |
| Ingest.ChunksOfOthers | app/services/rag_ingest.py:37 | after the delete, no chunk of the document remains and deleting again changes nothing |
| Ingest.ReplaceChunks | app/services/rag_ingest.py:37-52 | delete-then-insert makes the new rows the document's only chunks and leaves every other document's chunks as they were |
| Ingest.IngestNotFound | app/services/rag_ingest.py:21-23 | ingestion fails with not-found exactly for an unknown id, and then changes nothing |
| Ingest.IngestExtractionFailure | app/services/rag_ingest.py:25-62 | a failed extraction reports its message and marks only that document "error"; its old chunks and every other table stay |
| Ingest.IngestSuccess | app/services/rag_ingest.py:11-57 | success returns the chunk count and marks the document "indexed"; its chunks become exactly the chunk texts, numbered from 0 with its study and type; other documents' chunks are unchanged |
| Ingest.IngestTwice | app/services/rag_ingest.py:36-57 | re-ingesting the same text gives the same result and the same chunks up to fresh ids |
| Renderer.WordRun | app/services/template_renderer.py:22 | the longest prefix of word characters |
| Renderer.PlaceholderAt | app/services/template_renderer.py:22 | a placeholder found at the front is a non-empty word run between double braces |
| Renderer.PlaceholderAtComplete | app/services/template_renderer.py:22 | the scan misses no placeholder: a non-empty word run between double braces at the front is found, with exactly that name |
| Renderer.TokenizeFrontPlaceholder | app/services/template_renderer.py:22-37 | a placeholder at the front is read as one piece, and scanning resumes right after its closing braces |
| Renderer.PieceAtText | app/services/template_renderer.py:22-37 | the piece scanned at the front spells exactly the characters consumed |
| Renderer.TokenizeRoundTrip | app/services/template_renderer.py:22-37 | the scan into literals and placeholders loses nothing: its pieces spell the template again |
| Renderer.NamesAreWords | app/services/template_renderer.py:22 | every placeholder name found is a non-empty run of word characters |
| Renderer.RenderPiecesAppend | app/services/template_renderer.py:37 | rendering distributes over concatenation of pieces: the output for two runs of pieces is the output for each, side by side |
| Renderer.RenderFrontPlaceholder | app/services/template_renderer.py:24-37 | a `{{name}}` at the front becomes `str` of the context value when the name is a key, and stays as written otherwise; the rest renders on its own |
| Renderer.RenderFrontLiteral | app/services/template_renderer.py:37 | a character that starts no placeholder is copied, and the rest renders on its own |
| Renderer.SubstituteOne | app/services/template_renderer.py:24-31 | a template that is one known placeholder renders to the value's string form and records the value as used |
| Renderer.RenderUnknownNames | app/services/template_renderer.py:32-34 | placeholders whose names are not in the context stay as written |
| Renderer.KnownNames | app/services/template_renderer.py:28-30 | the placeholder names found in the context |
| Renderer.UnknownNames | app/services/template_renderer.py:32-33 | the placeholder names absent from the context |
| Renderer.RenderReports | app/services/template_renderer.py:7-42 | the used variables are the template's names found in the context, with their context values; the missing ones are the names not found, once each; no name is both |
| Renderer.RenderIdentity | app/services/template_renderer.py:16-37 | content with no known placeholder renders to itself and uses nothing |
| TemplateContext.BaseContext | app/services/template_context.py:21-28 | the base context has the six study keys, in order |
| TemplateContext.BuildTemplateContextSpec | app/services/template_context.py:8-33 | a context exists exactly for a stored study; keys are the base keys then new extra keys; an extra value overrides the base value |
| PromptBuilder.StudyFactsLength | app/services/ai_prompt_builder.py:45-50 | one study-fact line per truthy phase, indication and sponsor |
| PromptBuilder.ContextBlocksLength | app/services/ai_prompt_builder.py:56-79 | three lines per non-empty protocol, sap, tlf and csr_prev context |
| PromptBuilder.PromptLineCount | app/services/ai_prompt_builder.py:31-101 | the part count is 16 fixed lines plus one per truthy fact, three per non-empty context and four for a current text, so each optional part appears exactly when its input is set |
| PromptBuilder.ContextIgnoresOtherKeys | app/services/ai_prompt_builder.py:56-79 | context keys other than the four known ones do not affect the prompt |
| PromptBuilder.ContextBlocksHold | app/services/ai_prompt_builder.py:56-79 | a non-empty known context text is one of the block lines |
| PromptBuilder.PromptLinesParts | app/services/ai_prompt_builder.py:31-99 | the parts start with the header and contain every line of the context, current-text and closing blocks |
| PromptBuilder.PromptOpening | app/services/ai_prompt_builder.py:32-41 | the prompt opens with the role, study and section lines and contains the Russian-language instruction |
| PromptBuilder.PromptHasContext | app/services/ai_prompt_builder.py:56-101 | every non-empty known context text reaches the prompt |
| PromptBuilder.PromptHasClosing | app/services/ai_prompt_builder.py:81-101 | a truthy current text reaches the prompt; so does the user instruction when truthy, and the default task otherwise |
| AiGenerate.RagVariables | app/api/v1/ai.py:67-72 | the RAG variables have exactly the four renamed keys |
| AiGenerate.RagVariablesSpec | app/api/v1/ai.py:67-72 | each variable holds its source type's block, or "" when that type has none |
| AiGenerate.PromptOrder | app/api/v1/ai.py:84 | default first, then higher version, is a total preorder |
| AiGenerate.Candidates | app/api/v1/ai.py:76-83 | the candidates are exactly the active Russian prompt templates of the section |
| AiGenerate.SelectPromptTemplateSpec | app/api/v1/ai.py:76-86 | a template is found exactly when a candidate exists; it is a candidate, default if any is default, and of the highest version among equally default ones |
| AiGenerate.MergeContextPrecedence | app/api/v1/ai.py:91-95 | in the merged context a RAG variable wins over a study entry of the same name; other entries come from the study |
| AiGenerate.FallbackPromptSpec | app/api/v1/ai.py:97-109 | the fallback starts with the user prompt or the default task and ignores the previous-CSR context |
| AiGenerate.FallbackPromptContents | app/api/v1/ai.py:97-109 | the fallback prompt is the user prompt or default task, then the PROTOCOL, SAP and TLF SUMMARY headings in that order, each followed by that source type's RAG text ("" when it has none) |
| AiGenerate.GenerateChecks | app/api/v1/ai.py:36-59 | access is checked first, then section (404), CSR document (404) and study (400); a request passing all gets a prompt |
| ContentLanguage.ResolveContentLanguage | app/services/language_resolver.py:17-74 | the content language is always "ru" or "en" |
| ContentLanguage.ResolveContentLanguagePrecedence | app/services/language_resolver.py:58-74 | the first supported language of document, user and request decides; unsupported values are skipped; otherwise "en" |
| RequestLanguage.GetRequestLanguage | app/deps/language.py:16-51 | the request language is always "ru" or "en" |
| RequestLanguage.GetRequestLanguageSpec | app/deps/language.py:32-51 | a supported user preference wins; else "ru" exactly when the lower-cased header contains "ru", else "en", including for a missing or empty header |
| RequestLanguage.ContentFollowsRequest | app/services/language_resolver.py:64-71 | without a document, content language equals the request language of the same user |
| Messages.SameKeys | app/i18n/messages.py:6-31 | Russian and English define the same keys |
| Messages.NormalizeLanguage | app/i18n/messages.py:49 | normalisation yields "ru" or "en" |
| Messages.NormalizeLanguageSpec | app/i18n/messages.py:49 | "ru" exactly when the code is non-empty and its lower-case form starts with "ru" |
| Messages.Lookup | app/i18n/messages.py:51-62 | the language's template, else the English one, else the key itself |
| Messages.LookupNoCrossFallback | app/i18n/messages.py:55-62 | because the key sets are equal, a key is found in the normalised language or falls back to itself |
| Messages.FormatEscape | app/i18n/messages.py:65-67 | formatting an escaped text gives it back, whatever the arguments |
| Messages.FormatPlain | app/i18n/messages.py:65-67 | a template without braces formats to itself |
| Messages.FormatField | app/i18n/messages.py:67-68 | a named field is replaced by its keyword value; a missing keyword is a key error |
| Messages.FormatPlainPrefix | app/i18n/messages.py:67 | brace-free text passes through formatting unchanged ahead of the rest |
| Messages.T | app/i18n/messages.py:34-72 | without arguments the template as is; with arguments the formatted template, or the template itself on a key or value error |
| QcConfig.GetQcConfigForLanguage | app/services/qc_config.py:42-56 | "ru" gets the Russian configuration; any other code gets the English one |
| QcConfig.GetQcRuleConfig | app/services/qc_config.py:59-81 | REQUIRED_SECTIONS gets the required_sections section; a code without a mapping gets the empty mapping |
| QcConfig.RequiredSectionsEverywhere | app/services/qc_config.py:12-81 | in every language required_sections is enabled with severity warning; any other rule code gets the empty mapping |
| QcModel.ParseSeverity | app/models/qc.py:15-19 | a parsed severity names the stored string |
| QcModel.SeverityRoundTrip | app/models/qc.py:46-51 | each severity parses back from its name; exactly info, warning and error parse |
| QcModel.ParseIssueStatus | app/models/qc.py:22-26 | a parsed status names the stored string |
| QcModel.IssueStatusRoundTrip | app/models/qc.py:80-83 | each status parses back from its name; exactly open, resolved and wont_fix parse |
| QcModel.NewRule | app/models/qc.py:32-41 | a rule without a severity gets info; one without is_active is active |
| QcModel.NewIssue | app/models/qc.py:57-67 | an issue without a status is open |
| QcRules.GetOrCreateRequiredSectionsRule | app/services/qc_rules.py:8-26 | returns the stored REQUIRED_SECTIONS rule unchanged, or adds exactly one new active warning rule |
| QcRules.GetOrCreateIdempotent | app/services/qc_rules.py:12-26 | a second get-or-create returns the same rule and creates nothing |
| QcRules.GetOrCreateKeepsCodesUnique | app/services/qc_rules.py:12-24 | get-or-create keeps rule codes unique |
| QcRules.MissingSectionsSpec | app/services/qc_rules.py:53-62 | the missing codes are the required codes minus the document's codes |
| QcRules.MissingSectionsDistinct | app/services/qc_rules.py:59-62 | no missing section is listed twice |
| QcRules.NewIssues | app/services/qc_rules.py:72-87 | one open, section-less issue per missing section, with the rule's severity and the Russian message |
| QcRules.CheckIssueFields | app/services/qc_rules.py:41-87 | every new issue is open and section-less, with the study, document, rule and severity; an inactive rule or an unknown document raises nothing and keeps the issues |
| QcRules.CheckIssuesAreNew | app/services/qc_rules.py:64-87 | the new issues are one per missing section, appended after the kept issues |
| QcRules.CheckCount | app/services/qc_rules.py:72-87 | as many issues as missing sections |
| QcRules.CheckMessages | app/services/qc_rules.py:72-85 | the messages name exactly the missing sections, one issue each |
| QcRules.CheckDeletesOnlyReplaced | app/services/qc_rules.py:64-69 | only open issues of this document and rule are deleted |
| QcRules.CheckLeavesOnlyNewOpen | app/services/qc_rules.py:64-87 | afterwards the document's open issues of the rule are exactly the new ones |
| QcRules.CheckKeepsRule | app/services/qc_rules.py:41-42 | the check keeps the rule, so a later get-or-create returns it unchanged |
| QcRules.CheckRerun | app/services/qc_rules.py:29-95 | re-running on unchanged sections raises the same issues up to fresh ids |
| QcRules.RunQcRulesForDocument | app/services/qc_rules.py:98-117 | the run returns the required-sections check's issues, all open and of the document; there are none when the rule is inactive or the document unknown |
| SectionDefaults.DefaultCodesDistinct | app/services/csr_defaults.py:6-12 | the default codes are SYNOPSIS, EFFICACY, SAFETY, PK and DISCUSSION, all distinct |
| SectionDefaults.DefaultDocumentTitle | app/services/csr_defaults.py:40 | an absent or empty title gives "CSR for study {id}" |
| CsrDefaults.DefaultSectionRows | app/services/csr_defaults.py:50-58 | the default sections in list order with order_index 1 to 5 |
| CsrDefaults.DefaultRowsShape | app/services/csr_defaults.py:50-58 | five rows of the document, numbered 1 to 5, carrying the default codes in order |
| CsrDefaults.EnsureCsrDocumentWithDefaultSections | app/services/csr_defaults.py:15-64 | an existing document is returned unchanged; otherwise a draft is created with the title or the default; sections are added only to a document with none |
| CsrDefaults.EnsureIdempotent | app/services/csr_defaults.py:35-58 | a second call adds nothing and returns the same document |
| OutputDefaults.DefaultSectionRows | app/services/output_document_defaults.py:54-62 | the default output sections with order_index 1 to 5 |
| OutputDefaults.EnsureOutputDocumentWithDefaultSections | app/services/output_document_defaults.py:16-68 | the same get-or-create on output documents: existing unchanged, else a draft with the title or the default; sections only when none |
| OutputDefaults.EnsureIdempotent | app/services/output_document_defaults.py:39-62 | a second call adds nothing and keeps the title |
| CsrLink.StatusOrDraft | app/services/csr_document_link.py:115 | the document's status when set, else "draft" |
| CsrLink.LinkFirst | app/services/csr_document_link.py:103-106 | only the study's first CSR record changes, and only its document link |
| CsrLink.LinkFirstFound | app/services/csr_document_link.py:103-106 | the study's first CSR record, linked, is in the table |
| CsrLink.LinkFirstAgain | app/services/csr_document_link.py:103-106 | linking twice is linking once |
| CsrLink.GetOrCreateCsrForDocument | app/services/csr_document_link.py:65-135 | non-"csr" type and missing study fail without changes; a linked output document is returned unchanged |
| CsrLink.LegacyLink | app/services/csr_document_link.py:102-109 | the study's existing CSR record gets the link and no second record is created |
| CsrLink.CreateLinked | app/services/csr_document_link.py:111-129 | otherwise a new linked record with the document's title and status-or-draft, plus the five default sections |
| CsrLink.LinkAgain | app/services/csr_document_link.py:98-109 | linking the same document twice changes nothing the second time |
| CsrLink.GetOrCreateCsrForDocumentAsWritten | app/services/csr_document_link.py:65-135 | as written the link is never stored, and any success agrees with the corrected service |
| CsrLink.AsWrittenCannotCreate | app/services/csr_document_link.py:112-117 | as written, a study with no CSR record cannot get one: the unknown document_id keyword fails, while the corrected service creates it |
| CsrLink.DefaultStudyDocumentTitle | app/services/csr_document_link.py:43-49 | "CSR for {code}", else "CSR for {title}", else "CSR for Study {id}" |
| CsrLink.GetOrCreateCsrForStudy | app/services/csr_document_link.py:9-62 | reuses the study's first "csr" document, else creates a draft one (an explicit title wins), then links it; it always succeeds |
| CsrLink.StudyEntryIdempotent | app/services/csr_document_link.py:31-62 | asking twice for a study's CSR returns the same record and changes nothing more |
| Documents.DefaultCsrTitle | app/api/v1/documents.py:45 | "CSR for {code}", or "CSR for Study {id}" without a code |
| Documents.GetOrCreateDefaultCsrDocument | app/api/v1/documents.py:17-56 | a missing study gives None with no change; an existing "csr" document is returned; otherwise a draft "csr" document by the user is created |
| Documents.GetOrCreateIdempotent | app/api/v1/documents.py:35-56 | repeated calls never create a second "csr" document |
| Documents.TypeThenCreatedPreorder | app/api/v1/documents.py:84 | type then created_at is a total preorder |
| Documents.ListDocuments | app/api/v1/documents.py:81-86 | the listing is a sorted permutation of the study's documents |
| Documents.ListDocumentsMembers | app/api/v1/documents.py:81-86 | the listing holds every document of the study and no other |
| Documents.ListDocumentsOrder | app/api/v1/documents.py:84 | types ascend, and creation times ascend within a type |
| Documents.ListStudyDocumentsSpec | app/api/v1/documents.py:60-87 | a denied listing changes nothing; a granted one changes the store only when asked to ensure the default, and then includes a "csr" document |
| Schemas.SortedNamesSpec | app/schemas/document.py:22-36 | the error messages list exactly the allowed types and statuses, sorted |
| Schemas.ValidateDocument | app/schemas/document.py:13-62 | accepted exactly when the type and any given status are allowed; the status defaults to "draft" and the language to "ru"; each failing field is reported |
| Schemas.LanguageUnchecked | app/schemas/document.py:20 | the language is never validated and is kept as given |
| Schemas.ValidateUiLanguage | app/schemas/user.py:29-34 | ui_language is accepted unchanged exactly when omitted, "ru" or "en" |
| Schemas.ValidateUserUpdate | app/schemas/user.py:23-34 | only ui_language is checked; the other fields pass through |
| SourceModel.ParseLanguage | app/models/source.py:36 | a parsed language names the stored string |
| SourceModel.LanguageRoundTrip | app/models/source.py:36 | each language parses back; exactly "ru" and "en" parse |
| SourceModel.ParseSourceStatus | app/models/source.py:37 | a parsed status names the stored string |
| SourceModel.SourceStatusRoundTrip | app/models/source.py:37 | exactly active, superseded and archived parse, each back to itself |
| SourceModel.ParseIndexStatus | app/models/source.py:38 | a parsed index status names the stored string |
| SourceModel.IndexStatusRoundTrip | app/models/source.py:38 | exactly not_indexed, indexed and error parse, each back to itself |
| SourceModel.NewSourceDocument | app/models/source.py:24-30 | defaults: language ru, status active, current, RAG-enabled, not indexed |
| Store.FindStudy | app/deps/study_access.py:17 | the study with the id when one is stored, else nothing |
| Store.FindSource | app/services/rag_ingest.py:21 | the position of the first source document with the id, else nothing |
| Store.FindSourceFirst | app/services/rag_ingest.py:21 | the first row with the id is the one found |
| StudyMembers.FirstMembership | app/services/study_members.py:23-30 | the first membership row of the user in the study, or nothing when none exists |
| StudyMembers.FirstMembershipUnique | app/services/study_members.py:23-31 | under the unique constraint the row found is the only one |
| StudyMembers.GetUserStudyRoleSpec | app/services/study_members.py:11-35 | no role exactly when no membership row exists (including for unknown studies); otherwise that row's role |
| StudyAccess.FirstMembershipWithRole | app/deps/study_access.py:76-84 | none exactly when no membership of the user in the study has the role |
| StudyAccess.MissingStudyFirst | app/deps/study_access.py:17-22 | an unknown study is a 404 in all three checks, whatever the memberships |
| StudyAccess.AccessTiers | app/deps/study_access.py:11-151 | member, management and editor access succeed exactly for a stored study and any role, owner, or owner or editor; success returns that study |
| StudyAccess.AccessMonotone | app/deps/study_access.py:60-151 | management access implies editor access, which implies member access |
| Security.EncodeChar | app/core/security.py:17 | a character's UTF-8 encoding is a lead byte followed by continuation bytes, one byte exactly for ASCII |
| Security.TrimContinuation | app/core/security.py:22-23 | trimming keeps the longest prefix that is empty or ends in a non-continuation byte: every dropped byte is a continuation byte |
| Security.PasswordBytesAsWritten | app/core/security.py:17-23 | as written: the whole encoding when it fits; otherwise a prefix of the first 72 bytes that is empty or ends in a non-continuation byte, all of whose dropped bytes are continuation bytes |
| Security.DanglingLeadByte | app/core/security.py:20-23 | 70 "a" then "éb" is cut to a dangling 0xC3 that no string encodes to |
| Security.TakeCharsMaximal | app/core/security.py:19-23 | the corrected cut keeps the longest whole-character prefix that fits |
| Security.PasswordBytes | app/core/security.py:17-23 | corrected: at most 72 bytes, the encoding of a whole-character prefix |
| Security.PasswordBytesSpec | app/core/security.py:17-23 | corrected bytes are a prefix of the encoding, and the whole encoding when it fits |
| Security.CorrectedKeepsWholeCharacter | app/core/security.py:20-23 | on the example the corrected cut keeps the whole "é" |
| Security.EncodeLength | app/core/security.py:17 | a password never encodes to fewer bytes than it has characters |
| Security.CutsAgreeWhenFits | app/core/security.py:18-23 | within 72 bytes both cuts are the whole encoding, so the finding only affects longer passwords |
| Security.HashThenVerify | app/core/security.py:10-51 | with the source's cut on both sides, a password verifies against its own hash, and so does any password cut to the same bytes; a hash that checkpw rejects or raises on never verifies |
| Security.LongPasswordsAgree | app/core/security.py:17-23 | with the source's cut, passwords sharing a prefix longer than 72 characters are cut alike |
| Security.HashThenVerifyCorrected | app/core/security.py:10-51 | the same round trip with the corrected cut on both sides |
| Security.LongPasswordsAgreeCorrected | app/core/security.py:17-23 | the corrected cut, too, ignores everything past the 72nd character |

## Left out

- Extraction of text from files is the parameter `extract` of `Ingest.IngestSourceDocument`. It is a function from storage path to text or failure; reading the disk is not modelled.
- bcrypt hashing and checking are parameters of `Security.GetPasswordHash` and `Security.VerifyPassword`. So are the salt and JWT tokens. These are foreign cryptography. The checking parameter returns `None` where `bcrypt.checkpw` raises `ValueError` or `TypeError`, and that rejects the password, as the source does. Both functions use the source's cut; `Security.GetPasswordHashCorrected` and `Security.VerifyPasswordCorrected` are the same functions on the corrected cut.
- Security.EncodeChar: a Dafny `char` is a Unicode scalar value. A Python `str` can also hold lone surrogates, on which `.encode("utf-8")` raises; such passwords are not modelled.
- Retrieval.QueryEarliest: the limit is a `nat`. The source passes `limit_per_source` to SQL `LIMIT` unchecked, so a negative value depends on the database; every caller passes 5.
- The language-model call, its logging and the endpoint's response are left out: they are HTTP I/O. `AiGenerate.GenerateSectionPrompt` returns the prompt that would be sent.
- Timestamps are opaque integers supplied by the caller (`now`). The server clock is not modelled.
- Transactions, flush and refresh, and concurrent requests are not modelled: each call is atomic and sequential. Foreign-key checks are not modelled either.
- Primary keys come from one counter shared by all tables instead of one sequence per table.
- Store.FindStudy and the other lookups take the first matching row in storage order. Where the database returns an unspecified row, the model fixes that choice.
- Retrieval.QueryEarliest: rows with equal order_index keep their storage order (`Sorting.InsertionSortStable`). The database leaves this order unspecified.
- Documents.ListDocuments: documents with equal type and created_at keep their storage order, since the sort is stable (`Sorting.InsertionSortStable`). SQL `ORDER BY` leaves this order unspecified.
- QcRules.CheckMessages: issues come in the order of the default section list. The source iterates a Python set, whose order is unspecified. The properties about missing codes are stated on sets.
- Messages.T: only `{name}`, `{{` and `}}` are interpreted. Conversions, format specs, attribute and index fields are not. A positional field raises in the source and is a failure here.
- Renderer.PlaceholderAt: word characters are ASCII letters, digits and underscore. Python's `\w` also matches other Unicode letters and digits.
- RequestLanguage.GetRequestLanguageSpec: `lower()` is modelled for ASCII only. No non-ASCII character lowercases to "r", "u", "e" or "n", so the substring tests are unaffected.
- Messages.NormalizeLanguageSpec uses the same ASCII `lower()`, with the same argument.
- `str()` of a missing template value renders "None", as the code does.
- Chunking.ChunkText: paragraph preservation is stated on the visible (non-whitespace) characters in order, not on the paragraph strings. Cleaning rewrites whitespace inside chunks. `Chunking.GreedyFromFlatten` states it on whole paragraphs for the greedy pass.
- `_clean_whitespace` is not idempotent: newline runs are collapsed before the lines are stripped. No idempotence or "no three newlines in the result" is claimed.
- Retrieval has no language parameter or fallback in the code, so the model has none.
- The QC message and the prompt builder are Russian only in the code, and the model follows that.
- AiGenerate.EffectivePrompt renders `template.content`. The endpoint passes the template object, and the renderer reads its content.
- `Document.csr_document` points to the output-document table (app/models/document.py:32). `CsrLink.GetOrCreateCsrForDocument` therefore returns either an output document or a CSR record.
- AiGenerate.GenerateChecks: states which check fails and that a request passing all checks gets a prompt. The prompt's content is stated by `AiGenerate.SelectPromptTemplateSpec`, `AiGenerate.MergeContextPrecedence`, `AiGenerate.FallbackPromptSpec` and `AiGenerate.FallbackPromptContents`.
- PromptBuilder.PromptLineCount: the order of the optional parts is fixed by `PromptBuilder.PromptLines`. The lemmas state counts and containment, not positions after the header.
- The document schema validators of `DocumentBase` and `DocumentCreate` are identical and are modelled once, by `Schemas.ValidateDocument`.
- The output-document default section list equals the CSR one and is modelled once, by `SectionDefaults.DefaultCsrSections`.
- The remaining routers, `create_document`, DOCX export, middleware, configuration and migrations are routing and I/O glue around the modelled services.

## Findings

| source | as written | input that shows it | evidently intended | confidence | as-written member | corrected member |
|---|---|---|---|---|---|---|
| app/services/csr_document_link.py:103-117 | The CSR table (app/models/csr.py:13-19) has no document_id column. The legacy link is set only on the in-memory object, and creating a record passes document_id as a keyword, which the mapped class rejects. | A "csr" document of a study with no linked output document and no CSR record | The link is stored, and a linked record with the five default sections is created | high, not executed | CsrLink.GetOrCreateCsrForDocumentAsWritten (CsrLink.AsWrittenCannotCreate) | CsrLink.GetOrCreateCsrForDocument (CsrLink.LegacyLink, CsrLink.CreateLinked) |
| app/core/security.py:17-23 | After the 72-byte cut, the loop drops trailing continuation bytes but keeps the lead byte they belonged to | 70 "a" characters then "éb" (73 UTF-8 bytes): the cut ends in a lone 0xC3 | Cut at a whole-character boundary: the longest prefix of whole characters within 72 bytes | high, not executed | Security.PasswordBytesAsWritten (Security.DanglingLeadByte) | Security.PasswordBytes (Security.PasswordBytesSpec, Security.CorrectedKeepsWholeCharacter, Security.HashThenVerifyCorrected) |

=== FILE: access.dfy ===
/**
 * Study access checks: the study must exist (404), then the user's
 * membership must grant the tier (403). The checks only read.
 */
module StudyAccess {
  import opened Wrappers
  import opened Models
  import opened Store
  import opened StudyMembers

  datatype AccessError =
    | StudyNotFound
    | NotAMember
    | NotAnOwner
    | NotAnEditor
  {
    /** The HTTP status the error is raised with. */
    function Status(): int {
      if StudyNotFound? then 404 else 403
    }
  }

  /** The first membership row of the user in the study with the given role. */
  function FirstMembershipWithRole(members: seq<StudyMember>, studyId: int, userId: int, role: string)
    : (r: Option<StudyMember>)
    ensures r.None? <==>
      forall i :: 0 <= i < |members| ==> !(IsMembership(members[i], studyId, userId) && members[i].role == role)
    decreases |members|
  {
    if members == [] then None
    else if IsMembership(members[0], studyId, userId) && members[0].role == role then Some(members[0])
    else FirstMembershipWithRole(members[1..], studyId, userId, role)
  }

  /** `verify_study_access`: any membership will do. */
  function VerifyStudyAccess(db: Db, studyId: int, userId: int): Result<Study, AccessError> {
    match FindStudy(db.studies, studyId)
    case None => Failure(StudyNotFound)
    case Some(study) =>
      if FirstMembership(db.members, studyId, userId).None? then Failure(NotAMember)
      else Success(study)
  }

  /** `verify_study_management_access`: only an owner row will do. */
  function VerifyStudyManagementAccess(db: Db, studyId: int, userId: int): Result<Study, AccessError> {
    match FindStudy(db.studies, studyId)
    case None => Failure(StudyNotFound)
    case Some(study) =>
      if FirstMembershipWithRole(db.members, studyId, userId, "owner").None? then Failure(NotAnOwner)
      else Success(study)
  }

  /** `verify_study_editor_access`: the membership row must be an owner's or an editor's. */
  function VerifyStudyEditorAccess(db: Db, studyId: int, userId: int): Result<Study, AccessError> {
    match FindStudy(db.studies, studyId)
    case None => Failure(StudyNotFound)
    case Some(study) =>
      match FirstMembership(db.members, studyId, userId)
      case None => Failure(NotAMember)
      case Some(m) =>
        if m.role != "owner" && m.role != "editor" then Failure(NotAnEditor)
        else Success(study)
  }

  /** A missing study is a 404 for every check, whatever the memberships say. */
  lemma MissingStudyFirst(db: Db, studyId: int, userId: int)
    requires forall i :: 0 <= i < |db.studies| ==> db.studies[i].id != studyId
    ensures VerifyStudyAccess(db, studyId, userId) == Failure(StudyNotFound)
    ensures VerifyStudyManagementAccess(db, studyId, userId) == Failure(StudyNotFound)
    ensures VerifyStudyEditorAccess(db, studyId, userId) == Failure(StudyNotFound)
  {
  }

  /**
   * Each check succeeds exactly for a stored study and a user whose role
   * (as `get_user_study_role` reports it) grants the tier: any role, owner,
   * or owner or editor; a granted check returns the study asked for.
   */
  lemma AccessTiers(db: Db, studyId: int, userId: int)
    requires UniqueMemberships(db.members)
    ensures var role := GetUserStudyRole(db.members, userId, studyId);
      && (VerifyStudyAccess(db, studyId, userId).Success? <==> HasStudy(db, studyId) && role.Some?)
      && (VerifyStudyManagementAccess(db, studyId, userId).Success? <==> HasStudy(db, studyId) && role == Some("owner"))
      && (VerifyStudyEditorAccess(db, studyId, userId).Success? <==>
            HasStudy(db, studyId) && (role == Some("owner") || role == Some("editor")))
    ensures VerifyStudyAccess(db, studyId, userId).Success? ==> VerifyStudyAccess(db, studyId, userId).value.id == studyId
  {
    var owner := FirstMembershipWithRole(db.members, studyId, userId, "owner");
    if owner.Some? {
      var i :| 0 <= i < |db.members| && IsMembership(db.members[i], studyId, userId) && db.members[i].role == "owner";
      FirstMembershipUnique(db.members, studyId, userId, i);
    }
    if GetUserStudyRole(db.members, userId, studyId) == Some("owner") {
      var m := FirstMembership(db.members, studyId, userId).value;
      var i :| 0 <= i < |db.members| && db.members[i] == m;
      assert IsMembership(db.members[i], studyId, userId) && db.members[i].role == "owner";
    }
  }

  /** Tiers are nested: management access implies editor access, which implies member access. */
  lemma AccessMonotone(db: Db, studyId: int, userId: int)
    requires UniqueMemberships(db.members)
    ensures VerifyStudyManagementAccess(db, studyId, userId).Success? ==> VerifyStudyEditorAccess(db, studyId, userId).Success?
    ensures VerifyStudyEditorAccess(db, studyId, userId).Success? ==> VerifyStudyAccess(db, studyId, userId).Success?
  {
    AccessTiers(db, studyId, userId);
  }
}

=== FILE: ai_generate.dfy ===
/**
 * The pure part of the section-text generation endpoint: the checks it
 * makes before generating, the prompt template it picks, the context it
 * renders that template with, and the prompt it falls back to. Calling the
 * language model and logging the call are outside the model; the result is
 * the prompt that would be sent.
 */
module AiGenerate {
  import opened Wrappers
  import opened Seqs
  import opened Sorting
  import opened Assoc
  import opened Models
  import opened Store
  import opened StudyAccess
  import opened Retrieval
  import opened Renderer
  import opened TemplateContext
  import PromptBuilder

  datatype AiError =
    | AccessDenied(reason: AccessError)
    | SectionNotFound
    | CsrDocumentNotFound
    | SectionNotInStudy
    | StudyContextMissing(message: string)
  {
    function Status(): int {
      match this
      case AccessDenied(reason) => reason.Status()
      case SectionNotFound => 404
      case CsrDocumentNotFound => 404
      case SectionNotInStudy => 400
      case StudyContextMissing(_) => 500
    }
  }

  /** The template variable each RAG source type is exposed as. */
  const RagVariableNames: seq<string> := ["context_protocol", "context_sap", "context_tlf_summary", "context_csr_prev"]
  const RagSourceTypes: seq<string> := ["protocol", "sap", "tlf", "csr_prev"]

  /** The four RAG variables; a source type without a block gives the empty string. */
  function RagVariables(context: Dict<string>): (vars: Dict<string>)
    ensures Keys(vars) == RagVariableNames
  {
    [("context_protocol", Get(context, "protocol").GetOr("")),
     ("context_sap", Get(context, "sap").GetOr("")),
     ("context_tlf_summary", Get(context, "tlf").GetOr("")),
     ("context_csr_prev", Get(context, "csr_prev").GetOr(""))]
  }

  lemma RagVariableNamesDistinct()
    ensures NoDuplicates(RagVariableNames)
  {
    var lengths := [16, 11, 19, 16];
    assert forall i :: 0 <= i < 4 ==> |RagVariableNames[i]| == lengths[i];
    assert RagVariableNames[0][8] != RagVariableNames[3][8];
  }

  /** Each variable holds the block of its source type, renamed, or "" when the type has none. */
  lemma RagVariablesSpec(context: Dict<string>, i: nat)
    requires i < 4
    ensures ValidDict(RagVariables(context))
    ensures Get(RagVariables(context), RagVariableNames[i]) == Some(Get(context, RagSourceTypes[i]).GetOr(""))
  {
    RagVariableNamesDistinct();
    var vars := RagVariables(context);
    GetIn(vars, RagVariableNames[i], vars[i].1);
  }

  predicate IsPromptCandidate(t: Template, sectionCode: string) {
    t.templateType == "prompt" && t.sectionCode == Some(sectionCode) && t.language == "ru" && t.isActive
  }

  /** `ORDER BY is_default DESC, version DESC`: `a` may come before `b`. */
  predicate PromptPrecedes(a: Template, b: Template) {
    (a.isDefault && !b.isDefault) || (a.isDefault == b.isDefault && a.version >= b.version)
  }

  function PromptOrder(): (le: (Template, Template) -> bool)
    ensures TotalPreorder(le)
  {
    (a: Template, b: Template) => PromptPrecedes(a, b)
  }

  function Candidates(templates: seq<Template>, sectionCode: string): (r: seq<Template>)
    ensures forall t :: t in r <==> t in templates && IsPromptCandidate(t, sectionCode)
    decreases |templates|
  {
    if templates == [] then []
    else if IsPromptCandidate(templates[0], sectionCode) then [templates[0]] + Candidates(templates[1..], sectionCode)
    else Candidates(templates[1..], sectionCode)
  }

  /** The first template of the ordered query. */
  function SelectPromptTemplate(templates: seq<Template>, sectionCode: string): Option<Template> {
    var sorted := InsertionSort(Candidates(templates, sectionCode), PromptOrder());
    if sorted == [] then None else Some(sorted[0])
  }

  /**
   * A template is found exactly when an active Russian prompt template for
   * the section exists; it is one of them, a default one if any is default,
   * and of the highest version among those equally default.
   */
  lemma SelectPromptTemplateSpec(templates: seq<Template>, sectionCode: string)
    ensures var r := SelectPromptTemplate(templates, sectionCode);
      && (r.None? <==> forall t :: t in templates ==> !IsPromptCandidate(t, sectionCode))
      && (r.Some? ==>
            && r.value in templates && IsPromptCandidate(r.value, sectionCode)
            && forall t :: t in templates && IsPromptCandidate(t, sectionCode) ==>
                 (t.isDefault ==> r.value.isDefault) && (t.isDefault == r.value.isDefault ==> t.version <= r.value.version))
  {
    var c := Candidates(templates, sectionCode);
    var sorted := InsertionSort(c, PromptOrder());
    if sorted != [] {
      assert sorted[0] in multiset(c);
      assert sorted[0] in c;
      forall t | t in templates && IsPromptCandidate(t, sectionCode)
        ensures PromptPrecedes(sorted[0], t)
      {
        assert t in multiset(sorted);
        var j :| 0 <= j < |sorted| && sorted[j] == t;
        if j > 0 {
          assert PromptOrder()(sorted[0], sorted[j]);
        }
      }
    } else {
      assert c == [];
    }
  }

  function AsValues(vars: Dict<string>): Dict<Value> {
    MapPairs(vars, (s: string) => StrValue(s))
  }

  /** `{**base, **rag_vars}`: the study context overlaid with the RAG variables. */
  function MergeContext(base: Dict<Value>, vars: Dict<string>): Dict<Value> {
    Update(base, AsValues(vars))
  }

  /** A RAG variable wins over a study entry of the same name; every other entry comes from the study. */
  lemma MergeContextPrecedence(base: Dict<Value>, context: Dict<string>, k: string)
    ensures var full := MergeContext(base, RagVariables(context));
      Get(full, k) ==
        if k in RagVariableNames then Some(StrValue(Get(RagVariables(context), k).value)) else Get(base, k)
  {
    var vars := RagVariables(context);
    RagVariableNamesDistinct();
    assert ValidDict(AsValues(vars));
    UpdateGet(base, AsValues(vars), k);
    GetMapPairs(vars, (s: string) => StrValue(s), k);
  }

  /** The prompt sent when no template matches: the request's prompt or the default task, then three context blocks. */
  function FallbackPrompt(prompt: Option<string>, vars: Dict<string>): string {
    var basePrompt := if PromptBuilder.Truthy(prompt) then prompt.value else PromptBuilder.DefaultTask;
    basePrompt + FallbackBlocks(vars)
  }

  function FallbackBlocks(vars: Dict<string>): string {
    ContextSections(Get(vars, "context_protocol").GetOr(""), Get(vars, "context_sap").GetOr(""),
                    Get(vars, "context_tlf_summary").GetOr(""))
  }

  /** The three headed context sections of the fallback prompt, in order. */
  function ContextSections(protocol: string, sap: string, tlf: string): string {
    "\n\n"
    + "=== CONTEXT: PROTOCOL ===\n" + protocol + "\n\n"
    + "=== CONTEXT: SAP ===\n" + sap + "\n\n"
    + "=== CONTEXT: TLF SUMMARY ===\n" + tlf + "\n"
  }

  /**
   * The fallback starts with the caller's prompt (or the default task) and
   * ignores the previous-CSR context: two contexts that differ only there
   * give the same prompt.
   */
  lemma FallbackPromptSpec(prompt: Option<string>, context: Dict<string>, context': Dict<string>)
    requires Get(context, "protocol") == Get(context', "protocol")
    requires Get(context, "sap") == Get(context', "sap")
    requires Get(context, "tlf") == Get(context', "tlf")
    ensures FallbackPrompt(prompt, RagVariables(context)) == FallbackPrompt(prompt, RagVariables(context'))
    ensures var basePrompt := if PromptBuilder.Truthy(prompt) then prompt.value else PromptBuilder.DefaultTask;
      |FallbackPrompt(prompt, RagVariables(context))| >= |basePrompt|
      && FallbackPrompt(prompt, RagVariables(context))[..|basePrompt|] == basePrompt
  {
    assert FallbackBlocks(RagVariables(context)) == FallbackBlocks(RagVariables(context')) by {
      RagVariablesSpec(context, 0);
      RagVariablesSpec(context, 1);
      RagVariablesSpec(context, 2);
      RagVariablesSpec(context', 0);
      RagVariablesSpec(context', 1);
      RagVariablesSpec(context', 2);
    }
  }

  /**
   * The fallback's three context blocks, in the source's order: the
   * protocol, SAP and TLF texts of the RAG context under their headings,
   * each "" when that source type has no block.
   */
  lemma FallbackPromptContents(prompt: Option<string>, context: Dict<string>)
    ensures var basePrompt := if PromptBuilder.Truthy(prompt) then prompt.value else PromptBuilder.DefaultTask;
      FallbackPrompt(prompt, RagVariables(context)) ==
        basePrompt + ContextSections(Get(context, "protocol").GetOr(""), Get(context, "sap").GetOr(""),
                                     Get(context, "tlf").GetOr(""))
  {
    var vars := RagVariables(context);
    RagVariablesSpec(context, 0);
    RagVariablesSpec(context, 1);
    RagVariablesSpec(context, 2);
    assert Get(vars, "context_protocol").GetOr("") == Get(context, "protocol").GetOr("");
    assert Get(vars, "context_sap").GetOr("") == Get(context, "sap").GetOr("");
    assert Get(vars, "context_tlf_summary").GetOr("") == Get(context, "tlf").GetOr("");
  }

  function FindCsrSection(sections: seq<CsrSection>, id: int): Option<CsrSection> {
    FirstWhere(sections, (s: CsrSection) => s.id == id)
  }

  function FindCsrDocument(documents: seq<CsrDocument>, id: int): Option<CsrDocument> {
    FirstWhere(documents, (d: CsrDocument) => d.id == id)
  }

  /** The prompt for a section that passed the checks. */
  function EffectivePrompt(db: Db, studyId: int, section: CsrSection, prompt: Option<string>): Result<string, AiError> {
    var vars := RagVariables(BuildRagContextText(RetrieveRagChunks(db.chunks, studyId, None, DefaultLimitPerSource)));
    match SelectPromptTemplate(db.templates, section.code)
    case None => Success(FallbackPrompt(prompt, vars))
    case Some(template) =>
      match BuildTemplateContext(db.studies, studyId, None)
      case Failure(message) => Failure(StudyContextMissing(message))
      case Success(base) => Success(RenderTemplateContent(template.content, MergeContext(base, vars)).text)
  }

  /**
   * `generate_section_text` up to the model call: study access first, then
   * the section, its CSR document and the study they belong to.
   */
  function GenerateSectionPrompt(db: Db, userId: int, studyId: int, sectionId: int, prompt: Option<string>)
    : Result<string, AiError>
  {
    match VerifyStudyAccess(db, studyId, userId)
    case Failure(e) => Failure(AccessDenied(e))
    case Success(_) =>
      match FindCsrSection(db.csrSections, sectionId)
      case None => Failure(SectionNotFound)
      case Some(section) =>
        match FindCsrDocument(db.csrDocuments, section.documentId)
        case None => Failure(CsrDocumentNotFound)
        case Some(document) =>
          if document.studyId != studyId then Failure(SectionNotInStudy)
          else EffectivePrompt(db, studyId, section, prompt)
  }

  /**
   * The checks in their order: no access, no section (404), no CSR
   * document (404), another study's section (400); a request passing all
   * of them gets a prompt.
   */
  lemma GenerateChecks(db: Db, userId: int, studyId: int, sectionId: int, prompt: Option<string>)
    ensures var r := GenerateSectionPrompt(db, userId, studyId, sectionId, prompt);
      var access := VerifyStudyAccess(db, studyId, userId);
      var section := FindCsrSection(db.csrSections, sectionId);
      && (access.Failure? ==> r == Failure(AccessDenied(access.error)))
      && (access.Success? && section.None? ==> r == Failure(SectionNotFound))
      && (access.Success? && section.Some? ==>
            var document := FindCsrDocument(db.csrDocuments, section.value.documentId);
            && (document.None? ==> r == Failure(CsrDocumentNotFound))
            && (document.Some? && document.value.studyId != studyId ==> r == Failure(SectionNotInStudy))
            && (document.Some? && document.value.studyId == studyId ==> r.Success?))
  {
    var access := VerifyStudyAccess(db, studyId, userId);
    if access.Success? {
      assert FindStudy(db.studies, studyId).Some?;
    }
  }
}

=== FILE: assoc.dfy ===
/**
 * Python dictionaries with string keys, as association lists in insertion
 * order. Assigning to a present key keeps its position; a new key goes at
 * the end.
 */
module Assoc {
  import opened Wrappers
  import opened Seqs

  type Dict<V> = seq<(string, V)>

  function Keys<V>(d: Dict<V>): (r: seq<string>)
    ensures |r| == |d|
    ensures forall i :: 0 <= i < |d| ==> r[i] == d[i].0
    decreases |d|
  {
    if d == [] then [] else [d[0].0] + Keys(d[1..])
  }

  /** A well-formed dictionary holds each key once. */
  predicate ValidDict<V>(d: Dict<V>) {
    NoDuplicates(Keys(d))
  }

  /** `d.get(k)`. */
  function Get<V>(d: Dict<V>, k: string): (r: Option<V>)
    ensures r.None? <==> k !in Keys(d)
    ensures r.Some? ==> (k, r.value) in d
    decreases |d|
  {
    if d == [] then None
    else if d[0].0 == k then Some(d[0].1)
    else
      assert Keys(d) == [d[0].0] + Keys(d[1..]);
      Get(d[1..], k)
  }

  lemma ValidTail<V>(d: Dict<V>)
    requires d != [] && ValidDict(d)
    ensures ValidDict(d[1..])
    ensures d[0].0 !in Keys(d[1..])
  {
    assert Keys(d) == [d[0].0] + Keys(d[1..]);
    forall i, j | 0 <= i < j < |d[1..]|
      ensures Keys(d[1..])[i] != Keys(d[1..])[j]
    {
      assert Keys(d)[i + 1] != Keys(d)[j + 1];
    }
  }

  /** In a well-formed dictionary, `Get` finds exactly the stored pairs. */
  lemma {:induction false} GetIn<V>(d: Dict<V>, k: string, v: V)
    requires ValidDict(d)
    ensures Get(d, k) == Some(v) <==> (k, v) in d
    decreases |d|
  {
    if d != [] {
      ValidTail(d);
      if d[0].0 != k {
        GetIn(d[1..], k, v);
        assert (k, v) in d <==> (k, v) in d[1..];
      }
    }
  }

  /** `d[k] = v`. */
  function Put<V>(d: Dict<V>, k: string, v: V): (r: Dict<V>)
    decreases |d|
  {
    if d == [] then [(k, v)]
    else if d[0].0 == k then [(k, v)] + d[1..]
    else [d[0]] + Put(d[1..], k, v)
  }

  /** After `d[k] = v` the key maps to `v`. */
  lemma {:induction false} PutGetSame<V>(d: Dict<V>, k: string, v: V)
    ensures Get(Put(d, k, v), k) == Some(v)
    decreases |d|
  {
    if d != [] && d[0].0 != k {
      PutGetSame(d[1..], k, v);
    }
  }

  /** `d[k] = v` leaves every other key's value unchanged. */
  lemma {:induction false} PutGetOther<V>(d: Dict<V>, k: string, v: V, k': string)
    requires k' != k
    ensures Get(Put(d, k, v), k') == Get(d, k')
    decreases |d|
  {
    if d != [] && d[0].0 != k {
      PutGetOther(d[1..], k, v, k');
    }
  }

  /** `d[k] = v` keeps the key order and appends only a new key. */
  lemma {:induction false} PutKeys<V>(d: Dict<V>, k: string, v: V)
    ensures Keys(Put(d, k, v)) == if k in Keys(d) then Keys(d) else Keys(d) + [k]
    decreases |d|
  {
    if d != [] {
      assert Keys(d) == [d[0].0] + Keys(d[1..]);
      if d[0].0 == k {
        assert Keys(Put(d, k, v)) == [k] + Keys(d[1..]);
      } else {
        PutKeys(d[1..], k, v);
        assert Keys(Put(d, k, v)) == [d[0].0] + Keys(Put(d[1..], k, v));
      }
    }
  }

  lemma PutValid<V>(d: Dict<V>, k: string, v: V)
    requires ValidDict(d)
    ensures ValidDict(Put(d, k, v))
  {
    PutKeys(d, k, v);
    var ks := Keys(d);
    if k !in ks {
      assert forall i :: 0 <= i < |ks| ==> ks[i] != k;
    }
  }

  /** `d.update(e)`: the pairs of `e` assigned in order. */
  function Update<V>(d: Dict<V>, e: Dict<V>): Dict<V>
    decreases |e|
  {
    if e == [] then d else Update(Put(d, e[0].0, e[0].1), e[1..])
  }

  /** After `d.update(e)` a key of `e` has its value from `e`; every other key keeps its value from `d`. */
  lemma {:induction false} UpdateGet<V>(d: Dict<V>, e: Dict<V>, k: string)
    requires ValidDict(e)
    ensures Get(Update(d, e), k) == if k in Keys(e) then Get(e, k) else Get(d, k)
    decreases |e|
  {
    if e != [] {
      assert Keys(e) == [e[0].0] + Keys(e[1..]);
      ValidTail(e);
      UpdateGet(Put(d, e[0].0, e[0].1), e[1..], k);
      if k == e[0].0 {
        PutGetSame(d, k, e[0].1);
      } else {
        PutGetOther(d, e[0].0, e[0].1, k);
      }
    }
  }

  lemma {:induction false} UpdateValid<V>(d: Dict<V>, e: Dict<V>)
    requires ValidDict(d)
    ensures ValidDict(Update(d, e))
    decreases |e|
  {
    if e != [] {
      PutValid(d, e[0].0, e[0].1);
      UpdateValid(Put(d, e[0].0, e[0].1), e[1..]);
    }
  }

  lemma {:induction false} UpdateSnoc<V>(d: Dict<V>, e: Dict<V>, p: (string, V))
    ensures Update(d, e + [p]) == Put(Update(d, e), p.0, p.1)
    decreases |e|
  {
    if e == [] {
      assert e + [p] == [p];
    } else {
      assert (e + [p])[1..] == e[1..] + [p];
      UpdateSnoc(Put(d, e[0].0, e[0].1), e[1..], p);
    }
  }

  lemma KeysSnoc<V>(e: Dict<V>, p: (string, V))
    ensures Keys(e + [p]) == Keys(e) + [p.0]
  {
  }

  /**
   * The keys after `d.update(e)` are the keys of `d` followed by the new
   * keys of `e`, each in the position of its first assignment.
   */
  lemma {:induction false} UpdateKeys<V>(d: Dict<V>, e: Dict<V>)
    requires ValidDict(d)
    ensures Keys(Update(d, e)) == Dedup(Keys(d) + Keys(e))
    decreases |e|
  {
    if e == [] {
      assert Keys(d) + Keys(e) == Keys(d);
      DedupNoDuplicates(Keys(d));
    } else {
      var init := e[..|e| - 1];
      var p := e[|e| - 1];
      assert e == init + [p];
      UpdateKeys(d, init);
      UpdateSnoc(d, init, p);
      PutKeys(Update(d, init), p.0, p.1);
      KeysSnoc(init, p);
      assert Keys(d) + Keys(e) == (Keys(d) + Keys(init)) + [p.0];
      DedupSnoc(Keys(d) + Keys(init), p.0);
    }
  }

  /**
   * When every pair of `e` carries the value `f` gives its key, `d.update(e)`
   * maps each key of `e` to that value, repeats or not.
   */
  lemma {:induction false} UpdateGetUniform<V>(d: Dict<V>, e: Dict<V>, f: string -> V, k: string)
    requires forall i :: 0 <= i < |e| ==> e[i].1 == f(e[i].0)
    ensures Get(Update(d, e), k) == if k in Keys(e) then Some(f(k)) else Get(d, k)
    decreases |e|
  {
    if e != [] {
      assert Keys(e) == [e[0].0] + Keys(e[1..]);
      UpdateGetUniform(Put(d, e[0].0, e[0].1), e[1..], f, k);
      if k == e[0].0 {
        PutGetSame(d, k, e[0].1);
      } else {
        PutGetOther(d, e[0].0, e[0].1, k);
      }
    }
  }

  /** The pairs `(k, f(k))` for the keys `ks`, repeats included. */
  function Pairs<V>(ks: seq<string>, f: string -> V): (e: Dict<V>)
    ensures Keys(e) == ks
    ensures forall i :: 0 <= i < |e| ==> e[i].1 == f(e[i].0)
    decreases |ks|
  {
    if ks == [] then [] else [(ks[0], f(ks[0]))] + Pairs(ks[1..], f)
  }

  /** `{k: f(k) for k in ks}` built by assigning in order. */
  function FromKeys<V>(ks: seq<string>, f: string -> V): Dict<V> {
    Update([], Pairs(ks, f))
  }

  /** The dictionary holds each requested key once, in first-request order, with its value. */
  lemma FromKeysSpec<V>(ks: seq<string>, f: string -> V, k: string)
    ensures ValidDict(FromKeys(ks, f))
    ensures Keys(FromKeys(ks, f)) == Dedup(ks)
    ensures Get(FromKeys(ks, f), k) == if k in ks then Some(f(k)) else None
  {
    var empty: Dict<V> := [];
    UpdateKeys(empty, Pairs(ks, f));
    assert Keys(empty) + ks == ks;
    UpdateGetUniform(empty, Pairs(ks, f), f, k);
  }

  /** The pairs of `d` with `f` applied to each value. */
  function MapPairs<V, W>(d: Dict<V>, f: V -> W): (e: Dict<W>)
    ensures Keys(e) == Keys(d)
    decreases |d|
  {
    if d == [] then [] else [(d[0].0, f(d[0].1))] + MapPairs(d[1..], f)
  }

  lemma {:induction false} GetMapPairs<V, W>(d: Dict<V>, f: V -> W, k: string)
    ensures Get(MapPairs(d, f), k) == if Get(d, k).Some? then Some(f(Get(d, k).value)) else None
    decreases |d|
  {
    if d != [] && d[0].0 != k {
      GetMapPairs(d[1..], f, k);
    }
  }

  /** `{k: f(v) for k, v in d.items()}` built by assigning in order. */
  function MapValues<V, W>(d: Dict<V>, f: V -> W): Dict<W> {
    Update([], MapPairs(d, f))
  }

  /** Mapping the values of a dictionary keeps its keys and their order. */
  lemma MapValuesSpec<V, W>(d: Dict<V>, f: V -> W, k: string)
    requires ValidDict(d)
    ensures ValidDict(MapValues(d, f))
    ensures Keys(MapValues(d, f)) == Keys(d)
    ensures Get(MapValues(d, f), k) == if Get(d, k).Some? then Some(f(Get(d, k).value)) else None
  {
    var empty: Dict<W> := [];
    UpdateKeys(empty, MapPairs(d, f));
    assert Keys(empty) + Keys(d) == Keys(d);
    DedupNoDuplicates(Keys(d));
    UpdateGet(empty, MapPairs(d, f), k);
    GetMapPairs(d, f, k);
  }
}

=== FILE: chunking.dfy ===
/**
 * The paragraph chunker of the RAG pipeline (`chunk_text` and
 * `_clean_whitespace`): text is cut at blank lines into paragraphs, the
 * paragraphs are packed greedily into chunks bounded by a maximum size, and
 * chunks shorter than a minimum are merged into their predecessor when the
 * result still fits. Sizes count characters (code points).
 */
module Chunking {
  import opened Text
  import opened Seqs

  const ParagraphSeparator: string := "\n\n"
  const DefaultMaxChunkSize: int := 1000
  const DefaultMinChunkSize: int := 300

  /** Every chunk holds at least one non-whitespace character. */
  predicate AllVisible(chunks: seq<string>) {
    forall i :: 0 <= i < |chunks| ==> NonSpace(chunks[i]) != []
  }

  predicate NoDoubleSpace(s: string) {
    forall i :: 0 <= i < |s| - 1 ==> !(s[i] == ' ' && s[i + 1] == ' ')
  }

  predicate NoTripleNewline(s: string) {
    forall i :: 0 <= i < |s| - 2 ==> !(s[i] == '\n' && s[i + 1] == '\n' && s[i + 2] == '\n')
  }

  // ---------------------------------------------------------------------------
  // _clean_whitespace
  // ---------------------------------------------------------------------------

  /**
   * `re.sub(r'\n{3,}', '\n\n', s)`. Every maximal run of three or more
   * newlines shrinks to two; equivalently, a newline is dropped exactly when
   * the two input characters before it are newlines too.
   */
  function CollapseNewlineRuns(s: string): (r: string)
    ensures |r| <= |s|
    ensures NonSpace(r) == NonSpace(s)
    decreases |s|
  {
    if |s| < 3 then
      s
    else
      var init := s[..|s| - 1];
      var last := s[|s| - 1];
      var head := CollapseNewlineRuns(init);
      CollapseStepVisible(s, head);
      if s[|s| - 3..] == "\n\n\n" then head else head + [last]
  }

  lemma CollapseStepVisible(s: string, head: string)
    requires |s| >= 3
    requires NonSpace(head) == NonSpace(s[..|s| - 1])
    ensures NonSpace(if s[|s| - 3..] == "\n\n\n" then head else head + [s[|s| - 1]]) == NonSpace(s)
  {
    var init := s[..|s| - 1];
    var last := s[|s| - 1];
    assert s == init + [last];
    NonSpaceAppend(init, [last]);
    NonSpaceAppend(head, [last]);
    if s[|s| - 3..] == "\n\n\n" {
      assert last == '\n';
      assert NonSpace([last]) == [];
    }
  }

  /** The collapsed text ends like the input and never holds three newlines in a row. */
  lemma {:induction false} CollapseNewlineRunsShape(s: string)
    ensures |s| < 3 ==> CollapseNewlineRuns(s) == s
    ensures |s| >= 2 ==>
              |CollapseNewlineRuns(s)| >= 2 &&
              CollapseNewlineRuns(s)[|CollapseNewlineRuns(s)| - 2..] == s[|s| - 2..]
    ensures NoTripleNewline(CollapseNewlineRuns(s))
    decreases |s|
  {
    if |s| >= 3 {
      var init := s[..|s| - 1];
      CollapseNewlineRunsShape(init);
      var head := CollapseNewlineRuns(init);
      var r := CollapseNewlineRuns(s);
      assert init[|init| - 2..] == s[|s| - 3..|s| - 1];
      if s[|s| - 3..] != "\n\n\n" {
        assert r == head + [s[|s| - 1]];
        forall i | 0 <= i < |r| - 2
          ensures !(r[i] == '\n' && r[i + 1] == '\n' && r[i + 2] == '\n')
        {
          if i == |r| - 3 {
            assert r[i] == head[|head| - 2] == s[|s| - 3];
            assert r[i + 1] == head[|head| - 1] == s[|s| - 2];
            assert r[i + 2] == s[|s| - 1];
          } else {
            assert r[i] == head[i] && r[i + 1] == head[i + 1] && r[i + 2] == head[i + 2];
          }
        }
      }
    }
  }

  /** `re.sub(r' +', ' ', s)`: every run of spaces becomes one space. */
  function SqueezeSpaces(s: string): (r: string)
    ensures |r| <= |s|
    ensures |s| > 0 ==> |r| > 0 && r[0] == s[0]
    ensures NoDoubleSpace(r)
    ensures NonSpace(r) == NonSpace(s)
    decreases |s|
  {
    if |s| < 2 then
      s
    else if s[0] == ' ' && s[1] == ' ' then
      SqueezeSpaces(s[1..])
    else
      var rest := SqueezeSpaces(s[1..]);
      NonSpaceAppend([s[0]], rest);
      NonSpaceAppend([s[0]], s[1..]);
      assert s == [s[0]] + s[1..];
      [s[0]] + rest
  }

  /** One line of `_clean_whitespace`: stripped, then spaces squeezed. */
  function CleanLine(line: string): string {
    SqueezeSpaces(Strip(line))
  }

  function CleanLines(lines: seq<string>): (r: seq<string>)
    ensures |r| == |lines|
    decreases |lines|
  {
    if lines == [] then [] else [CleanLine(lines[0])] + CleanLines(lines[1..])
  }

  lemma NoDoubleSpaceAroundNewline(a: string, b: string)
    requires NoDoubleSpace(a) && NoDoubleSpace(b)
    ensures NoDoubleSpace(a + "\n" + b)
  {
    var s := a + "\n" + b;
    forall i | 0 <= i < |s| - 1
      ensures !(s[i] == ' ' && s[i + 1] == ' ')
    {
      if i < |a| - 1 {
        assert s[i] == a[i] && s[i + 1] == a[i + 1];
      } else if i > |a| {
        assert s[i] == b[i - |a| - 1] && s[i + 1] == b[i - |a|];
      }
    }
  }

  /** Cleaning every line, then joining, shortens and keeps the visible text. */
  lemma {:induction false} CleanLinesJoin(lines: seq<string>)
    ensures |Join(CleanLines(lines), "\n")| <= |Join(lines, "\n")|
    ensures NoDoubleSpace(Join(CleanLines(lines), "\n"))
    ensures NonSpace(Join(CleanLines(lines), "\n")) == NonSpace(Join(lines, "\n"))
    decreases |lines|
  {
    var cl := CleanLines(lines);
    if |lines| >= 2 {
      assert cl[1..] == CleanLines(lines[1..]);
      CleanLinesJoin(lines[1..]);
      var a := cl[0];
      var b := Join(cl[1..], "\n");
      assert Join(cl, "\n") == a + "\n" + b;
      NoDoubleSpaceAroundNewline(a, b);
      NonSpaceAppend(a + "\n", b);
      NonSpaceAppend(a, "\n");
      NonSpaceAppend(lines[0] + "\n", Join(lines[1..], "\n"));
      NonSpaceAppend(lines[0], "\n");
    }
  }

  /** Removing characters from both ends keeps the "no double space" property. */
  lemma NoDoubleSpaceSlice(s: string, i: nat, j: nat)
    requires i <= j <= |s|
    requires NoDoubleSpace(s)
    ensures NoDoubleSpace(s[i..j])
  {
    var t := s[i..j];
    forall k | 0 <= k < |t| - 1
      ensures !(t[k] == ' ' && t[k + 1] == ' ')
    {
      assert t[k] == s[i + k] && t[k + 1] == s[i + k + 1];
    }
  }

  /**
   * `_clean_whitespace`: collapse newline runs, strip each line and squeeze
   * its spaces, re-join, strip the whole.
   */
  function CleanWhitespace(s: string): (r: string)
    ensures |r| <= |s|
    ensures r == [] || (!IsSpace(r[0]) && !IsSpace(r[|r| - 1]))
    ensures NoDoubleSpace(r)
    ensures NonSpace(r) == NonSpace(s)
  {
    var collapsed := CollapseNewlineRuns(s);
    var lines := Split(collapsed, "\n");
    var joined := Join(CleanLines(lines), "\n");
    CleanLinesJoin(lines);
    JoinSplit(collapsed, "\n");
    var l := StripLeft(joined);
    NoDoubleSpaceSlice(joined, |joined| - |l|, |joined|);
    NoDoubleSpaceSlice(l, 0, |StripRight(l)|);
    Strip(joined)
  }

  /** Cleaning keeps some visible character exactly when the input has one. */
  lemma CleanWhitespaceEmptyIff(s: string)
    ensures CleanWhitespace(s) == [] <==> NonSpace(s) == []
  {
    var r := CleanWhitespace(s);
    if r != [] {
      assert NonSpace(r) == [r[0]] + NonSpace(r[1..]);
    }
  }

  // ---------------------------------------------------------------------------
  // chunk_text
  // ---------------------------------------------------------------------------

  lemma StrippedCons(p: string, rest: seq<string>)
    requires p != [] && !IsSpace(p[0])
    requires AllVisible(rest)
    ensures AllVisible([p] + rest)
    ensures NonSpace(Concat([p] + rest)) == NonSpace(p) + NonSpace(Concat(rest))
  {
    assert NonSpace(p) == [p[0]] + NonSpace(p[1..]);
    assert ([p] + rest)[1..] == rest;
    NonSpaceAppend(p, Concat(rest));
    forall i | 0 <= i < |[p] + rest|
      ensures NonSpace(([p] + rest)[i]) != []
    {
      if i > 0 {
        assert ([p] + rest)[i] == rest[i - 1];
      }
    }
  }

  /** The stripped pieces that are not empty, in order. */
  function StrippedNonEmpty(pieces: seq<string>): (r: seq<string>)
    ensures AllVisible(r)
    ensures NonSpace(Concat(r)) == NonSpace(Concat(pieces))
    decreases |pieces|
  {
    if pieces == [] then []
    else
      var p := Strip(pieces[0]);
      var rest := StrippedNonEmpty(pieces[1..]);
      NonSpaceAppend(pieces[0], Concat(pieces[1..]));
      if p == [] then
        rest
      else
        StrippedCons(p, rest);
        [p] + rest
  }

  /** The paragraphs `chunk_text` packs: pieces between "\n\n", stripped, empty ones skipped. */
  function Paragraphs(text: string): (r: seq<string>)
    ensures AllVisible(r)
    ensures NonSpace(Concat(r)) == NonSpace(text)
  {
    var pieces := Split(text, ParagraphSeparator);
    JoinSplit(text, ParagraphSeparator);
    NonSpaceJoin(pieces, ParagraphSeparator);
    StrippedNonEmpty(pieces)
  }

  /**
   * The shape of the greedy pass's output: no group is empty, a group of two
   * or more paragraphs fits in `maxSize` once joined, and a group is closed
   * only because adding the next paragraph would have exceeded `maxSize`.
   */
  predicate GreedyShape(groups: seq<seq<string>>, maxSize: int) {
    && (forall i :: 0 <= i < |groups| ==> |groups[i]| >= 1)
    && (forall i :: 0 <= i < |groups| ==> |groups[i]| >= 2 ==> |Join(groups[i], ParagraphSeparator)| <= maxSize)
    && (forall i :: 0 <= i < |groups| - 1 ==> |groups[i + 1]| >= 1 ==>
          |Join(groups[i] + [groups[i + 1][0]], ParagraphSeparator)| > maxSize)
  }

  /** Appending a group that respects the greedy rule keeps the shape. */
  lemma GreedyShapeSnoc(done: seq<seq<string>>, g: seq<string>, maxSize: int)
    requires GreedyShape(done, maxSize)
    requires |g| >= 1
    requires |g| >= 2 ==> |Join(g, ParagraphSeparator)| <= maxSize
    requires |done| > 0 ==> |Join(done[|done| - 1] + [g[0]], ParagraphSeparator)| > maxSize
    ensures GreedyShape(done + [g], maxSize)
  {
    var d := done + [g];
    forall i | 0 <= i < |d|
      ensures |d[i]| >= 1
      ensures |d[i]| >= 2 ==> |Join(d[i], ParagraphSeparator)| <= maxSize
    {
      if i < |done| {
        assert d[i] == done[i];
      }
    }
    forall i | 0 <= i < |d| - 1
      ensures |Join(d[i] + [d[i + 1][0]], ParagraphSeparator)| > maxSize
    {
      assert d[i] == done[i];
      if i + 1 < |done| {
        assert d[i + 1] == done[i + 1];
      }
    }
  }

  /**
   * The greedy loop of `chunk_text`, with `done` the closed groups and
   * `current` the open one.
   */
  function GreedyFrom(done: seq<seq<string>>, current: seq<string>, paragraphs: seq<string>, maxSize: int)
    : seq<seq<string>>
    decreases |paragraphs|
  {
    if paragraphs == [] then
      if current == [] then done else done + [current]
    else
      var p := paragraphs[0];
      if current != [] && |Join(current + [p], ParagraphSeparator)| > maxSize then
        GreedyFrom(done + [current], [p], paragraphs[1..], maxSize)
      else
        GreedyFrom(done, current + [p], paragraphs[1..], maxSize)
  }

  /** The greedy loop neither drops, duplicates nor reorders paragraphs. */
  lemma {:induction false} GreedyFromFlatten(done: seq<seq<string>>, current: seq<string>, paragraphs: seq<string>, maxSize: int)
    ensures Flatten(GreedyFrom(done, current, paragraphs, maxSize)) == Flatten(done) + current + paragraphs
    decreases |paragraphs|
  {
    if paragraphs == [] {
      if current != [] {
        FlattenAppend(done, [current]);
        assert Flatten([current]) == current + Flatten([]);
      }
    } else {
      var p := paragraphs[0];
      assert paragraphs == [p] + paragraphs[1..];
      if current != [] && |Join(current + [p], ParagraphSeparator)| > maxSize {
        GreedyFromFlatten(done + [current], [p], paragraphs[1..], maxSize);
        FlattenAppend(done, [current]);
        assert Flatten([current]) == current + Flatten([]);
      } else {
        GreedyFromFlatten(done, current + [p], paragraphs[1..], maxSize);
      }
    }
  }

  /** The greedy loop closes a group only when the next paragraph does not fit. */
  lemma {:induction false} GreedyFromShape(done: seq<seq<string>>, current: seq<string>, paragraphs: seq<string>, maxSize: int)
    requires GreedyShape(done, maxSize)
    requires current == [] ==> done == []
    requires |current| >= 2 ==> |Join(current, ParagraphSeparator)| <= maxSize
    requires |done| > 0 && |current| > 0 ==>
               |Join(done[|done| - 1] + [current[0]], ParagraphSeparator)| > maxSize
    ensures GreedyShape(GreedyFrom(done, current, paragraphs, maxSize), maxSize)
    decreases |paragraphs|
  {
    if paragraphs == [] {
      if current != [] {
        GreedyShapeSnoc(done, current, maxSize);
      }
    } else {
      var p := paragraphs[0];
      if current != [] && |Join(current + [p], ParagraphSeparator)| > maxSize {
        GreedyShapeSnoc(done, current, maxSize);
        var done' := done + [current];
        assert done'[|done'| - 1] == current;
        GreedyFromShape(done', [p], paragraphs[1..], maxSize);
      } else {
        if current != [] {
          assert (current + [p])[0] == current[0];
        }
        GreedyFromShape(done, current + [p], paragraphs[1..], maxSize);
      }
    }
  }

  /** The greedy pass: consecutive paragraphs grouped into chunks, none split. */
  function GreedyGroups(paragraphs: seq<string>, maxSize: int): (r: seq<seq<string>>)
    ensures GreedyShape(r, maxSize)
    ensures Flatten(r) == paragraphs
  {
    GreedyFromFlatten([], [], paragraphs, maxSize);
    GreedyFromShape([], [], paragraphs, maxSize);
    GreedyFrom([], [], paragraphs, maxSize)
  }

  /** A group of visible paragraphs joins into visible text. */
  lemma GroupVisible(group: seq<string>)
    requires |group| >= 1
    requires forall i :: 0 <= i < |group| ==> NonSpace(group[i]) != []
    ensures NonSpace(Join(group, ParagraphSeparator)) != []
  {
    NonSpaceJoin(group, ParagraphSeparator);
    NonSpaceAppend(group[0], Concat(group[1..]));
  }

  /**
   * Closing each group: join with "\n\n", clean, keep the chunk when it is
   * not empty.
   */
  function GroupChunks(groups: seq<seq<string>>): seq<string>
    decreases |groups|
  {
    if groups == [] then
      []
    else
      var c := CleanWhitespace(Join(groups[0], ParagraphSeparator));
      if c == [] then GroupChunks(groups[1..]) else [c] + GroupChunks(groups[1..])
  }

  /** Closing one group: join with "\n\n" and clean. */
  function CloseGroup(group: seq<string>): string {
    CleanWhitespace(Join(group, ParagraphSeparator))
  }

  lemma {:induction false} GroupChunksIsMap(groups: seq<seq<string>>)
    ensures GroupChunks(groups) == MapNonEmpty(groups, CloseGroup)
    decreases |groups|
  {
    if groups != [] {
      GroupChunksIsMap(groups[1..]);
    }
  }

  /** Groups with visible text are never dropped: chunk `i` is group `i`, cleaned. */
  lemma GroupChunksNoneDropped(groups: seq<seq<string>>)
    requires forall i :: 0 <= i < |groups| ==> NonSpace(Join(groups[i], ParagraphSeparator)) != []
    ensures |GroupChunks(groups)| == |groups|
    ensures forall i :: 0 <= i < |groups| ==>
              GroupChunks(groups)[i] == CleanWhitespace(Join(groups[i], ParagraphSeparator))
  {
    GroupChunksIsMap(groups);
    forall k | 0 <= k < |groups|
      ensures CloseGroup(groups[k]) != []
    {
      CleanWhitespaceEmptyIff(Join(groups[k], ParagraphSeparator));
    }
    if groups != [] {
      MapNonEmptyAt(groups, CloseGroup, 0);
    }
    forall i | 0 <= i < |groups|
      ensures GroupChunks(groups)[i] == CleanWhitespace(Join(groups[i], ParagraphSeparator))
    {
      MapNonEmptyAt(groups, CloseGroup, i);
    }
  }

  /** Closing the groups keeps every visible character of the paragraphs, in order. */
  lemma {:induction false} GroupChunksText(groups: seq<seq<string>>)
    ensures NonSpace(Concat(GroupChunks(groups))) == NonSpace(Concat(Flatten(groups)))
    decreases |groups|
  {
    if groups != [] {
      var g := groups[0];
      var c := CleanWhitespace(Join(g, ParagraphSeparator));
      var rest := GroupChunks(groups[1..]);
      GroupChunksText(groups[1..]);
      ConcatAppend(g, Flatten(groups[1..]));
      NonSpaceAppend(Concat(g), Concat(Flatten(groups[1..])));
      NonSpaceJoin(g, ParagraphSeparator);
      if c == [] {
        assert NonSpace(c) == [];
      } else {
        assert Concat([c] + rest) == c + Concat(rest) by { assert ([c] + rest)[1..] == rest; }
        NonSpaceAppend(c, Concat(rest));
      }
    }
  }

  /**
   * A chunk longer than `maxSize` is the cleaned form of one paragraph that
   * is itself longer than `maxSize`.
   */
  lemma GroupChunksSize(groups: seq<seq<string>>, maxSize: int)
    requires GreedyShape(groups, maxSize)
    requires forall i :: 0 <= i < |groups| ==> NonSpace(Join(groups[i], ParagraphSeparator)) != []
    ensures forall i :: 0 <= i < |GroupChunks(groups)| ==>
              (|GroupChunks(groups)[i]| <= maxSize ||
               exists p :: p in Flatten(groups) && |p| > maxSize && GroupChunks(groups)[i] == CleanWhitespace(p))
  {
    GroupChunksNoneDropped(groups);
    var r := GroupChunks(groups);
    forall i | 0 <= i < |r| && |r[i]| > maxSize
      ensures exists p :: p in Flatten(groups) && |p| > maxSize && r[i] == CleanWhitespace(p)
    {
      assert |groups[i]| == 1;
      assert Join(groups[i], ParagraphSeparator) == groups[i][0];
      InFlatten(groups, i, 0);
    }
  }

  /**
   * The merge pass over `rest`, with `acc` the chunks already emitted: a
   * chunk shorter than `minSize` is merged into the last emitted chunk when
   * the two plus the separator fit in `maxSize`.
   */
  function MergeSmallFrom(acc: seq<string>, rest: seq<string>, minSize: int, maxSize: int): seq<string>
    decreases |rest|
  {
    if rest == [] then
      acc
    else
      var c := rest[0];
      if acc != [] && |c| < minSize && |acc[|acc| - 1]| + |c| + 2 <= maxSize then
        MergeSmallFrom(acc[..|acc| - 1] + [Merged(acc[|acc| - 1], c)], rest[1..], minSize, maxSize)
      else
        MergeSmallFrom(acc + [c], rest[1..], minSize, maxSize)
  }

  /**
   * One step of the merge pass when the next chunk stays on its own. The
   * two step lemmas give the proofs below one unfolding of the pass without
   * the rest of its body, which keeps them within the solver's budget.
   */
  lemma MergeStepKeep(acc: seq<string>, rest: seq<string>, minSize: int, maxSize: int)
    requires rest != []
    requires !(acc != [] && |rest[0]| < minSize && |acc[|acc| - 1]| + |rest[0]| + 2 <= maxSize)
    ensures MergeSmallFrom(acc, rest, minSize, maxSize) ==
            MergeSmallFrom(acc + [rest[0]], rest[1..], minSize, maxSize)
  {
  }

  /** One step of the merge pass when the next chunk joins the last emitted one. */
  lemma MergeStepMerge(acc: seq<string>, rest: seq<string>, minSize: int, maxSize: int)
    requires acc != [] && rest != []
    requires |rest[0]| < minSize && |acc[|acc| - 1]| + |rest[0]| + 2 <= maxSize
    ensures MergeSmallFrom(acc, rest, minSize, maxSize) ==
            MergeSmallFrom(acc[..|acc| - 1] + [Merged(acc[|acc| - 1], rest[0])], rest[1..], minSize, maxSize)
  {
  }

  /** The text a merge leaves: both chunks joined by a blank line, cleaned again. */
  function Merged(prev: string, c: string): (r: string)
    ensures NonSpace(r) == NonSpace(prev) + NonSpace(c)
    ensures |r| <= |prev| + |c| + 2
  {
    var joined := prev + ParagraphSeparator + c;
    assert |joined| == |prev| + |c| + 2;
    NonSpaceAppend(prev + ParagraphSeparator, c);
    NonSpaceAppend(prev, ParagraphSeparator);
    assert NonSpace(joined) == NonSpace(prev) + NonSpace(c);
    CleanWhitespace(joined)
  }


  /** Merging never adds a chunk and never removes the last one. */
  lemma {:induction false} MergeSmallFromLength(acc: seq<string>, rest: seq<string>, minSize: int, maxSize: int)
    ensures |MergeSmallFrom(acc, rest, minSize, maxSize)| <= |acc| + |rest|
    ensures |acc| + |rest| > 0 ==> |MergeSmallFrom(acc, rest, minSize, maxSize)| > 0
    decreases |rest|
  {
    if rest != [] {
      var c := rest[0];
      if acc != [] && |c| < minSize && |acc[|acc| - 1]| + |c| + 2 <= maxSize {
        MergeStepMerge(acc, rest, minSize, maxSize);
        MergeSmallFromLength(acc[..|acc| - 1] + [Merged(acc[|acc| - 1], c)], rest[1..], minSize, maxSize);
      } else {
        MergeStepKeep(acc, rest, minSize, maxSize);
        MergeSmallFromLength(acc + [c], rest[1..], minSize, maxSize);
      }
    }
  }

  /** Merging never produces a blank chunk. */
  lemma {:induction false} MergeSmallFromVisible(acc: seq<string>, rest: seq<string>, minSize: int, maxSize: int)
    requires AllVisible(acc) && AllVisible(rest)
    ensures AllVisible(MergeSmallFrom(acc, rest, minSize, maxSize))
    decreases |rest|
  {
    if rest != [] {
      var c := rest[0];
      assert AllVisible(rest[1..]) by {
        forall i | 0 <= i < |rest[1..]|
          ensures NonSpace(rest[1..][i]) != []
        {
          assert rest[1..][i] == rest[i + 1];
        }
      }
      if acc != [] && |c| < minSize && |acc[|acc| - 1]| + |c| + 2 <= maxSize {
        MergeStepMerge(acc, rest, minSize, maxSize);
        var acc' := acc[..|acc| - 1] + [Merged(acc[|acc| - 1], c)];
        assert AllVisible(acc') by {
          forall i | 0 <= i < |acc'|
            ensures NonSpace(acc'[i]) != []
          {
            if i < |acc| - 1 {
              assert acc'[i] == acc[i];
            }
          }
        }
        MergeSmallFromVisible(acc', rest[1..], minSize, maxSize);
      } else {
        MergeStepKeep(acc, rest, minSize, maxSize);
        var acc' := acc + [c];
        assert AllVisible(acc') by {
          forall i | 0 <= i < |acc'|
            ensures NonSpace(acc'[i]) != []
          {
            if i < |acc| {
              assert acc'[i] == acc[i];
            }
          }
        }
        MergeSmallFromVisible(acc', rest[1..], minSize, maxSize);
      }
    }
  }

  lemma Regroup(a: string, b: string, c: string, d: string)
    ensures a + (b + c) + d == (a + b) + (c + d)
  {
  }

  /** Replacing `p` by a text with the visible characters of `p` and `c`, then dropping `c`. */
  lemma NonSpaceMerge(i: string, m: string, p: string, c: string, t: string)
    requires NonSpace(m) == NonSpace(p) + NonSpace(c)
    ensures NonSpace(i + m + t) == NonSpace(i + p + (c + t))
  {
    calc {
      NonSpace(i + m + t);
      { NonSpaceAppend(i + m, t); }
      NonSpace(i + m) + NonSpace(t);
      { NonSpaceAppend(i, m); }
      NonSpace(i) + NonSpace(m) + NonSpace(t);
      NonSpace(i) + (NonSpace(p) + NonSpace(c)) + NonSpace(t);
      { Regroup(NonSpace(i), NonSpace(p), NonSpace(c), NonSpace(t)); }
      (NonSpace(i) + NonSpace(p)) + (NonSpace(c) + NonSpace(t));
      { NonSpaceAppend(i, p); NonSpaceAppend(c, t); }
      NonSpace(i + p) + NonSpace(c + t);
      { NonSpaceAppend(i + p, c + t); }
      NonSpace(i + p + (c + t));
    }
  }

  lemma MergeTextStep(acc: seq<string>, rest: seq<string>, m: string)
    requires acc != [] && rest != []
    requires NonSpace(m) == NonSpace(acc[|acc| - 1]) + NonSpace(rest[0])
    ensures NonSpace(Concat(acc[..|acc| - 1] + [m]) + Concat(rest[1..])) == NonSpace(Concat(acc) + Concat(rest))
  {
    var init := acc[..|acc| - 1];
    var i, p, c, t := Concat(init), acc[|acc| - 1], rest[0], Concat(rest[1..]);
    assert Concat(init + [m]) + Concat(rest[1..]) == i + m + t by { ConcatSnoc(init, m); }
    assert Concat(acc) + Concat(rest) == i + p + (c + t) by { ConcatLast(acc); }
    NonSpaceMerge(i, m, p, c, t);
  }

  /** Merging keeps every visible character, in order. */
  lemma {:induction false} MergeSmallFromText(acc: seq<string>, rest: seq<string>, minSize: int, maxSize: int)
    ensures NonSpace(Concat(MergeSmallFrom(acc, rest, minSize, maxSize))) == NonSpace(Concat(acc) + Concat(rest))
    decreases |rest|
  {
    if rest == [] {
      assert Concat(acc) + Concat(rest) == Concat(acc);
    } else {
      var c := rest[0];
      if acc != [] && |c| < minSize && |acc[|acc| - 1]| + |c| + 2 <= maxSize {
        MergeStepMerge(acc, rest, minSize, maxSize);
        var m := Merged(acc[|acc| - 1], c);
        MergeSmallFromText(acc[..|acc| - 1] + [m], rest[1..], minSize, maxSize);
        MergeTextStep(acc, rest, m);
      } else {
        MergeStepKeep(acc, rest, minSize, maxSize);
        MergeSmallFromText(acc + [c], rest[1..], minSize, maxSize);
        ConcatShift(acc, rest);
      }
    }
  }

  /** Every chunk that comes out is within `maxSize` or passed through unchanged. */
  predicate BoundedOrFrom(chunks: seq<string>, sources: seq<string>, maxSize: int) {
    forall i :: 0 <= i < |chunks| ==> |chunks[i]| <= maxSize || chunks[i] in sources
  }

  lemma BoundedOrFromWeaken(chunks: seq<string>, sources: seq<string>, sources': seq<string>, maxSize: int)
    requires BoundedOrFrom(chunks, sources, maxSize)
    requires forall x :: x in sources && |x| > maxSize ==> x in sources'
    ensures BoundedOrFrom(chunks, sources', maxSize)
  {
  }

  /** After a merge, every long chunk left to look at was an input chunk. */
  lemma MergeSources(acc: seq<string>, rest: seq<string>, m: string, maxSize: int)
    requires acc != [] && rest != []
    requires |m| <= maxSize
    ensures forall x :: x in acc[..|acc| - 1] + [m] + rest[1..] && |x| > maxSize ==> x in acc + rest
  {
    forall x | x in acc[..|acc| - 1] + [m] + rest[1..] && |x| > maxSize
      ensures x in acc + rest
    {
      if x in acc[..|acc| - 1] {
        var k :| 0 <= k < |acc| - 1 && acc[..|acc| - 1][k] == x;
        assert (acc + rest)[k] == x;
      } else {
        assert x in rest[1..];
        var k :| 0 <= k < |rest| - 1 && rest[1..][k] == x;
        assert (acc + rest)[|acc| + k + 1] == x;
      }
    }
  }

  /** A merged chunk always fits in `maxSize`; any longer chunk is an input chunk. */
  lemma {:induction false} MergeSmallFromSize(acc: seq<string>, rest: seq<string>, minSize: int, maxSize: int)
    ensures BoundedOrFrom(MergeSmallFrom(acc, rest, minSize, maxSize), acc + rest, maxSize)
    decreases |rest|
  {
    if rest == [] {
      assert acc + rest == acc;
    } else {
      var c := rest[0];
      if acc != [] && |c| < minSize && |acc[|acc| - 1]| + |c| + 2 <= maxSize {
        MergeStepMerge(acc, rest, minSize, maxSize);
        var m := Merged(acc[|acc| - 1], c);
        MergeSmallFromSize(acc[..|acc| - 1] + [m], rest[1..], minSize, maxSize);
        MergeSources(acc, rest, m, maxSize);
        BoundedOrFromWeaken(MergeSmallFrom(acc, rest, minSize, maxSize),
                            acc[..|acc| - 1] + [m] + rest[1..], acc + rest, maxSize);
      } else {
        MergeStepKeep(acc, rest, minSize, maxSize);
        MergeSmallFromSize(acc + [c], rest[1..], minSize, maxSize);
        assert acc + [c] + rest[1..] == acc + rest;
      }
    }
  }

  /** The merge pass of `chunk_text`; a non-positive `minSize` switches it off. */
  function MergeSmall(chunks: seq<string>, minSize: int, maxSize: int): (r: seq<string>)
    ensures AllVisible(chunks) ==> AllVisible(r)
    ensures NonSpace(Concat(r)) == NonSpace(Concat(chunks))
    ensures BoundedOrFrom(r, chunks, maxSize)
    ensures |r| <= |chunks|
    ensures |r| == 0 <==> |chunks| == 0
    ensures minSize <= 0 ==> r == chunks
  {
    if minSize > 0 then
      MergeSmallVisible(chunks, minSize, maxSize);
      MergeSmallFromLength([], chunks, minSize, maxSize);
      MergeSmallFromText([], chunks, minSize, maxSize);
      MergeSmallFromSize([], chunks, minSize, maxSize);
      assert Concat([]) + Concat(chunks) == Concat(chunks);
      assert [] + chunks == chunks;
      MergeSmallFrom([], chunks, minSize, maxSize)
    else
      chunks
  }

  lemma MergeSmallVisible(chunks: seq<string>, minSize: int, maxSize: int)
    ensures AllVisible(chunks) ==> AllVisible(MergeSmallFrom([], chunks, minSize, maxSize))
  {
    if AllVisible(chunks) {
      MergeSmallFromVisible([], chunks, minSize, maxSize);
    }
  }

  /**
   * `chunk_text(text, max_chunk_size, min_chunk_size)`: no chunk is empty or
   * blank, the visible characters of the chunks are exactly those of the
   * text in order, and a chunk exceeds `maxSize` only when it is a single
   * paragraph that alone exceeds it.
   */
  function ChunkText(text: string, maxSize: int, minSize: int): (r: seq<string>)
    ensures forall i :: 0 <= i < |r| ==> r[i] != [] && NonSpace(r[i]) != []
    ensures NonSpace(Concat(r)) == NonSpace(text)
    ensures r == [] <==> AllSpace(text)
    ensures forall i :: 0 <= i < |r| ==>
              (|r[i]| <= maxSize ||
               exists p :: p in Paragraphs(text) && |p| > maxSize && r[i] == CleanWhitespace(p))
  {
    var paragraphs := Paragraphs(text);
    var chunks := GroupChunks(GreedyGroups(paragraphs, maxSize));
    PackFacts(paragraphs, maxSize);
    var r := MergeSmall(chunks, minSize, maxSize);
    ChunkTextFacts(text, paragraphs, chunks, r, maxSize);
    r
  }

  /** The greedy pass followed by closing the groups, for visible paragraphs. */
  lemma PackFacts(paragraphs: seq<string>, maxSize: int)
    requires AllVisible(paragraphs)
    ensures AllVisible(GroupChunks(GreedyGroups(paragraphs, maxSize)))
    ensures NonSpace(Concat(GroupChunks(GreedyGroups(paragraphs, maxSize)))) == NonSpace(Concat(paragraphs))
    ensures forall i :: 0 <= i < |GroupChunks(GreedyGroups(paragraphs, maxSize))| ==>
              (|GroupChunks(GreedyGroups(paragraphs, maxSize))[i]| <= maxSize ||
               exists p :: p in paragraphs && |p| > maxSize &&
                 GroupChunks(GreedyGroups(paragraphs, maxSize))[i] == CleanWhitespace(p))
  {
    var groups := GreedyGroups(paragraphs, maxSize);
    GroupsVisible(groups, paragraphs);
    GroupChunksNoneDropped(groups);
    GroupChunksText(groups);
    GroupChunksSize(groups, maxSize);
  }

  lemma GroupsVisible(groups: seq<seq<string>>, paragraphs: seq<string>)
    requires Flatten(groups) == paragraphs
    requires forall i :: 0 <= i < |paragraphs| ==> NonSpace(paragraphs[i]) != []
    requires forall i :: 0 <= i < |groups| ==> |groups[i]| >= 1
    ensures forall i :: 0 <= i < |groups| ==> NonSpace(Join(groups[i], ParagraphSeparator)) != []
  {
    forall i | 0 <= i < |groups|
      ensures NonSpace(Join(groups[i], ParagraphSeparator)) != []
    {
      forall j | 0 <= j < |groups[i]|
        ensures NonSpace(groups[i][j]) != []
      {
        InFlatten(groups, i, j);
      }
      GroupVisible(groups[i]);
    }
  }

  /** The whole-text facts of `ChunkText`, from those of its passes. */
  lemma ChunkTextFacts(text: string, paragraphs: seq<string>, chunks: seq<string>, r: seq<string>, maxSize: int)
    requires NonSpace(Concat(paragraphs)) == NonSpace(text)
    requires NonSpace(Concat(chunks)) == NonSpace(Concat(paragraphs))
    requires forall i :: 0 <= i < |chunks| ==>
               (|chunks[i]| <= maxSize ||
                exists p :: p in paragraphs && |p| > maxSize && chunks[i] == CleanWhitespace(p))
    requires AllVisible(r)
    requires NonSpace(Concat(r)) == NonSpace(Concat(chunks))
    requires BoundedOrFrom(r, chunks, maxSize)
    ensures forall i :: 0 <= i < |r| ==> r[i] != []
    ensures NonSpace(Concat(r)) == NonSpace(text)
    ensures r == [] <==> AllSpace(text)
    ensures forall i :: 0 <= i < |r| ==>
              (|r[i]| <= maxSize ||
               exists p :: p in paragraphs && |p| > maxSize && r[i] == CleanWhitespace(p))
  {
    AllSpaceIffNoNonSpace(text);
    if r != [] {
      NonSpaceAppend(r[0], Concat(r[1..]));
    }
    forall i | 0 <= i < |r| && |r[i]| > maxSize
      ensures exists p :: p in paragraphs && |p| > maxSize && r[i] == CleanWhitespace(p)
    {
      var k :| 0 <= k < |chunks| && chunks[k] == r[i];
    }
  }

  /** `chunk_text` with its default sizes, as ingestion calls it. */
  function ChunkTextDefault(text: string): seq<string> {
    ChunkText(text, DefaultMaxChunkSize, DefaultMinChunkSize)
  }

  /** The room `rest` takes when appended chunk by chunk, a blank line before each. */
  function SeparatedSize(rest: seq<string>): (n: nat)
    ensures n >= 2 * |rest|
  {
    if rest == [] then 0 else |rest[0]| + 2 + SeparatedSize(rest[1..])
  }

  /**
   * Short chunks are absorbed while they fit: if every chunk after the last
   * emitted one is short and all of them fit with it, nothing else is
   * emitted.
   */
  lemma {:induction false} MergeSmallFromCollapses(m: string, rest: seq<string>, minSize: int, maxSize: int)
    requires forall i :: 0 <= i < |rest| ==> |rest[i]| < minSize
    requires |m| + SeparatedSize(rest) <= maxSize
    ensures |MergeSmallFrom([m], rest, minSize, maxSize)| == 1
    decreases |rest|
  {
    if rest != [] {
      var c := rest[0];
      MergeStepMerge([m], rest, minSize, maxSize);
      assert [m][..0] + [Merged(m, c)] == [Merged(m, c)];
      MergeSmallFromCollapses(Merged(m, c), rest[1..], minSize, maxSize);
    }
  }

  /**
   * The merge rule of `chunk_text` on a whole list: when every chunk after
   * the first is below `minSize` and all of them fit together with their
   * blank lines in `maxSize`, they end up as one chunk.
   */
  lemma MergeSmallCollapses(chunks: seq<string>, minSize: int, maxSize: int)
    requires chunks != []
    requires forall i :: 1 <= i < |chunks| ==> |chunks[i]| < minSize
    requires |chunks[0]| + SeparatedSize(chunks[1..]) <= maxSize
    ensures |MergeSmall(chunks, minSize, maxSize)| == 1
  {
    if minSize > 0 {
      MergeStepKeep([], chunks, minSize, maxSize);
      assert [] + [chunks[0]] == [chunks[0]];
      MergeSmallFromCollapses(chunks[0], chunks[1..], minSize, maxSize);
    }
  }

  /**
   * Emitted chunks are never touched again: the pass only ever merges into
   * the last emitted chunk, so the chunks `pre` emitted before a non-empty
   * `acc` pass through unchanged.
   */
  lemma {:induction false} MergeSmallFromPrefix(pre: seq<string>, acc: seq<string>, rest: seq<string>, minSize: int, maxSize: int)
    requires acc != []
    ensures MergeSmallFrom(pre + acc, rest, minSize, maxSize) == pre + MergeSmallFrom(acc, rest, minSize, maxSize)
    decreases |rest|
  {
    if rest != [] {
      var c := rest[0];
      var last := acc[|acc| - 1];
      if |c| < minSize && |last| + |c| + 2 <= maxSize {
        MergeSmallFromPrefix(pre, acc[..|acc| - 1] + [Merged(last, c)], rest[1..], minSize, maxSize);
        PrefixMergeStep(pre, acc, rest, minSize, maxSize);
      } else {
        MergeSmallFromPrefix(pre, acc + [c], rest[1..], minSize, maxSize);
        PrefixKeepStep(pre, acc, rest, minSize, maxSize);
      }
    }
  }

  /** The merge case of `MergeSmallFromPrefix`, given its claim one chunk later. */
  lemma PrefixMergeStep(pre: seq<string>, acc: seq<string>, rest: seq<string>, minSize: int, maxSize: int)
    requires acc != [] && rest != []
    requires |rest[0]| < minSize && |acc[|acc| - 1]| + |rest[0]| + 2 <= maxSize
    requires MergeSmallFrom(pre + (acc[..|acc| - 1] + [Merged(acc[|acc| - 1], rest[0])]), rest[1..], minSize, maxSize)
             == pre + MergeSmallFrom(acc[..|acc| - 1] + [Merged(acc[|acc| - 1], rest[0])], rest[1..], minSize, maxSize)
    ensures MergeSmallFrom(pre + acc, rest, minSize, maxSize) == pre + MergeSmallFrom(acc, rest, minSize, maxSize)
  {
    MergeOntoPrefixed(pre, acc, rest, minSize, maxSize);
    MergeStepMerge(acc, rest, minSize, maxSize);
  }

  /** `MergeStepMerge` after a prefix: the merge lands on the last chunk of `acc`. */
  lemma MergeOntoPrefixed(pre: seq<string>, acc: seq<string>, rest: seq<string>, minSize: int, maxSize: int)
    requires acc != [] && rest != []
    requires |rest[0]| < minSize && |acc[|acc| - 1]| + |rest[0]| + 2 <= maxSize
    ensures MergeSmallFrom(pre + acc, rest, minSize, maxSize)
            == MergeSmallFrom(pre + (acc[..|acc| - 1] + [Merged(acc[|acc| - 1], rest[0])]), rest[1..], minSize, maxSize)
  {
    var pa := pre + acc;
    assert pa[|pa| - 1] == acc[|acc| - 1];
    ReplaceLastAfterPrefix(pre, acc, Merged(acc[|acc| - 1], rest[0]));
    MergeStepMerge(pa, rest, minSize, maxSize);
  }

  /** Replacing the last element of `pre + acc` replaces the last element of `acc`. */
  lemma ReplaceLastAfterPrefix<T>(pre: seq<T>, acc: seq<T>, x: T)
    requires acc != []
    ensures (pre + acc)[..|pre + acc| - 1] + [x] == pre + (acc[..|acc| - 1] + [x])
  {
    assert (pre + acc)[..|pre + acc| - 1] == pre + acc[..|acc| - 1];
  }

  /** The keep case of `MergeSmallFromPrefix`, given its claim one chunk later. */
  lemma PrefixKeepStep(pre: seq<string>, acc: seq<string>, rest: seq<string>, minSize: int, maxSize: int)
    requires acc != [] && rest != []
    requires !(|rest[0]| < minSize && |acc[|acc| - 1]| + |rest[0]| + 2 <= maxSize)
    requires MergeSmallFrom(pre + (acc + [rest[0]]), rest[1..], minSize, maxSize)
             == pre + MergeSmallFrom(acc + [rest[0]], rest[1..], minSize, maxSize)
    ensures MergeSmallFrom(pre + acc, rest, minSize, maxSize) == pre + MergeSmallFrom(acc, rest, minSize, maxSize)
  {
    var pa := pre + acc;
    assert pa[|pa| - 1] == acc[|acc| - 1];
    assert pa + [rest[0]] == pre + (acc + [rest[0]]);
    MergeStepKeep(pa, rest, minSize, maxSize);
    MergeStepKeep(acc, rest, minSize, maxSize);
  }

  /**
   * The merge rule at any position: the next chunk `c` joins the last
   * emitted chunk exactly when it is short and the two fit with their
   * blank line; otherwise `c` starts a new output chunk. Either way the
   * chunks emitted before stay as they are.
   */
  lemma MergeRule(acc: seq<string>, c: string, rest: seq<string>, minSize: int, maxSize: int)
    requires acc != []
    ensures |c| < minSize && |acc[|acc| - 1]| + |c| + 2 <= maxSize ==>
              MergeSmallFrom(acc, [c] + rest, minSize, maxSize) ==
              acc[..|acc| - 1] + MergeSmallFrom([Merged(acc[|acc| - 1], c)], rest, minSize, maxSize)
    ensures !(|c| < minSize && |acc[|acc| - 1]| + |c| + 2 <= maxSize) ==>
              MergeSmallFrom(acc, [c] + rest, minSize, maxSize) ==
              acc + MergeSmallFrom([c], rest, minSize, maxSize)
  {
    var cs := [c] + rest;
    assert cs[0] == c && cs[1..] == rest;
    if |c| < minSize && |acc[|acc| - 1]| + |c| + 2 <= maxSize {
      MergeStepMerge(acc, cs, minSize, maxSize);
      MergeSmallFromPrefix(acc[..|acc| - 1], [Merged(acc[|acc| - 1], c)], rest, minSize, maxSize);
    } else {
      MergeStepKeep(acc, cs, minSize, maxSize);
      MergeSmallFromPrefix(acc, [c], rest, minSize, maxSize);
    }
  }

  /** The first chunk is always emitted on its own before the rule applies. */
  lemma MergeSmallStart(chunks: seq<string>, minSize: int, maxSize: int)
    requires chunks != [] && minSize > 0
    ensures MergeSmall(chunks, minSize, maxSize) == MergeSmallFrom([chunks[0]], chunks[1..], minSize, maxSize)
  {
    MergeStepKeep([], chunks, minSize, maxSize);
    assert [] + [chunks[0]] == [chunks[0]];
  }

  /**
   * A mixed list, after its first chunk `long1` is emitted (`MergeSmallStart`):
   * a short chunk that fits joins `long1`, and the long chunk after it stays
   * on its own, even when all three would fit in `maxSize`.
   */
  lemma MergeSmallMixed(long1: string, short: string, long2: string, minSize: int, maxSize: int)
    requires |short| < minSize && |long2| >= minSize
    requires |long1| + |short| + 2 <= maxSize
    ensures MergeSmallFrom([long1], [short, long2], minSize, maxSize) == [Merged(long1, short), long2]
  {
    ShortJoinsFirst(long1, short, long2, minSize, maxSize);
    LongStaysAlone(Merged(long1, short), long2, minSize, maxSize);
  }

  /** The second step of `MergeSmallMixed`: a chunk of at least `minSize` is never merged. */
  lemma LongStaysAlone(m: string, long: string, minSize: int, maxSize: int)
    requires |long| >= minSize
    ensures MergeSmallFrom([m], [long], minSize, maxSize) == [m, long]
  {
    MergeSmallNoShortChunks([m], [long], minSize, maxSize);
  }

  /** The first step of `MergeSmallMixed`: `short` joins `long1`. */
  lemma ShortJoinsFirst(long1: string, short: string, long2: string, minSize: int, maxSize: int)
    requires |short| < minSize && |long1| + |short| + 2 <= maxSize
    ensures MergeSmallFrom([long1], [short, long2], minSize, maxSize)
            == MergeSmallFrom([Merged(long1, short)], [long2], minSize, maxSize)
  {
    assert [short, long2] == [short] + [long2];
    MergeRule([long1], short, [long2], minSize, maxSize);
    assert [long1][..0] == [];
  }

  /** No chunk below `minSize`: the merge pass changes nothing. */
  lemma {:induction false} MergeSmallNoShortChunks(acc: seq<string>, rest: seq<string>, minSize: int, maxSize: int)
    requires forall i :: 0 <= i < |rest| ==> |rest[i]| >= minSize
    ensures MergeSmallFrom(acc, rest, minSize, maxSize) == acc + rest
    decreases |rest|
  {
    if rest != [] {
      MergeSmallNoShortChunks(acc + [rest[0]], rest[1..], minSize, maxSize);
      assert acc + [rest[0]] + rest[1..] == acc + rest;
    }
  }

  /** The first chunk is never merged away: its visible text starts the first output chunk. */
  lemma {:induction false} MergeKeepsFirstChunk(acc: seq<string>, rest: seq<string>, minSize: int, maxSize: int)
    requires |acc| > 0
    ensures |MergeSmallFrom(acc, rest, minSize, maxSize)| > 0
    ensures NonSpace(acc[0]) <= NonSpace(MergeSmallFrom(acc, rest, minSize, maxSize)[0])
    decreases |rest|
  {
    if rest != [] {
      var c := rest[0];
      if |c| < minSize && |acc[|acc| - 1]| + |c| + 2 <= maxSize {
        MergeStepMerge(acc, rest, minSize, maxSize);
        var acc' := acc[..|acc| - 1] + [Merged(acc[|acc| - 1], c)];
        if |acc| > 1 {
          assert acc'[0] == acc[0];
        }
        MergeKeepsFirstChunk(acc', rest[1..], minSize, maxSize);
      } else {
        MergeStepKeep(acc, rest, minSize, maxSize);
        assert (acc + [c])[0] == acc[0];
        MergeKeepsFirstChunk(acc + [c], rest[1..], minSize, maxSize);
      }
    }
  }
}

=== FILE: content_language.dfy ===
/**
 * The language document content is produced in: the document's own
 * language, then the user's interface language, then the request's, each
 * only when it is a supported code.
 */
module ContentLanguage {
  import opened Wrappers
  import opened Models

  predicate Supported(lang: string) {
    lang == "ru" || lang == "en"
  }

  /** `resolve_content_language`. */
  function ResolveContentLanguage(document: Option<Document>, user: Option<User>, requestLanguage: string)
    : (r: string)
    ensures Supported(r)
  {
    if document.Some? && document.value.language != "" && Supported(document.value.language) then
      document.value.language
    else if user.Some? && user.value.uiLanguage != "" && Supported(user.value.uiLanguage) then
      user.value.uiLanguage
    else if Supported(requestLanguage) then requestLanguage
    else "en"
  }

  /**
   * The first supported language of document, user and request decides;
   * unsupported values are skipped, and with none supported the answer is "en".
   */
  lemma ResolveContentLanguagePrecedence(document: Option<Document>, user: Option<User>, requestLanguage: string)
    ensures var r := ResolveContentLanguage(document, user, requestLanguage);
      var docLang := if document.Some? then document.value.language else "";
      var userLang := if user.Some? then user.value.uiLanguage else "";
      && (Supported(docLang) ==> r == docLang)
      && (!Supported(docLang) && Supported(userLang) ==> r == userLang)
      && (!Supported(docLang) && !Supported(userLang) && Supported(requestLanguage) ==> r == requestLanguage)
      && (!Supported(docLang) && !Supported(userLang) && !Supported(requestLanguage) ==> r == "en")
      && (r == docLang || r == userLang || r == requestLanguage || r == "en")
  {
  }
}

=== FILE: csr_defaults.dfy ===
/** Get-or-create of a study's CSR document together with its default sections. */
module CsrDefaults {
  import opened Wrappers
  import opened Seqs
  import opened Models
  import opened Store
  import opened SectionDefaults

  predicate HasSections(sections: seq<CsrSection>, documentId: int) {
    exists i :: 0 <= i < |sections| && sections[i].documentId == documentId
  }

  /** The default sections of a document, numbered from 1 and keyed from `firstId`. */
  function DefaultSectionRows(documentId: int, firstId: int): (r: seq<CsrSection>)
    ensures |r| == |DefaultCsrSections|
    ensures forall i :: 0 <= i < |r| ==>
      r[i] == CsrSection(firstId + i, documentId, DefaultCsrSections[i].code, DefaultCsrSections[i].title, i + 1)
  {
    seq(|DefaultCsrSections|, i requires 0 <= i < |DefaultCsrSections| =>
      var s := DefaultCsrSections[i];
      CsrSection(firstId + i, documentId, s.code, s.title, i + 1))
  }

  /** The first CSR document of a study, in storage order. */
  function CsrDocumentOfStudy(documents: seq<CsrDocument>, studyId: int): Option<CsrDocument> {
    FirstWhere(documents, (d: CsrDocument) => d.studyId == studyId)
  }

  /**
   * Finds the study's CSR document or creates it (draft, titled `title` or
   * "CSR for study {id}"), then adds the five default sections if the
   * document has none. An existing document keeps its title and status.
   */
  function EnsureCsrDocumentWithDefaultSections(db: Db, studyId: int, title: Option<string>): (r: (Db, CsrDocument))
    ensures r.1.studyId == studyId && r.1 in r.0.csrDocuments
    ensures CsrDocumentOfStudy(db.csrDocuments, studyId).Some? ==>
      r.1 == CsrDocumentOfStudy(db.csrDocuments, studyId).value && r.0.csrDocuments == db.csrDocuments
    ensures CsrDocumentOfStudy(db.csrDocuments, studyId).None? ==>
      r.1 == CsrDocument(db.nextId, studyId, DefaultDocumentTitle(title, studyId), "draft", None) &&
      r.0.csrDocuments == db.csrDocuments + [r.1]
    ensures HasSections(db.csrSections, r.1.id) ==> r.0.csrSections == db.csrSections
    ensures !HasSections(db.csrSections, r.1.id) ==>
      exists firstId :: r.0.csrSections == db.csrSections + DefaultSectionRows(r.1.id, firstId)
    ensures r.0 == db.(csrDocuments := r.0.csrDocuments, csrSections := r.0.csrSections, nextId := r.0.nextId)
  {
    var (db1, doc) :=
      match CsrDocumentOfStudy(db.csrDocuments, studyId)
      case Some(d) => (db, d)
      case None =>
        var d := CsrDocument(db.nextId, studyId, DefaultDocumentTitle(title, studyId), "draft", None);
        (db.(csrDocuments := db.csrDocuments + [d], nextId := db.nextId + 1), d);
    if HasSections(db1.csrSections, doc.id) then (db1, doc)
    else
      (db1.(csrSections := db1.csrSections + DefaultSectionRows(doc.id, db1.nextId),
            nextId := db1.nextId + |DefaultCsrSections|), doc)
  }

  /** Once a study has a CSR document with sections, a second call changes nothing. */
  lemma EnsureIdempotent(db: Db, studyId: int, title: Option<string>, title2: Option<string>)
    ensures var (db1, doc) := EnsureCsrDocumentWithDefaultSections(db, studyId, title);
      EnsureCsrDocumentWithDefaultSections(db1, studyId, title2) == (db1, doc)
  {
    var (db1, doc) := EnsureCsrDocumentWithDefaultSections(db, studyId, title);
    var first := CsrDocumentOfStudy(db.csrDocuments, studyId);
    if first.None? {
      assert db1.csrDocuments == db.csrDocuments + [doc];
      assert forall i :: 0 <= i < |db.csrDocuments| ==> db1.csrDocuments[i].studyId != studyId;
    }
    assert CsrDocumentOfStudy(db1.csrDocuments, studyId) == Some(doc);
    if !HasSections(db.csrSections, doc.id) {
      var firstId :| db1.csrSections == db.csrSections + DefaultSectionRows(doc.id, firstId);
      assert db1.csrSections[|db.csrSections|].documentId == doc.id;
    }
    assert HasSections(db1.csrSections, doc.id);
  }

  /** The sections a new CSR document receives: the default codes in order, numbered 1 to 5. */
  lemma DefaultRowsShape(documentId: int, firstId: int)
    ensures var rows := DefaultSectionRows(documentId, firstId);
      && |rows| == 5
      && (forall i :: 0 <= i < 5 ==> rows[i].orderIndex == i + 1 && rows[i].documentId == documentId)
      && seq(5, i requires 0 <= i < 5 => rows[i].code) == Codes(DefaultCsrSections)
  {
  }
}

=== FILE: csr_link.dfy ===
/**
 * Linking a "csr" document to its CSR record: reuse a linked output
 * document, adopt the study's existing CSR record, or create a new record
 * with the default sections. The study-level entry point first finds or
 * creates the study's "csr" document.
 */
module CsrLink {
  import opened Wrappers
  import opened Seqs
  import opened Text
  import opened Models
  import opened Store
  import opened SectionDefaults
  import CsrDefaults
  import Documents

  datatype LinkError =
    | NotCsr(docType: string)
    | NoStudy
    /** The constructor was given a keyword that is not a column (a Python `TypeError`). */
    | InvalidKeyword(name: string)

  /**
   * What the service returns: the relationship `Document.csr_document`
   * points to the output-document table, while the fallback paths work on
   * the CSR table.
   */
  datatype Linked = LinkedOutput(output: OutputDocument) | LinkedCsr(csr: CsrDocument)

  function OutputLinkedTo(outputs: seq<OutputDocument>, documentId: int): Option<OutputDocument> {
    FirstWhere(outputs, (o: OutputDocument) => o.documentId == Some(documentId))
  }

  /** Sets the document link of the study's first CSR record. */
  function LinkFirst(csrs: seq<CsrDocument>, studyId: int, documentId: int): (r: seq<CsrDocument>)
    ensures |r| == |csrs|
    ensures forall i :: 0 <= i < |csrs| ==> r[i] == csrs[i] || (csrs[i].studyId == studyId && r[i] == csrs[i].(documentId := Some(documentId)))
    decreases |csrs|
  {
    if csrs == [] then []
    else if csrs[0].studyId == studyId then [csrs[0].(documentId := Some(documentId))] + csrs[1..]
    else [csrs[0]] + LinkFirst(csrs[1..], studyId, documentId)
  }

  lemma {:induction false} LinkFirstFound(csrs: seq<CsrDocument>, studyId: int, documentId: int)
    requires CsrDefaults.CsrDocumentOfStudy(csrs, studyId).Some?
    ensures CsrDefaults.CsrDocumentOfStudy(csrs, studyId).value.(documentId := Some(documentId)) in LinkFirst(csrs, studyId, documentId)
    decreases |csrs|
  {
    if csrs[0].studyId != studyId {
      LinkFirstFound(csrs[1..], studyId, documentId);
    }
  }

  /** `document.status or "draft"`. */
  function StatusOrDraft(status: string): (r: string)
    ensures r != ""
    ensures status != "" ==> r == status
  {
    if status != "" then status else "draft"
  }

  /**
   * `get_or_create_csr_for_document` with the CSR record's `document_id`
   * column in place: the legacy path stores the link, and a new record
   * is created linked, with the five default sections.
   */
  function GetOrCreateCsrForDocument(db: Db, document: Document): (r: (Db, Result<Linked, LinkError>))
    ensures document.docType != "csr" ==> r == (db, Failure(NotCsr(document.docType)))
    ensures document.docType == "csr" && document.studyId.None? ==> r == (db, Failure(NoStudy))
    ensures r.1.Failure? ==> r.0 == db
    ensures OutputLinkedTo(db.outputDocuments, document.id).Some? && r.1.Success? ==>
      r == (db, Success(LinkedOutput(OutputLinkedTo(db.outputDocuments, document.id).value)))
  {
    if document.docType != "csr" then (db, Failure(NotCsr(document.docType)))
    else if document.studyId.None? then (db, Failure(NoStudy))
    else
      var studyId := document.studyId.value;
      match OutputLinkedTo(db.outputDocuments, document.id)
      case Some(o) => (db, Success(LinkedOutput(o)))
      case None =>
        match CsrDefaults.CsrDocumentOfStudy(db.csrDocuments, studyId)
        case Some(c) =>
          (db.(csrDocuments := LinkFirst(db.csrDocuments, studyId, document.id)),
           Success(LinkedCsr(c.(documentId := Some(document.id)))))
        case None =>
          var csr := CsrDocument(db.nextId, studyId, document.title, StatusOrDraft(document.status), Some(document.id));
          (db.(csrDocuments := db.csrDocuments + [csr],
               csrSections := db.csrSections + CsrDefaults.DefaultSectionRows(csr.id, db.nextId + 1),
               nextId := db.nextId + 1 + |DefaultCsrSections|),
           Success(LinkedCsr(csr)))
  }

  /** Adopting the study's existing CSR record links it and creates no second record. */
  lemma LegacyLink(db: Db, document: Document)
    requires document.docType == "csr" && document.studyId.Some?
    requires OutputLinkedTo(db.outputDocuments, document.id).None?
    requires CsrDefaults.CsrDocumentOfStudy(db.csrDocuments, document.studyId.value).Some?
    ensures var (db2, r) := GetOrCreateCsrForDocument(db, document);
      var c := CsrDefaults.CsrDocumentOfStudy(db.csrDocuments, document.studyId.value).value;
      && r == Success(LinkedCsr(c.(documentId := Some(document.id))))
      && r.value.csr in db2.csrDocuments
      && |db2.csrDocuments| == |db.csrDocuments|
      && (forall i :: 0 <= i < |db.csrDocuments| ==>
            db2.csrDocuments[i].(documentId := db.csrDocuments[i].documentId) == db.csrDocuments[i])
      && db2.csrSections == db.csrSections && db2.nextId == db.nextId
  {
    LinkFirstFound(db.csrDocuments, document.studyId.value, document.id);
  }

  /** Otherwise a new linked record with the document's title, its status or draft, and the default sections. */
  lemma CreateLinked(db: Db, document: Document)
    requires document.docType == "csr" && document.studyId.Some?
    requires OutputLinkedTo(db.outputDocuments, document.id).None?
    requires CsrDefaults.CsrDocumentOfStudy(db.csrDocuments, document.studyId.value).None?
    ensures var (db2, r) := GetOrCreateCsrForDocument(db, document);
      && r.Success? && r.value.LinkedCsr?
      && var csr := r.value.csr;
      && csr.studyId == document.studyId.value && csr.title == document.title
      && csr.status == StatusOrDraft(document.status) && csr.documentId == Some(document.id)
      && db2.csrDocuments == db.csrDocuments + [csr]
      && db2.csrSections == db.csrSections + CsrDefaults.DefaultSectionRows(csr.id, db.nextId + 1)
      && CsrDefaults.CsrDocumentOfStudy(db2.csrDocuments, csr.studyId) == Some(csr)
  {
    var (db2, r) := GetOrCreateCsrForDocument(db, document);
    var csr := r.value.csr;
    assert forall i :: 0 <= i < |db.csrDocuments| ==> db2.csrDocuments[i].studyId != csr.studyId;
    assert db2.csrDocuments[|db.csrDocuments|] == csr;
  }

  /**
   * The same operation as the source writes it: the CSR table has no
   * `document_id` column, so the legacy link is set on the returned object
   * only and never stored, and creating a record fails on the unknown
   * keyword.
   */
  function GetOrCreateCsrForDocumentAsWritten(db: Db, document: Document): (r: (Db, Result<Linked, LinkError>))
    ensures r.0 == db
    ensures r.1.Success? ==> r.1 == GetOrCreateCsrForDocument(db, document).1
  {
    if document.docType != "csr" then (db, Failure(NotCsr(document.docType)))
    else if document.studyId.None? then (db, Failure(NoStudy))
    else
      var studyId := document.studyId.value;
      match OutputLinkedTo(db.outputDocuments, document.id)
      case Some(o) => (db, Success(LinkedOutput(o)))
      case None =>
        match CsrDefaults.CsrDocumentOfStudy(db.csrDocuments, studyId)
        case Some(c) => (db, Success(LinkedCsr(c.(documentId := Some(document.id)))))
        case None => (db, Failure(InvalidKeyword("document_id")))
  }

  /**
   * A "csr" document of a study that has neither a linked output document
   * nor a CSR record: as written the service fails, while the corrected
   * one creates the record.
   */
  lemma AsWrittenCannotCreate(db: Db, document: Document)
    requires document.docType == "csr" && document.studyId.Some?
    requires OutputLinkedTo(db.outputDocuments, document.id).None?
    requires CsrDefaults.CsrDocumentOfStudy(db.csrDocuments, document.studyId.value).None?
    ensures GetOrCreateCsrForDocumentAsWritten(db, document).1 == Failure(InvalidKeyword("document_id"))
    ensures GetOrCreateCsrForDocument(db, document).1.Success?
  {
  }

  /** The title of a study's new "csr" document when none is given. */
  function DefaultStudyDocumentTitle(study: Option<Study>, studyId: int): (r: string)
    ensures study.Some? && study.value.code != "" ==> r == "CSR for " + study.value.code
    ensures study.Some? && study.value.code == "" && study.value.title != "" ==> r == "CSR for " + study.value.title
    ensures study.None? || (study.value.code == "" && study.value.title == "") ==> r == "CSR for Study " + IntToString(studyId)
  {
    if study.Some? && study.value.code != "" then "CSR for " + study.value.code
    else if study.Some? && study.value.title != "" then "CSR for " + study.value.title
    else "CSR for Study " + IntToString(studyId)
  }

  /**
   * `get_or_create_csr_for_study`: the study's first "csr" document, or a new
   * draft one created by `userId` at time `now` (an explicit title wins,
   * even an empty one), then linked as above.
   */
  function GetOrCreateCsrForStudy(db: Db, studyId: int, userId: int, title: Option<string>, now: int)
    : (r: (Db, Result<Linked, LinkError>))
    ensures r.1.Success?
    ensures Documents.CsrDocumentOfStudy(db.documents, studyId).Some? ==>
      r == GetOrCreateCsrForDocument(db, Documents.CsrDocumentOfStudy(db.documents, studyId).value)
    ensures Documents.CsrDocumentOfStudy(db.documents, studyId).None? ==>
      var t := if title.Some? then title.value else DefaultStudyDocumentTitle(FindStudy(db.studies, studyId), studyId);
      var d := Document(db.nextId, Some(studyId), "csr", t, None, "draft", "ru", Some(userId), now);
      r == GetOrCreateCsrForDocument(db.(documents := db.documents + [d], nextId := db.nextId + 1), d)
  {
    var (db1, document) :=
      match Documents.CsrDocumentOfStudy(db.documents, studyId)
      case Some(d) => (db, d)
      case None =>
        var t := if title.Some? then title.value else DefaultStudyDocumentTitle(FindStudy(db.studies, studyId), studyId);
        var d := Document(db.nextId, Some(studyId), "csr", t, None, "draft", "ru", Some(userId), now);
        (db.(documents := db.documents + [d], nextId := db.nextId + 1), d);
    GetOrCreateCsrForDocument(db1, document)
  }

  lemma {:induction false} LinkFirstAgain(csrs: seq<CsrDocument>, studyId: int, documentId: int)
    ensures LinkFirst(LinkFirst(csrs, studyId, documentId), studyId, documentId) == LinkFirst(csrs, studyId, documentId)
    decreases |csrs|
  {
    if csrs != [] && csrs[0].studyId != studyId {
      LinkFirstAgain(csrs[1..], studyId, documentId);
    }
  }

  lemma {:induction false} CsrOfStudyAfterLink(csrs: seq<CsrDocument>, studyId: int, documentId: int)
    requires CsrDefaults.CsrDocumentOfStudy(csrs, studyId).Some?
    ensures CsrDefaults.CsrDocumentOfStudy(LinkFirst(csrs, studyId, documentId), studyId)
      == Some(CsrDefaults.CsrDocumentOfStudy(csrs, studyId).value.(documentId := Some(documentId)))
    decreases |csrs|
  {
    if csrs[0].studyId != studyId {
      CsrOfStudyAfterLink(csrs[1..], studyId, documentId);
    }
  }

  /** Linking the same document twice changes nothing the second time. */
  lemma LinkAgain(db: Db, document: Document)
    ensures var (db2, r) := GetOrCreateCsrForDocument(db, document);
      r.Success? ==> GetOrCreateCsrForDocument(db2, document) == (db2, r)
  {
    var (db2, r) := GetOrCreateCsrForDocument(db, document);
    if r.Success? && OutputLinkedTo(db.outputDocuments, document.id).None? {
      var studyId := document.studyId.value;
      assert db2.outputDocuments == db.outputDocuments;
      match CsrDefaults.CsrDocumentOfStudy(db.csrDocuments, studyId)
      case Some(c) =>
        CsrOfStudyAfterLink(db.csrDocuments, studyId, document.id);
        LinkFirstAgain(db.csrDocuments, studyId, document.id);
      case None =>
        CreateLinked(db, document);
        var csr := r.value.csr;
        assert LinkFirst(db2.csrDocuments, studyId, document.id) == db2.csrDocuments by {
          LinkFirstKeepsLinked(db2.csrDocuments, studyId, document.id);
        }
    }
  }

  /** Linking a record that already carries the link leaves the table as it is. */
  lemma {:induction false} LinkFirstKeepsLinked(csrs: seq<CsrDocument>, studyId: int, documentId: int)
    requires CsrDefaults.CsrDocumentOfStudy(csrs, studyId).Some? && CsrDefaults.CsrDocumentOfStudy(csrs, studyId).value.documentId == Some(documentId)
    ensures LinkFirst(csrs, studyId, documentId) == csrs
    decreases |csrs|
  {
    if csrs[0].studyId != studyId {
      LinkFirstKeepsLinked(csrs[1..], studyId, documentId);
    }
  }

  /** Asking twice for a study's CSR record returns the same record and changes nothing more. */
  lemma StudyEntryIdempotent(db: Db, studyId: int, userId: int, title: Option<string>, now: int,
                             title2: Option<string>, now2: int)
    ensures var (db2, r) := GetOrCreateCsrForStudy(db, studyId, userId, title, now);
      GetOrCreateCsrForStudy(db2, studyId, userId, title2, now2) == (db2, r)
  {
    var (db2, r) := GetOrCreateCsrForStudy(db, studyId, userId, title, now);
    var (db1, document) :=
      match Documents.CsrDocumentOfStudy(db.documents, studyId)
      case Some(d) => (db, d)
      case None =>
        var t := if title.Some? then title.value else DefaultStudyDocumentTitle(FindStudy(db.studies, studyId), studyId);
        var d := Document(db.nextId, Some(studyId), "csr", t, None, "draft", "ru", Some(userId), now);
        (db.(documents := db.documents + [d], nextId := db.nextId + 1), d);
    assert (db2, r) == GetOrCreateCsrForDocument(db1, document);
    assert Documents.CsrDocumentOfStudy(db1.documents, studyId) == Some(document) by {
      if Documents.CsrDocumentOfStudy(db.documents, studyId).None? {
        assert db1.documents == db.documents + [document];
        assert forall i :: 0 <= i < |db.documents| ==> !(db1.documents[i].studyId == Some(studyId) && db1.documents[i].docType == "csr");
        assert db1.documents[|db.documents|] == document;
      }
    }
    assert db2.documents == db1.documents;
    LinkAgain(db1, document);
  }
}

=== FILE: documents.dfy ===
/** The study documents endpoint: the default "csr" document and the ordered listing. */
module Documents {
  import opened Wrappers
  import opened Seqs
  import opened Text
  import opened Sorting
  import opened Models
  import opened Store
  import opened StudyAccess

  function CsrDocumentOfStudy(documents: seq<Document>, studyId: int): Option<Document> {
    FirstWhere(documents, (d: Document) => d.studyId == Some(studyId) && d.docType == "csr")
  }

  /** "CSR for {code}", or "CSR for Study {id}" when the study has no code. */
  function DefaultCsrTitle(study: Study, studyId: int): (r: string)
    ensures study.code != "" ==> r == "CSR for " + study.code
    ensures study.code == "" ==> r == "CSR for Study " + IntToString(studyId)
  {
    if study.code != "" then "CSR for " + study.code else "CSR for Study " + IntToString(studyId)
  }

  /**
   * `get_or_create_default_csr_document`: nothing for an unknown study; the
   * study's first "csr" document; or a new draft one created by `userId` at
   * time `now`.
   */
  function GetOrCreateDefaultCsrDocument(db: Db, studyId: int, userId: int, now: int): (r: (Db, Option<Document>))
    ensures FindStudy(db.studies, studyId).None? ==> r == (db, None)
    ensures FindStudy(db.studies, studyId).Some? && CsrDocumentOfStudy(db.documents, studyId).Some? ==>
      r == (db, CsrDocumentOfStudy(db.documents, studyId))
    ensures FindStudy(db.studies, studyId).Some? && CsrDocumentOfStudy(db.documents, studyId).None? ==>
      && r.1.Some?
      && r.1.value == Document(db.nextId, Some(studyId), "csr", DefaultCsrTitle(FindStudy(db.studies, studyId).value, studyId),
                               None, "draft", "ru", Some(userId), now)
      && r.0 == db.(documents := db.documents + [r.1.value], nextId := db.nextId + 1)
  {
    match FindStudy(db.studies, studyId)
    case None => (db, None)
    case Some(study) =>
      match CsrDocumentOfStudy(db.documents, studyId)
      case Some(d) => (db, Some(d))
      case None =>
        var d := Document(db.nextId, Some(studyId), "csr", DefaultCsrTitle(study, studyId), None, "draft", "ru", Some(userId), now);
        (db.(documents := db.documents + [d], nextId := db.nextId + 1), Some(d))
  }

  /** Repeated calls never create a second "csr" document for the study. */
  lemma GetOrCreateIdempotent(db: Db, studyId: int, userId: int, now: int, userId2: int, now2: int)
    ensures var (db1, d) := GetOrCreateDefaultCsrDocument(db, studyId, userId, now);
      GetOrCreateDefaultCsrDocument(db1, studyId, userId2, now2) == (db1, d)
  {
    var (db1, d) := GetOrCreateDefaultCsrDocument(db, studyId, userId, now);
    if FindStudy(db.studies, studyId).Some? && CsrDocumentOfStudy(db.documents, studyId).None? {
      assert forall i :: 0 <= i < |db.documents| ==>
        !(db1.documents[i].studyId == Some(studyId) && db1.documents[i].docType == "csr");
      assert db1.documents[|db.documents|] == d.value;
    }
  }

  /** `ORDER BY type ASC, created_at ASC`. */
  predicate TypeThenCreated(x: Document, y: Document) {
    (StringLe(x.docType, y.docType) && x.docType != y.docType) || (x.docType == y.docType && x.createdAt <= y.createdAt)
  }

  lemma TypeThenCreatedPreorder()
    ensures TotalPreorder(TypeThenCreated)
  {
    forall x: Document, y: Document
      ensures TypeThenCreated(x, y) || TypeThenCreated(y, x)
    {
      StringLeTotal(x.docType, y.docType);
    }
    forall x: Document, y: Document, z: Document | TypeThenCreated(x, y) && TypeThenCreated(y, z)
      ensures TypeThenCreated(x, z)
    {
      if x.docType != y.docType && y.docType != z.docType {
        StringLeTransitive(x.docType, y.docType, z.docType);
        if x.docType == z.docType {
          StringLeAntisymmetric(x.docType, y.docType);
        }
      }
    }
  }

  function OfStudy(studyId: int): Document -> bool {
    (d: Document) => d.studyId == Some(studyId)
  }

  /** `list_documents`: the study's documents, ordered by type and then by creation time. */
  function ListDocuments(db: Db, studyId: int): (r: seq<Document>)
    ensures multiset(r) == multiset(Filter(db.documents, OfStudy(studyId)))
    ensures SortedBy(r, TypeThenCreated)
  {
    TypeThenCreatedPreorder();
    InsertionSort(Filter(db.documents, OfStudy(studyId)), TypeThenCreated)
  }

  /** The listing holds every document of the study and no other. */
  lemma ListDocumentsMembers(db: Db, studyId: int)
    ensures forall d :: d in ListDocuments(db, studyId) <==> d in db.documents && d.studyId == Some(studyId)
  {
    var r := ListDocuments(db, studyId);
    assert forall d :: d in r <==> d in multiset(r);
    assert forall d :: d in Filter(db.documents, OfStudy(studyId)) <==> d in multiset(Filter(db.documents, OfStudy(studyId)));
  }

  /** Types ascend; within one type, creation times ascend. */
  lemma ListDocumentsOrder(db: Db, studyId: int)
    ensures var r := ListDocuments(db, studyId);
      && (forall i, j :: 0 <= i < j < |r| ==> StringLe(r[i].docType, r[j].docType))
      && (forall i, j :: 0 <= i < j < |r| && r[i].docType == r[j].docType ==> r[i].createdAt <= r[j].createdAt)
  {
    var r := ListDocuments(db, studyId);
    forall i, j | 0 <= i < j < |r|
      ensures StringLe(r[i].docType, r[j].docType)
    {
      assert TypeThenCreated(r[i], r[j]);
      StringLeTotal(r[i].docType, r[i].docType);
    }
  }

  /**
   * The `list_documents` endpoint: the member check first, then, when asked,
   * the default "csr" document is ensured before the study's documents are
   * listed.
   */
  function ListStudyDocuments(db: Db, studyId: int, userId: int, ensureDefaultCsr: bool, now: int)
    : (Db, Result<seq<Document>, AccessError>)
  {
    match VerifyStudyAccess(db, studyId, userId)
    case Failure(e) => (db, Failure(e))
    case Success(_) =>
      var db1 := if ensureDefaultCsr then GetOrCreateDefaultCsrDocument(db, studyId, userId, now).0 else db;
      (db1, Success(ListDocuments(db1, studyId)))
  }

  /**
   * A denied listing changes nothing; a granted one changes the store only
   * when asked to ensure the default document, and then the listing holds a
   * "csr" document of the study.
   */
  lemma ListStudyDocumentsSpec(db: Db, studyId: int, userId: int, ensureDefaultCsr: bool, now: int)
    ensures var (db1, r) := ListStudyDocuments(db, studyId, userId, ensureDefaultCsr, now);
      && (r.Failure? <==> VerifyStudyAccess(db, studyId, userId).Failure?)
      && (r.Failure? ==> db1 == db && r.error == VerifyStudyAccess(db, studyId, userId).error)
      && (r.Success? && !ensureDefaultCsr ==> db1 == db && r.value == ListDocuments(db, studyId))
      && (r.Success? && ensureDefaultCsr ==>
            exists d :: d in r.value && d.docType == "csr" && d.studyId == Some(studyId))
  {
    var (db1, r) := ListStudyDocuments(db, studyId, userId, ensureDefaultCsr, now);
    if r.Success? && ensureDefaultCsr {
      assert FindStudy(db.studies, studyId).Some?;
      var d := GetOrCreateDefaultCsrDocument(db, studyId, userId, now).1.value;
      assert CsrDocumentOfStudy(db.documents, studyId).Some? ==> d in db.documents && d.studyId == Some(studyId) && d.docType == "csr";
      assert d in db1.documents && d.studyId == Some(studyId) && d.docType == "csr";
      ListDocumentsMembers(db1, studyId);
      assert d in r.value;
    }
  }
}

=== FILE: ingest.dfy ===
/**
 * Ingestion of a source document into the RAG store: extract its text,
 * chunk it, replace the document's chunks and record the indexing status.
 * Reading the file is outside the model: `extract` stands for extraction
 * from the file at a storage path, failing with a message.
 */
module Ingest {
  import opened Wrappers
  import opened Text
  import opened Models
  import opened SourceModel
  import opened Store
  import opened Chunking

  datatype IngestError = SourceNotFound(id: int) | ExtractionFailed(message: string)

  /** The chunks indexed from source document `id`. */
  function ChunksOf(chunks: seq<RagChunk>, id: int): seq<RagChunk>
    decreases |chunks|
  {
    if chunks == [] then []
    else if chunks[0].sourceDocumentId == Some(id) then [chunks[0]] + ChunksOf(chunks[1..], id)
    else ChunksOf(chunks[1..], id)
  }

  /** The chunks that the delete before re-indexing keeps. */
  function OtherChunks(chunks: seq<RagChunk>, id: int): seq<RagChunk>
    decreases |chunks|
  {
    if chunks == [] then []
    else if chunks[0].sourceDocumentId == Some(id) then OtherChunks(chunks[1..], id)
    else [chunks[0]] + OtherChunks(chunks[1..], id)
  }

  lemma {:induction false} ChunksOfAppend(a: seq<RagChunk>, b: seq<RagChunk>, id: int)
    ensures ChunksOf(a + b, id) == ChunksOf(a, id) + ChunksOf(b, id)
    decreases |a|
  {
    if a == [] {
      assert a + b == b;
    } else {
      assert (a + b)[1..] == a[1..] + b;
      ChunksOfAppend(a[1..], b, id);
    }
  }

  lemma {:induction false} OtherChunksAppend(a: seq<RagChunk>, b: seq<RagChunk>, id: int)
    ensures OtherChunks(a + b, id) == OtherChunks(a, id) + OtherChunks(b, id)
    decreases |a|
  {
    if a == [] {
      assert a + b == b;
    } else {
      assert (a + b)[1..] == a[1..] + b;
      OtherChunksAppend(a[1..], b, id);
    }
  }

  lemma {:induction false} ChunksOfOthers(chunks: seq<RagChunk>, id: int)
    ensures ChunksOf(OtherChunks(chunks, id), id) == []
    ensures OtherChunks(OtherChunks(chunks, id), id) == OtherChunks(chunks, id)
    decreases |chunks|
  {
    if chunks != [] {
      ChunksOfOthers(chunks[1..], id);
    }
  }

  /** The rows created for the chunk texts, numbered from 0 in order. */
  function NewRows(source: SourceDocument, texts: seq<string>, firstId: int): (r: seq<RagChunk>)
    ensures |r| == |texts|
  {
    seq(|texts|, i requires 0 <= i < |texts| =>
      RagChunk(firstId + i, source.studyId, Some(source.id), source.sourceType, i, texts[i]))
  }

  lemma {:induction false} NewRowsOwned(source: SourceDocument, texts: seq<string>, firstId: int)
    ensures ChunksOf(NewRows(source, texts, firstId), source.id) == NewRows(source, texts, firstId)
    ensures OtherChunks(NewRows(source, texts, firstId), source.id) == []
    decreases |texts|
  {
    if texts != [] {
      var rows := NewRows(source, texts, firstId);
      var init := texts[..|texts| - 1];
      assert rows == NewRows(source, init, firstId) + [rows[|rows| - 1]];
      NewRowsOwned(source, init, firstId);
      ChunksOfAppend(NewRows(source, init, firstId), [rows[|rows| - 1]], source.id);
      OtherChunksAppend(NewRows(source, init, firstId), [rows[|rows| - 1]], source.id);
    }
  }

  function SetIndexStatus(db: Db, k: nat, status: IndexStatus): Db
    requires k < |db.sources|
  {
    db.(sources := db.sources[k := db.sources[k].(indexStatus := status)])
  }

  /**
   * `ingest_source_document_to_rag`. The text is extracted before the old
   * chunks are deleted, so a failed extraction leaves them in place.
   */
  function IngestSourceDocument(db: Db, sourceId: int, extract: string -> Result<string, string>)
    : (Db, Result<nat, IngestError>)
  {
    match FindSource(db.sources, sourceId)
    case None => (db, Failure(SourceNotFound(sourceId)))
    case Some(k) =>
      var source := db.sources[k];
      match extract(source.storagePath)
      case Failure(message) => (SetIndexStatus(db, k, IndexError), Failure(ExtractionFailed(message)))
      case Success(text) =>
        var texts := ChunkTextDefault(text);
        var rows := NewRows(source, texts, db.nextId);
        var db' := SetIndexStatus(db, k, Indexed);
        (db'.(chunks := OtherChunks(db.chunks, source.id) + rows, nextId := db.nextId + |rows|),
         Success(|rows|))
  }

  /** An unknown id fails and changes nothing. */
  lemma IngestNotFound(db: Db, sourceId: int, extract: string -> Result<string, string>)
    ensures var (db', r) := IngestSourceDocument(db, sourceId, extract);
      (r == Failure(SourceNotFound(sourceId))) <==> (forall i :: 0 <= i < |db.sources| ==> db.sources[i].id != sourceId)
    ensures var (db', r) := IngestSourceDocument(db, sourceId, extract);
      r == Failure(SourceNotFound(sourceId)) ==> db' == db
  {
  }

  /**
   * A failed extraction marks the document `error` and changes nothing
   * else: its old chunks, every other document and every other table stay.
   */
  lemma IngestExtractionFailure(db: Db, sourceId: int, extract: string -> Result<string, string>, k: nat)
    requires k < |db.sources| && db.sources[k].id == sourceId
    requires forall j :: 0 <= j < k ==> db.sources[j].id != sourceId
    requires extract(db.sources[k].storagePath).Failure?
    ensures var (db', r) := IngestSourceDocument(db, sourceId, extract);
      && r == Failure(ExtractionFailed(extract(db.sources[k].storagePath).error))
      && |db'.sources| == |db.sources|
      && db'.sources[k] == db.sources[k].(indexStatus := IndexError)
      && (forall j :: 0 <= j < |db.sources| && j != k ==> db'.sources[j] == db.sources[j])
      && db'.(sources := db.sources) == db
  {
    FindSourceFirst(db.sources, sourceId, k);
    var db' := SetIndexStatus(db, k, IndexError);
    assert IngestSourceDocument(db, sourceId, extract).0 == db';
  }

  /**
   * A successful ingestion returns the number of chunks of the text, marks
   * the document indexed, makes those chunks (numbered 0, 1, ... with the
   * document's study and type) its only chunks, and keeps every other
   * document's chunks as they were.
   */
  lemma IngestSuccess(db: Db, sourceId: int, extract: string -> Result<string, string>, k: nat)
    requires k < |db.sources| && db.sources[k].id == sourceId
    requires forall j :: 0 <= j < k ==> db.sources[j].id != sourceId
    requires extract(db.sources[k].storagePath).Success?
    ensures var (db', r) := IngestSourceDocument(db, sourceId, extract);
      var texts := ChunkTextDefault(extract(db.sources[k].storagePath).value);
      var mine := ChunksOf(db'.chunks, sourceId);
      && r == Success(|texts|)
      && db'.sources[k] == db.sources[k].(indexStatus := Indexed)
      && (forall j :: 0 <= j < |db.sources| && j != k ==> db'.sources[j] == db.sources[j])
      && |mine| == |texts|
      && (forall i :: 0 <= i < |mine| ==>
            && mine[i].text == texts[i]
            && mine[i].orderIndex == i
            && mine[i].sourceDocumentId == Some(sourceId)
            && mine[i].studyId == db.sources[k].studyId
            && mine[i].sourceType == db.sources[k].sourceType)
      && OtherChunks(db'.chunks, sourceId) == OtherChunks(db.chunks, sourceId)
      && (forall id :: id != sourceId ==> ChunksOf(db'.chunks, id) == ChunksOf(db.chunks, id))
  {
    FindSourceFirst(db.sources, sourceId, k);
    var source := db.sources[k];
    var texts := ChunkTextDefault(extract(source.storagePath).value);
    ReplaceChunks(db.chunks, source, texts, db.nextId);
  }

  /**
   * Re-ingesting with the same extraction result gives the document the
   * same chunks again (only their ids are new) and leaves the others alone.
   */
  lemma IngestTwice(db: Db, sourceId: int, extract: string -> Result<string, string>, k: nat)
    requires k < |db.sources| && db.sources[k].id == sourceId
    requires forall j :: 0 <= j < k ==> db.sources[j].id != sourceId
    requires extract(db.sources[k].storagePath).Success?
    ensures var (db1, r1) := IngestSourceDocument(db, sourceId, extract);
      var (db2, r2) := IngestSourceDocument(db1, sourceId, extract);
      var once := ChunksOf(db1.chunks, sourceId);
      var twice := ChunksOf(db2.chunks, sourceId);
      && r2 == r1
      && db2.sources == db1.sources
      && |twice| == |once|
      && (forall i :: 0 <= i < |once| ==> twice[i].(id := once[i].id) == once[i])
      && OtherChunks(db2.chunks, sourceId) == OtherChunks(db1.chunks, sourceId)
  {
    var (db1, r1) := IngestSourceDocument(db, sourceId, extract);
    IngestSuccess(db, sourceId, extract, k);
    assert db1.sources[k].storagePath == db.sources[k].storagePath;
    var (db2, r2) := IngestSourceDocument(db1, sourceId, extract);
    IngestSuccess(db1, sourceId, extract, k);
    assert db2.sources == db1.sources by {
      assert |db2.sources| == |db1.sources|;
      assert db2.sources[k] == db1.sources[k];
    }
  }

  /** Deleting a document's chunks and appending new rows for it touches no other document. */
  lemma ReplaceChunks(chunks: seq<RagChunk>, source: SourceDocument, texts: seq<string>, firstId: int)
    ensures var after := OtherChunks(chunks, source.id) + NewRows(source, texts, firstId);
      && ChunksOf(after, source.id) == NewRows(source, texts, firstId)
      && OtherChunks(after, source.id) == OtherChunks(chunks, source.id)
      && (forall id :: id != source.id ==> ChunksOf(after, id) == ChunksOf(chunks, id))
  {
    var rows := NewRows(source, texts, firstId);
    var others := OtherChunks(chunks, source.id);
    ChunksOfAppend(others, rows, source.id);
    OtherChunksAppend(others, rows, source.id);
    ChunksOfOthers(chunks, source.id);
    NewRowsOwned(source, texts, firstId);
    forall id | id != source.id
      ensures ChunksOf(others + rows, id) == ChunksOf(chunks, id)
    {
      ChunksOfAppend(others, rows, id);
      OtherChunksOfOther(chunks, source.id, id);
      NewRowsForeign(source, texts, firstId, id);
    }
  }

  lemma {:induction false} OtherChunksOfOther(chunks: seq<RagChunk>, id: int, other: int)
    requires other != id
    ensures ChunksOf(OtherChunks(chunks, id), other) == ChunksOf(chunks, other)
    decreases |chunks|
  {
    if chunks != [] {
      OtherChunksOfOther(chunks[1..], id, other);
    }
  }

  lemma {:induction false} NewRowsForeign(source: SourceDocument, texts: seq<string>, firstId: int, other: int)
    requires other != source.id
    ensures ChunksOf(NewRows(source, texts, firstId), other) == []
    decreases |texts|
  {
    if texts != [] {
      var rows := NewRows(source, texts, firstId);
      var init := texts[..|texts| - 1];
      assert rows == NewRows(source, init, firstId) + [rows[|rows| - 1]];
      NewRowsForeign(source, init, firstId, other);
      ChunksOfAppend(NewRows(source, init, firstId), [rows[|rows| - 1]], other);
    }
  }
}

=== FILE: messages.dfy ===
/**
 * Interface messages in Russian and English and the `t` lookup: language
 * normalisation, fallback to English and then to the key, and `{name}`
 * formatting with keyword arguments.
 */
module Messages {
  import opened Wrappers
  import opened Text
  import opened Assoc

  const RuMessages: Dict<string> := [
    ("QC_MISSING_SECTION", "Отсутствует обязательная секция: {section_title} ({code})"),
    ("QC_TERM_MISMATCH_TITLE", "Найдено несоответствие термина"),
    ("QC_TERM_MISMATCH_DESCRIPTION", "Термин '{term}' не соответствует ожидаемому '{expected}'"),
    ("ERROR_STUDY_NOT_FOUND", "Исследование не найдено"),
    ("ERROR_ACCESS_DENIED_NOT_MEMBER", "Доступ запрещён: вы не являетесь участником этого исследования"),
    ("ERROR_ACCESS_DENIED_MANAGEMENT", "Доступ запрещён: только владельцы исследования могут управлять участниками"),
    ("ERROR_ACCESS_DENIED_EDITOR", "Доступ запрещён: только владельцы и редакторы исследования могут выполнять это действие")]

  const EnMessages: Dict<string> := [
    ("QC_MISSING_SECTION", "Missing required section: {section_title} ({code})"),
    ("QC_TERM_MISMATCH_TITLE", "Term mismatch found"),
    ("QC_TERM_MISMATCH_DESCRIPTION", "Term '{term}' does not match expected '{expected}'"),
    ("ERROR_STUDY_NOT_FOUND", "Study not found"),
    ("ERROR_ACCESS_DENIED_NOT_MEMBER", "Access denied: You are not a member of this study"),
    ("ERROR_ACCESS_DENIED_MANAGEMENT", "Access denied: Only study owners can manage members"),
    ("ERROR_ACCESS_DENIED_EDITOR", "Access denied: Only study owners and editors can perform this action")]

  /** Both languages define the same keys, in the same order. */
  lemma SameKeys()
    ensures Keys(RuMessages) == Keys(EnMessages)
  {
  }

  /** "ru" for any non-empty code whose lower-case form starts with "ru"; "en" for anything else. */
  function NormalizeLanguage(language: string): (r: string)
    ensures r == "ru" || r == "en"
  {
    var lower := Lower(language);
    if language != "" && |lower| >= 2 && lower[..2] == "ru" then "ru" else "en"
  }

  lemma NormalizeLanguageSpec(language: string)
    ensures NormalizeLanguage(language) == "ru" <==>
      |language| >= 2 && LowerChar(language[0]) == 'r' && LowerChar(language[1]) == 'u'
  {
    var lower := Lower(language);
    if |language| >= 2 {
      assert lower[..2] == [lower[0], lower[1]];
    }
  }

  function Table(language: string): Dict<string> {
    if language == "ru" then RuMessages else EnMessages
  }

  /** The message template for a key: the language's entry, else the English one, else the key. */
  function Lookup(key: string, language: string): (r: string)
    ensures var lang := NormalizeLanguage(language);
      && (Get(Table(lang), key).Some? ==> r == Get(Table(lang), key).value)
      && (Get(Table(lang), key).None? && Get(EnMessages, key).Some? ==> r == Get(EnMessages, key).value)
      && (Get(RuMessages, key).None? && Get(EnMessages, key).None? ==> r == key)
  {
    var lang := NormalizeLanguage(language);
    match Get(Table(lang), key)
    case Some(m) => m
    case None =>
      if lang != "en" then Get(EnMessages, key).GetOr(key) else key
  }

  /**
   * Since both tables share their keys, the English fallback never changes
   * the outcome: a key is found in the requested language or not at all.
   */
  lemma LookupNoCrossFallback(key: string, language: string)
    ensures Lookup(key, language) == Get(Table(NormalizeLanguage(language)), key).GetOr(key)
    ensures Lookup(key, language) == key <== key !in Keys(EnMessages)
  {
    SameKeys();
  }

  /** How `str.format` fails: an unknown keyword, a positional field, or malformed braces. */
  datatype FormatError = MissingKey(name: string) | PositionalField | Malformed

  predicate AllDigits(s: string) {
    forall i :: 0 <= i < |s| ==> '0' <= s[i] <= '9'
  }

  /** Index of the first `}` in `s`, if any. */
  function CloseBrace(s: string): (r: Option<nat>)
    ensures r.Some? ==> r.value < |s| && s[r.value] == '}' && forall i :: 0 <= i < r.value ==> s[i] != '}'
    ensures r.None? ==> forall i :: 0 <= i < |s| ==> s[i] != '}'
    decreases |s|
  {
    if s == [] then None
    else if s[0] == '}' then Some(0)
    else match CloseBrace(s[1..])
      case None => None
      case Some(k) => Some(k + 1)
  }

  function Prepend(prefix: string, r: Result<string, FormatError>): Result<string, FormatError> {
    match r
    case Success(s) => Success(prefix + s)
    case Failure(e) => Failure(e)
  }

  /**
   * `template.format(**kwargs)` for plain fields: `{{` and `}}` are literal
   * braces, `{name}` is the keyword argument's value, and the scan stops at
   * the first error, left to right.
   */
  function Format(s: string, kwargs: Dict<string>): Result<string, FormatError>
    decreases |s|
  {
    if s == [] then Success("")
    else if s[0] == '{' then
      if |s| >= 2 && s[1] == '{' then Prepend("{", Format(s[2..], kwargs))
      else match CloseBrace(s[1..])
        case None => Failure(Malformed)
        case Some(k) =>
          var name := s[1..k + 1];
          if '{' in name then Failure(Malformed)
          else if AllDigits(name) then Failure(PositionalField)
          else match Get(kwargs, name)
            case None => Failure(MissingKey(name))
            case Some(v) => Prepend(v, Format(s[k + 2..], kwargs))
    else if s[0] == '}' then
      if |s| >= 2 && s[1] == '}' then Prepend("}", Format(s[2..], kwargs)) else Failure(Malformed)
    else Prepend([s[0]], Format(s[1..], kwargs))
  }

  /** Doubles every brace, so that formatting gives the text back. */
  function Escape(s: string): string
    decreases |s|
  {
    if s == [] then ""
    else if s[0] == '{' then "{{" + Escape(s[1..])
    else if s[0] == '}' then "}}" + Escape(s[1..])
    else [s[0]] + Escape(s[1..])
  }

  lemma EscapeCons(c: char, rest: string)
    ensures Escape([c] + rest) == (if c == '{' then "{{" else if c == '}' then "}}" else [c]) + Escape(rest)
  {
    assert ([c] + rest)[1..] == rest;
  }

  /** Formatting undoes escaping, whatever the arguments: `format` is onto. */
  lemma {:induction false} FormatEscape(s: string, kwargs: Dict<string>)
    ensures Format(Escape(s), kwargs) == Success(s)
    decreases |s|
  {
    if s != [] {
      FormatEscape(s[1..], kwargs);
      EscapeCons(s[0], s[1..]);
      var e := Escape(s);
      if s[0] == '{' || s[0] == '}' {
        assert e[2..] == Escape(s[1..]);
      } else {
        assert e[1..] == Escape(s[1..]);
      }
      assert s == [s[0]] + s[1..];
    }
  }

  /** A template without braces formats to itself. */
  lemma {:induction false} FormatPlain(s: string, kwargs: Dict<string>)
    requires forall i :: 0 <= i < |s| ==> s[i] != '{' && s[i] != '}'
    ensures Format(s, kwargs) == Success(s)
    decreases |s|
  {
    if s != [] {
      FormatPlain(s[1..], kwargs);
      assert s == [s[0]] + s[1..];
    }
  }

  /** A field names a keyword argument and is replaced by its value. */
  lemma FormatField(name: string, rest: string, kwargs: Dict<string>)
    requires name != [] && !AllDigits(name)
    requires forall i :: 0 <= i < |name| ==> name[i] != '{' && name[i] != '}'
    ensures var s := "{" + name + "}" + rest;
      Format(s, kwargs) ==
        match Get(kwargs, name)
        case None => Failure(MissingKey(name))
        case Some(v) => Prepend(v, Format(rest, kwargs))
  {
    var s := "{" + name + "}" + rest;
    assert s[1..] == name + ("}" + rest);
    CloseBraceAfter(name, "}" + rest);
    assert s[1..|name| + 1] == name;
    assert s[|name| + 2..] == rest;
  }

  lemma {:induction false} CloseBraceAfter(prefix: string, rest: string)
    requires forall i :: 0 <= i < |prefix| ==> prefix[i] != '}'
    requires rest != [] && rest[0] == '}'
    ensures CloseBrace(prefix + rest) == Some(|prefix|)
    decreases |prefix|
  {
    if prefix != [] {
      assert (prefix + rest)[1..] == prefix[1..] + rest;
      CloseBraceAfter(prefix[1..], rest);
    }
  }

  /**
   * `t(key, language, **kwargs)`: without arguments the template as is;
   * with arguments the formatted template, or the template itself when a
   * keyword is missing or the braces are malformed. A positional field
   * raises, which the result reports as a failure.
   */
  function T(key: string, language: string, kwargs: Dict<string>): (r: Result<string, FormatError>)
    ensures kwargs == [] ==> r == Success(Lookup(key, language))
    ensures var f := Format(Lookup(key, language), kwargs);
      kwargs != [] ==> r == (if f.Failure? && !f.error.PositionalField? then Success(Lookup(key, language)) else f)
  {
    var message := Lookup(key, language);
    if kwargs == [] then Success(message)
    else match Format(message, kwargs)
      case Success(s) => Success(s)
      case Failure(e) => if e.PositionalField? then Failure(e) else Success(message)
  }

  /** Text without braces passes through formatting unchanged, whatever follows it. */
  lemma {:induction false} FormatPlainPrefix(p: string, s: string, kwargs: Dict<string>)
    requires forall i :: 0 <= i < |p| ==> p[i] != '{' && p[i] != '}'
    ensures Format(p + s, kwargs) == Prepend(p, Format(s, kwargs))
    decreases |p|
  {
    if p == [] {
      assert p + s == s;
      match Format(s, kwargs)
      case Success(t) => assert p + t == t;
      case Failure(_) =>
    } else {
      assert (p + s)[1..] == p[1..] + s;
      FormatPlainPrefix(p[1..], s, kwargs);
      match Format(s, kwargs)
      case Success(t) => assert [p[0]] + (p[1..] + t) == p + t;
      case Failure(_) =>
    }
  }
}

=== FILE: models.dfy ===
/**
 * The database rows the services read and write. Timestamps are opaque
 * integers ordered like the instants they stand for; columns no modelled
 * operation reads are left out.
 */
module Models {
  import opened Wrappers

  datatype Study = Study(
    id: int,
    code: string,
    title: string,
    phase: Option<string>,
    ownerId: Option<int>,
    indication: Option<string>,
    sponsorName: Option<string>)

  datatype User = User(
    id: int,
    username: string,
    fullName: Option<string>,
    email: Option<string>,
    isActive: bool,
    uiLanguage: string)

  /** Membership of a user in a study, with role "owner", "editor" or "viewer". */
  datatype StudyMember = StudyMember(id: int, userId: int, studyId: int, role: string)

  /**
   * A document of a study ("csr", "protocol", ...). The study id is optional
   * because the CSR linking service tests it for absence.
   */
  datatype Document = Document(
    id: int,
    studyId: Option<int>,
    docType: string,
    title: string,
    templateCode: Option<string>,
    status: string,
    language: string,
    createdBy: Option<int>,
    createdAt: int)

  /**
   * The CSR of a study, optionally linked to the `Document` it belongs to.
   * `documentId` is not a column of the CSR table in app/models/csr.py: the
   * link services in app/services/csr_document_link.py assign it, and it is
   * kept here so that the corrected linking service can be stated.
   * `CsrLink.GetOrCreateCsrForDocumentAsWritten` models the table as it is,
   * where the link is never stored.
   */
  datatype CsrDocument = CsrDocument(
    id: int,
    studyId: int,
    title: string,
    status: string,
    documentId: Option<int>)

  datatype CsrSection = CsrSection(id: int, documentId: int, code: string, title: string, orderIndex: int)

  datatype OutputDocument = OutputDocument(
    id: int,
    studyId: int,
    title: string,
    status: string,
    documentId: Option<int>,
    language: string)

  datatype OutputSection = OutputSection(id: int, documentId: int, code: string, title: string, orderIndex: int)

  /** A text or prompt template; `content` holds `{{variable}}` placeholders. */
  datatype Template = Template(
    id: int,
    templateType: string,
    sectionCode: Option<string>,
    language: string,
    content: string,
    isDefault: bool,
    isActive: bool,
    version: int)

  /** One indexed piece of a source document's text. */
  datatype RagChunk = RagChunk(
    id: int,
    studyId: int,
    sourceDocumentId: Option<int>,
    sourceType: string,
    orderIndex: int,
    text: string)
}

=== FILE: output_defaults.dfy ===
/**
 * The same get-or-create for the output-document tables, which carry the
 * same default section list.
 */
module OutputDefaults {
  import opened Wrappers
  import opened Seqs
  import opened Models
  import opened Store
  import opened SectionDefaults

  predicate HasSections(sections: seq<OutputSection>, documentId: int) {
    exists i :: 0 <= i < |sections| && sections[i].documentId == documentId
  }

  function DefaultSectionRows(documentId: int, firstId: int): (r: seq<OutputSection>)
    ensures |r| == |DefaultCsrSections|
    ensures forall i :: 0 <= i < |r| ==>
      r[i] == OutputSection(firstId + i, documentId, DefaultCsrSections[i].code, DefaultCsrSections[i].title, i + 1)
  {
    seq(|DefaultCsrSections|, i requires 0 <= i < |DefaultCsrSections| =>
      var s := DefaultCsrSections[i];
      OutputSection(firstId + i, documentId, s.code, s.title, i + 1))
  }

  function OutputDocumentOfStudy(documents: seq<OutputDocument>, studyId: int): Option<OutputDocument> {
    FirstWhere(documents, (d: OutputDocument) => d.studyId == studyId)
  }

  /**
   * Finds the study's output document or creates it (draft, Russian, not
   * linked, titled `title` or "CSR for study {id}"), then adds the five
   * default sections if it has none.
   */
  function EnsureOutputDocumentWithDefaultSections(db: Db, studyId: int, title: Option<string>): (r: (Db, OutputDocument))
    ensures r.1.studyId == studyId && r.1 in r.0.outputDocuments
    ensures OutputDocumentOfStudy(db.outputDocuments, studyId).Some? ==>
      r.1 == OutputDocumentOfStudy(db.outputDocuments, studyId).value && r.0.outputDocuments == db.outputDocuments
    ensures OutputDocumentOfStudy(db.outputDocuments, studyId).None? ==>
      r.1 == OutputDocument(db.nextId, studyId, DefaultDocumentTitle(title, studyId), "draft", None, "ru") &&
      r.0.outputDocuments == db.outputDocuments + [r.1]
    ensures HasSections(db.outputSections, r.1.id) ==> r.0.outputSections == db.outputSections
    ensures !HasSections(db.outputSections, r.1.id) ==>
      exists firstId :: r.0.outputSections == db.outputSections + DefaultSectionRows(r.1.id, firstId)
    ensures r.0 == db.(outputDocuments := r.0.outputDocuments, outputSections := r.0.outputSections, nextId := r.0.nextId)
  {
    var (db1, doc) :=
      match OutputDocumentOfStudy(db.outputDocuments, studyId)
      case Some(d) => (db, d)
      case None =>
        var d := OutputDocument(db.nextId, studyId, DefaultDocumentTitle(title, studyId), "draft", None, "ru");
        (db.(outputDocuments := db.outputDocuments + [d], nextId := db.nextId + 1), d);
    if HasSections(db1.outputSections, doc.id) then (db1, doc)
    else
      (db1.(outputSections := db1.outputSections + DefaultSectionRows(doc.id, db1.nextId),
            nextId := db1.nextId + |DefaultCsrSections|), doc)
  }

  /** A second call adds nothing and keeps the title, whatever title it is given. */
  lemma EnsureIdempotent(db: Db, studyId: int, title: Option<string>, title2: Option<string>)
    ensures var (db1, doc) := EnsureOutputDocumentWithDefaultSections(db, studyId, title);
      EnsureOutputDocumentWithDefaultSections(db1, studyId, title2) == (db1, doc)
  {
    var (db1, doc) := EnsureOutputDocumentWithDefaultSections(db, studyId, title);
    var first := OutputDocumentOfStudy(db.outputDocuments, studyId);
    if first.None? {
      assert db1.outputDocuments == db.outputDocuments + [doc];
      assert forall i :: 0 <= i < |db.outputDocuments| ==> db1.outputDocuments[i].studyId != studyId;
    }
    assert OutputDocumentOfStudy(db1.outputDocuments, studyId) == Some(doc);
    if !HasSections(db.outputSections, doc.id) {
      var firstId :| db1.outputSections == db.outputSections + DefaultSectionRows(doc.id, firstId);
      assert db1.outputSections[|db.outputSections|].documentId == doc.id;
    }
    assert HasSections(db1.outputSections, doc.id);
  }
}

=== FILE: prompt_builder.dfy ===
/**
 * The Russian-language prompt for generating a CSR section: fixed
 * instructions, optional study facts, the non-empty RAG context blocks,
 * the current section text and a closing instruction, one part per line.
 */
module PromptBuilder {
  import opened Wrappers
  import opened Text
  import opened Assoc
  import opened Models

  const RoleLine: string := "Ты — эксперт по написанию разделов Clinical Study Report (CSR) для клинических исследований."
  const RussianLine: string := "- Пиши на русском языке, используя медицинскую терминологию."
  const ContextHeading: string := "=== КОНТЕКСТ ИЗ ИСХОДНЫХ ДОКУМЕНТОВ ==="
  const ProtocolHeading: string := "--- ПРОТОКОЛ ИССЛЕДОВАНИЯ ---"
  const SapHeading: string := "--- SAP (Statistical Analysis Plan) ---"
  const TlfHeading: string := "--- TLF (Table, Listing, Figure) - Сводные данные ---"
  const CsrPrevHeading: string := "--- ПРЕДЫДУЩИЙ CSR ---"
  const CurrentTextHeading: string := "=== ТЕКУЩИЙ ТЕКСТ РАЗДЕЛА ==="
  const InstructionsHeading: string := "=== ДОПОЛНИТЕЛЬНЫЕ ИНСТРУКЦИИ ==="
  const TaskHeading: string := "=== ЗАДАНИЕ ==="
  /** The instruction used when the caller gives none; the AI endpoint's fallback uses it too. */
  const DefaultTask: string := "Сгенерируй текст раздела CSR на основе приведённого контекста."

  /** Python truthiness of an optional string: present and non-empty. */
  predicate Truthy(v: Option<string>) {
    v.Some? && v.value != ""
  }

  function Header(study: Study, section: CsrSection): seq<string> {
    [RoleLine,
     "Ты работаешь над исследованием: " + study.title + " (код: " + study.code + ").",
     "Тебе нужно сгенерировать или улучшить текст для раздела: " + section.title + " (код: " + section.code + ").",
     "",
     "Формат ответа:",
     "- Текст должен быть структурированным, профессиональным и соответствовать стандартам CSR.",
     "- Используй только информацию из предоставленного контекста.",
     "- Если в контексте недостаточно информации, укажи это в соответствующих местах.",
     RussianLine]
  }

  function OptionalLine(v: Option<string>, prefix: string): seq<string> {
    if Truthy(v) then [prefix + v.value + "."] else []
  }

  function StudyFacts(study: Study): seq<string> {
    OptionalLine(study.phase, "- Фаза исследования: ")
    + OptionalLine(study.indication, "- Показание к применению: ")
    + OptionalLine(study.sponsorName, "- Спонсор: ")
  }

  /** A context block: heading, text and a blank line, or nothing for empty text. */
  function Block(heading: string, text: string): seq<string> {
    if text != "" then [heading, text, ""] else []
  }

  /** `context.get(key, "")`. */
  function ContextText(context: Dict<string>, key: string): string {
    Get(context, key).GetOr("")
  }

  function ContextBlocks(context: Dict<string>): seq<string> {
    Block(ProtocolHeading, ContextText(context, "protocol"))
    + Block(SapHeading, ContextText(context, "sap"))
    + Block(TlfHeading, ContextText(context, "tlf"))
    + Block(CsrPrevHeading, ContextText(context, "csr_prev"))
  }

  function CurrentBlock(currentText: Option<string>): seq<string> {
    if Truthy(currentText) then [CurrentTextHeading, "", currentText.value, ""] else []
  }

  function Closing(userPrompt: Option<string>): seq<string> {
    if Truthy(userPrompt) then [InstructionsHeading, "", userPrompt.value, ""]
    else [TaskHeading, "", DefaultTask, ""]
  }

  function PromptLines(study: Study, section: CsrSection, currentText: Option<string>,
                       context: Dict<string>, userPrompt: Option<string>): seq<string> {
    Header(study, section)
    + (StudyFacts(study) + (["", ContextHeading, ""]
    + (ContextBlocks(context) + (CurrentBlock(currentText) + Closing(userPrompt)))))
  }

  /** `build_generate_section_prompt`: the parts joined by newlines. */
  function BuildGenerateSectionPrompt(study: Study, section: CsrSection, currentText: Option<string>,
                                      context: Dict<string>, userPrompt: Option<string>): string {
    Join(PromptLines(study, section, currentText, context, userPrompt), "\n")
  }

  function Count(b: bool): nat {
    if b then 1 else 0
  }

  lemma HeaderShape(study: Study, section: CsrSection)
    ensures |Header(study, section)| == 9
    ensures Header(study, section)[0] == RoleLine && Header(study, section)[8] == RussianLine
  {
  }

  lemma StudyFactsLength(study: Study)
    ensures |StudyFacts(study)| == Count(Truthy(study.phase)) + Count(Truthy(study.indication)) + Count(Truthy(study.sponsorName))
  {
  }

  lemma BlockShape(heading: string, text: string)
    ensures |Block(heading, text)| == 3 * Count(text != "")
    ensures text != "" ==> Block(heading, text)[1] == text
  {
  }

  lemma ContextBlocksLength(context: Dict<string>)
    ensures |ContextBlocks(context)| ==
      3 * (Count(ContextText(context, "protocol") != "") + Count(ContextText(context, "sap") != "")
           + Count(ContextText(context, "tlf") != "") + Count(ContextText(context, "csr_prev") != ""))
  {
    BlockShape(ProtocolHeading, ContextText(context, "protocol"));
    BlockShape(SapHeading, ContextText(context, "sap"));
    BlockShape(TlfHeading, ContextText(context, "tlf"));
    BlockShape(CsrPrevHeading, ContextText(context, "csr_prev"));
  }

  /**
   * One line per truthy study fact, three per non-empty context block and
   * four for the current text when given, on top of the sixteen fixed
   * lines: so each optional part is present exactly when its input is set.
   */
  lemma PromptLineCount(study: Study, section: CsrSection, currentText: Option<string>,
                        context: Dict<string>, userPrompt: Option<string>)
    ensures |PromptLines(study, section, currentText, context, userPrompt)| ==
      16
      + Count(Truthy(study.phase)) + Count(Truthy(study.indication)) + Count(Truthy(study.sponsorName))
      + 3 * (Count(ContextText(context, "protocol") != "") + Count(ContextText(context, "sap") != "")
             + Count(ContextText(context, "tlf") != "") + Count(ContextText(context, "csr_prev") != ""))
      + 4 * Count(Truthy(currentText))
  {
    HeaderShape(study, section);
    StudyFactsLength(study);
    ContextBlocksLength(context);
  }

  /** Only the four known context keys matter; any other key is ignored. */
  lemma ContextIgnoresOtherKeys(study: Study, section: CsrSection, currentText: Option<string>,
                                context: Dict<string>, context': Dict<string>, userPrompt: Option<string>)
    requires Get(context, "protocol") == Get(context', "protocol")
    requires Get(context, "sap") == Get(context', "sap")
    requires Get(context, "tlf") == Get(context', "tlf")
    requires Get(context, "csr_prev") == Get(context', "csr_prev")
    ensures BuildGenerateSectionPrompt(study, section, currentText, context, userPrompt)
         == BuildGenerateSectionPrompt(study, section, currentText, context', userPrompt)
  {
    assert ContextBlocks(context) == ContextBlocks(context');
  }

  /** Each non-empty context text is one of the block lines. */
  lemma ContextBlocksHold(context: Dict<string>, key: string)
    requires key == "protocol" || key == "sap" || key == "tlf" || key == "csr_prev"
    requires ContextText(context, key) != ""
    ensures ContextText(context, key) in ContextBlocks(context)
  {
    BlockShape(ProtocolHeading, ContextText(context, "protocol"));
    BlockShape(SapHeading, ContextText(context, "sap"));
    BlockShape(TlfHeading, ContextText(context, "tlf"));
    BlockShape(CsrPrevHeading, ContextText(context, "csr_prev"));
    var b1 := Block(ProtocolHeading, ContextText(context, "protocol"));
    var b2 := Block(SapHeading, ContextText(context, "sap"));
    var b3 := Block(TlfHeading, ContextText(context, "tlf"));
    var b4 := Block(CsrPrevHeading, ContextText(context, "csr_prev"));
    assert ContextBlocks(context) == b1 + b2 + b3 + b4;
    if key == "protocol" {
      assert b1[1] in b1;
    } else if key == "sap" {
      assert b2[1] in b2;
    } else if key == "tlf" {
      assert b3[1] in b3;
    } else {
      assert b4[1] in b4;
    }
  }

  lemma LineContained(lines: seq<string>, line: string)
    requires line in lines
    ensures Contains(Join(lines, "\n"), line)
  {
    var i :| 0 <= i < |lines| && lines[i] == line;
    JoinContains(lines, "\n", i);
  }

  lemma AppendParts<T>(a: seq<T>, b: seq<T>)
    ensures (a + b)[..|a|] == a
    ensures forall x :: x in b ==> x in a + b
  {
  }

  /** The line sequence: header first, then every line of each later part. */
  lemma PromptLinesParts(study: Study, section: CsrSection, currentText: Option<string>,
                         context: Dict<string>, userPrompt: Option<string>)
    ensures var lines := PromptLines(study, section, currentText, context, userPrompt);
      && |lines| >= 9
      && lines[..9] == Header(study, section)
      && (forall x :: x in ContextBlocks(context) ==> x in lines)
      && (forall x :: x in CurrentBlock(currentText) ==> x in lines)
      && (forall x :: x in Closing(userPrompt) ==> x in lines)
  {
    var closing := Closing(userPrompt);
    var p5 := CurrentBlock(currentText) + closing;
    var p4 := ContextBlocks(context) + p5;
    var p3 := ["", ContextHeading, ""] + p4;
    var p2 := StudyFacts(study) + p3;
    HeaderShape(study, section);
    AppendParts(Header(study, section), p2);
    AppendParts(StudyFacts(study), p3);
    AppendParts(["", ContextHeading, ""], p4);
    AppendParts(ContextBlocks(context), p5);
    AppendParts(CurrentBlock(currentText), closing);
  }

  /** The prompt opens with the role, study and section lines and carries the Russian-language instruction. */
  lemma PromptOpening(study: Study, section: CsrSection, currentText: Option<string>,
                      context: Dict<string>, userPrompt: Option<string>)
    ensures PromptLines(study, section, currentText, context, userPrompt)[..9] == Header(study, section)
    ensures Contains(BuildGenerateSectionPrompt(study, section, currentText, context, userPrompt), RussianLine)
  {
    var lines := PromptLines(study, section, currentText, context, userPrompt);
    PromptLinesParts(study, section, currentText, context, userPrompt);
    HeaderShape(study, section);
    assert lines[8] == lines[..9][8];
    LineContained(lines, RussianLine);
  }

  /** Every non-empty context text of the four known types reaches the prompt. */
  lemma PromptHasContext(study: Study, section: CsrSection, currentText: Option<string>,
                         context: Dict<string>, userPrompt: Option<string>, key: string)
    requires key == "protocol" || key == "sap" || key == "tlf" || key == "csr_prev"
    requires ContextText(context, key) != ""
    ensures Contains(BuildGenerateSectionPrompt(study, section, currentText, context, userPrompt), ContextText(context, key))
  {
    PromptLinesParts(study, section, currentText, context, userPrompt);
    ContextBlocksHold(context, key);
    LineContained(PromptLines(study, section, currentText, context, userPrompt), ContextText(context, key));
  }

  /**
   * The current text reaches the prompt when given, and so does the
   * caller's instruction, or else the default task.
   */
  lemma PromptHasClosing(study: Study, section: CsrSection, currentText: Option<string>,
                         context: Dict<string>, userPrompt: Option<string>)
    ensures var prompt := BuildGenerateSectionPrompt(study, section, currentText, context, userPrompt);
      && (Truthy(currentText) ==> Contains(prompt, currentText.value))
      && (Truthy(userPrompt) ==> Contains(prompt, userPrompt.value))
      && (!Truthy(userPrompt) ==> Contains(prompt, DefaultTask))
  {
    var lines := PromptLines(study, section, currentText, context, userPrompt);
    PromptLinesParts(study, section, currentText, context, userPrompt);
    if Truthy(currentText) {
      assert currentText.value in CurrentBlock(currentText);
      LineContained(lines, currentText.value);
    }
    assert Closing(userPrompt)[2] in Closing(userPrompt);
    LineContained(lines, Closing(userPrompt)[2]);
  }
}

=== FILE: qc_config.dfy ===
/** Per-language configuration of the QC rules. */
module QcConfig {
  import opened Wrappers
  import opened Assoc
  import opened QcModel

  /** Parameters of one rule: whether it runs and the severity of its issues. */
  datatype RuleConfig = RuleConfig(enabled: bool, severity: Severity)

  /** The configuration of one language; the term dictionaries are still empty placeholders. */
  datatype LanguageConfig = LanguageConfig(
    requiredSections: RuleConfig,
    termDictionaries: Dict<seq<string>>)

  const QcConfigTable: Dict<LanguageConfig> := [
    ("ru", LanguageConfig(RuleConfig(true, Warning), [])),
    ("en", LanguageConfig(RuleConfig(true, Warning), []))]

  /** Rule codes that have a configuration section, and the section they use. */
  const RuleKeyMapping: Dict<string> := [("REQUIRED_SECTIONS", "required_sections")]

  /** The configuration of a language; any code other than "ru" and "en" uses English. */
  function GetQcConfigForLanguage(language: string): (r: LanguageConfig)
    ensures language == "ru" ==> Some(r) == Get(QcConfigTable, "ru")
    ensures language != "ru" ==> Some(r) == Get(QcConfigTable, "en")
  {
    var lang := if language == "ru" || language == "en" then language else "en";
    Get(QcConfigTable, lang).GetOr(Get(QcConfigTable, "en").value)
  }

  /** A configuration section by name; `None` stands for the empty mapping `{}`. */
  function Section(config: LanguageConfig, key: string): Option<RuleConfig> {
    if key == "required_sections" then Some(config.requiredSections) else None
  }

  /**
   * The configuration of one rule in one language, or `None` (the empty
   * mapping) for a rule code without a configuration section.
   */
  function GetQcRuleConfig(ruleCode: string, language: string): (r: Option<RuleConfig>)
    ensures Get(RuleKeyMapping, ruleCode).None? ==> r.None?
    ensures ruleCode == "REQUIRED_SECTIONS" ==> r == Some(GetQcConfigForLanguage(language).requiredSections)
  {
    var config := GetQcConfigForLanguage(language);
    match Get(RuleKeyMapping, ruleCode)
    case Some(key) => if key != "" then Section(config, key) else None
    case None => None
  }

  /** Every language, known or not, runs the required-sections rule at warning severity. */
  lemma RequiredSectionsEverywhere(language: string)
    ensures GetQcRuleConfig("REQUIRED_SECTIONS", language) == Some(RuleConfig(true, Warning))
    ensures forall code :: code != "REQUIRED_SECTIONS" ==> GetQcRuleConfig(code, language).None?
  {
  }
}

=== FILE: qc_model.dfy ===
/** Quality-control rules and the issues they raise. */
module QcModel {
  import opened Wrappers

  datatype Severity = Info | Warning | Error {
    function Name(): string {
      match this
      case Info => "info"
      case Warning => "warning"
      case Error => "error"
    }
  }

  datatype IssueStatus = Open | Resolved | WontFix {
    function Name(): string {
      match this
      case Open => "open"
      case Resolved => "resolved"
      case WontFix => "wont_fix"
    }
  }

  /** The severity check constraint: only the three names are stored. */
  function ParseSeverity(s: string): (r: Option<Severity>)
    ensures r.Some? ==> r.value.Name() == s
  {
    if s == "info" then Some(Info)
    else if s == "warning" then Some(Warning)
    else if s == "error" then Some(Error)
    else None
  }

  function ParseIssueStatus(s: string): (r: Option<IssueStatus>)
    ensures r.Some? ==> r.value.Name() == s
  {
    if s == "open" then Some(Open)
    else if s == "resolved" then Some(Resolved)
    else if s == "wont_fix" then Some(WontFix)
    else None
  }

  lemma SeverityRoundTrip(v: Severity, s: string)
    ensures ParseSeverity(v.Name()) == Some(v)
    ensures ParseSeverity(s).Some? <==> s in {"info", "warning", "error"}
  {
  }

  lemma IssueStatusRoundTrip(v: IssueStatus, s: string)
    ensures ParseIssueStatus(v.Name()) == Some(v)
    ensures ParseIssueStatus(s).Some? <==> s in {"open", "resolved", "wont_fix"}
  {
  }

  datatype QcRule = QcRule(
    id: int,
    code: string,
    name: string,
    description: Option<string>,
    severity: Severity,
    isActive: bool)

  datatype QcIssue = QcIssue(
    id: int,
    studyId: int,
    documentId: Option<int>,
    sectionId: Option<int>,
    ruleId: int,
    severity: Severity,
    status: IssueStatus,
    message: string)

  /** A rule inserted without a severity gets `info`; without `is_active`, active. */
  function NewRule(id: int, code: string, name: string, description: Option<string>,
                   severity: Option<Severity>, isActive: Option<bool>): (r: QcRule)
    ensures r.severity == (if severity.Some? then severity.value else Info)
    ensures r.isActive == (isActive != Some(false))
    ensures r.code == code
  {
    QcRule(id, code, name, description, severity.GetOr(Info), isActive.GetOr(true))
  }

  /** An issue inserted without a status is open. */
  function NewIssue(id: int, studyId: int, documentId: Option<int>, sectionId: Option<int>,
                    ruleId: int, severity: Severity, status: Option<IssueStatus>, message: string)
    : (r: QcIssue)
    ensures r.status == (if status.Some? then status.value else Open)
    ensures r.severity == severity
  {
    QcIssue(id, studyId, documentId, sectionId, ruleId, severity, status.GetOr(Open), message)
  }

  /** At most one rule carries any given code (the unique index on `code`). */
  predicate UniqueRuleCodes(rules: seq<QcRule>) {
    forall i, j :: 0 <= i < j < |rules| ==> rules[i].code != rules[j].code
  }
}

=== FILE: qc_rules.dfy ===
/**
 * The required-sections QC rule: its get-or-create, and the reconciliation
 * that replaces a CSR document's open issues by one issue per missing
 * default section.
 */
module QcRules {
  import opened Wrappers
  import opened Seqs
  import opened Models
  import opened QcModel
  import opened Store
  import opened SectionDefaults

  const RequiredSectionsCode := "REQUIRED_SECTIONS"
  const RequiredSectionsName := "Required Sections Check"
  const RequiredSectionsDescription := "Проверка наличия всех обязательных секций согласно CSR-шаблону"

  function RuleWithCode(rules: seq<QcRule>, code: string): Option<QcRule> {
    FirstWhere(rules, (r: QcRule) => r.code == code)
  }

  /** The stored required-sections rule, or a new active rule of severity warning. */
  function GetOrCreateRequiredSectionsRule(db: Db): (r: (Db, QcRule))
    ensures r.1.code == RequiredSectionsCode && r.1 in r.0.qcRules
    ensures RuleWithCode(db.qcRules, RequiredSectionsCode).Some? ==>
      r == (db, RuleWithCode(db.qcRules, RequiredSectionsCode).value)
    ensures RuleWithCode(db.qcRules, RequiredSectionsCode).None? ==>
      && r.1 == QcRule(db.nextId, RequiredSectionsCode, RequiredSectionsName, Some(RequiredSectionsDescription), Warning, true)
      && r.0 == db.(qcRules := db.qcRules + [r.1], nextId := db.nextId + 1)
  {
    match RuleWithCode(db.qcRules, RequiredSectionsCode)
    case Some(rule) => (db, rule)
    case None =>
      var rule := QcRule(db.nextId, RequiredSectionsCode, RequiredSectionsName, Some(RequiredSectionsDescription), Warning, true);
      (db.(qcRules := db.qcRules + [rule], nextId := db.nextId + 1), rule)
  }

  /** A second get-or-create finds the rule the first one returned, and creates nothing. */
  lemma GetOrCreateIdempotent(db: Db)
    ensures var (db1, rule) := GetOrCreateRequiredSectionsRule(db);
      GetOrCreateRequiredSectionsRule(db1) == (db1, rule)
  {
    var (db1, rule) := GetOrCreateRequiredSectionsRule(db);
    if RuleWithCode(db.qcRules, RequiredSectionsCode).None? {
      assert forall i :: 0 <= i < |db.qcRules| ==> db1.qcRules[i].code != RequiredSectionsCode;
      assert db1.qcRules[|db.qcRules|] == rule;
    }
  }

  /** The get-or-create keeps rule codes unique. */
  lemma GetOrCreateKeepsCodesUnique(db: Db)
    requires UniqueRuleCodes(db.qcRules)
    ensures UniqueRuleCodes(GetOrCreateRequiredSectionsRule(db).0.qcRules)
  {
    var (db1, rule) := GetOrCreateRequiredSectionsRule(db);
    if RuleWithCode(db.qcRules, RequiredSectionsCode).None? {
      forall i, j | 0 <= i < j < |db1.qcRules|
        ensures db1.qcRules[i].code != db1.qcRules[j].code
      {
        if j == |db.qcRules| {
          assert db1.qcRules[i] == db.qcRules[i];
        }
      }
    }
  }

  /** The codes of a document's sections. */
  function ExistingCodes(sections: seq<CsrSection>, documentId: int): set<string> {
    set i | 0 <= i < |sections| && sections[i].documentId == documentId :: sections[i].code
  }

  function RequiredCodes(): set<string> {
    set s | s in DefaultCsrSections :: s.code
  }

  /** Whether a default section's code is absent from `existing`. */
  function Lacks(existing: set<string>): SectionSpec -> bool {
    (s: SectionSpec) => s.code !in existing
  }

  /** The default sections whose code the document lacks, in the order of the default list. */
  function MissingSections(existing: set<string>): seq<SectionSpec> {
    Filter(DefaultCsrSections, Lacks(existing))
  }

  /** `missing_codes = required_codes - existing_codes`. */
  lemma MissingSectionsSpec(existing: set<string>)
    ensures (set s | s in MissingSections(existing) :: s.code) == RequiredCodes() - existing
  {
    var m := MissingSections(existing);
    forall c | c in RequiredCodes() - existing
      ensures c in (set s | s in m :: s.code)
    {
      var s :| s in DefaultCsrSections && s.code == c;
      assert Lacks(existing)(s);
      assert s in m;
    }
  }

  /** No default section is reported twice. */
  lemma MissingSectionsDistinct(existing: set<string>)
    ensures NoDuplicates(MissingSections(existing))
  {
    assert NoDuplicates(DefaultCsrSections) by {
      DefaultCodesDistinct();
      assert forall i :: 0 <= i < 5 ==> Codes(DefaultCsrSections)[i] == DefaultCsrSections[i].code;
    }
    FilterNoDuplicates(DefaultCsrSections, Lacks(existing));
  }

  lemma {:induction false} FilterNoDuplicates<T(!new)>(s: seq<T>, p: T -> bool)
    requires NoDuplicates(s)
    ensures NoDuplicates(Filter(s, p))
    decreases |s|
  {
    if s != [] {
      FilterNoDuplicates(s[1..], p);
      assert s[0] !in s[1..];
      assert s[0] !in Filter(s[1..], p);
    }
  }

  function MissingMessage(s: SectionSpec): string {
    "Отсутствует обязательная секция: " + s.title + " (" + s.code + ")"
  }

  /** An issue the reconciliation replaces: open, of this document and this rule. */
  predicate Replaced(x: QcIssue, documentId: int, ruleId: int) {
    x.documentId == Some(documentId) && x.ruleId == ruleId && x.status == Open
  }

  function IsReplaced(documentId: int, ruleId: int): QcIssue -> bool {
    x => Replaced(x, documentId, ruleId)
  }

  function IsKept(documentId: int, ruleId: int): QcIssue -> bool {
    x => !Replaced(x, documentId, ruleId)
  }

  /** One open, section-less issue per missing section, keyed from `firstId`. */
  function NewIssues(missing: seq<SectionSpec>, firstId: int, studyId: int, documentId: int, rule: QcRule)
    : (r: seq<QcIssue>)
    ensures |r| == |missing|
    ensures forall i :: 0 <= i < |r| ==>
      r[i] == QcIssue(firstId + i, studyId, Some(documentId), None, rule.id, rule.severity, Open, MissingMessage(missing[i]))
  {
    seq(|missing|, i requires 0 <= i < |missing| =>
      QcIssue(firstId + i, studyId, Some(documentId), None, rule.id, rule.severity, Open, MissingMessage(missing[i])))
  }

  /**
   * `check_required_sections`: the new issues, and the store in which they
   * have replaced the document's open issues of this rule.
   */
  function CheckRequiredSections(db: Db, documentId: int, studyId: int): (Db, seq<QcIssue>) {
    var (db1, rule) := GetOrCreateRequiredSectionsRule(db);
    if !rule.isActive then (db1, [])
    else match FirstWhere(db1.csrDocuments, (d: CsrDocument) => d.id == documentId)
      case None => (db1, [])
      case Some(_) =>
        var missing := MissingSections(ExistingCodes(db1.csrSections, documentId));
        var kept := Filter(db1.qcIssues, IsKept(documentId, rule.id));
        var issues := NewIssues(missing, db1.nextId, studyId, documentId, rule);
        (db1.(qcIssues := kept + issues, nextId := db1.nextId + |issues|), issues)
  }

  predicate Active(db: Db) {
    GetOrCreateRequiredSectionsRule(db).1.isActive
  }

  predicate HasCsrDocument(db: Db, documentId: int) {
    exists i :: 0 <= i < |db.csrDocuments| && db.csrDocuments[i].id == documentId
  }

  /** The missing sections of a document in a store. */
  function Missing(db: Db, documentId: int): seq<SectionSpec> {
    MissingSections(ExistingCodes(db.csrSections, documentId))
  }

  /** `run_qc_rules_for_document`: the required-sections check is the only rule run. */
  function RunQcRulesForDocument(db: Db, documentId: int, studyId: int): (r: (Db, seq<QcIssue>))
    ensures forall i :: 0 <= i < |r.1| ==> r.1[i].status == Open && r.1[i].documentId == Some(documentId)
    ensures Active(db) && HasCsrDocument(db, documentId) ==> |r.1| == |Missing(db, documentId)|
    ensures !Active(db) || !HasCsrDocument(db, documentId) ==> r.1 == [] && r.0.qcIssues == db.qcIssues
  {
    CheckIssueFields(db, documentId, studyId);
    CheckCount(db, documentId, studyId);
    CheckRequiredSections(db, documentId, studyId)
  }

  /** Every issue raised is open, section-less, and carries the study, document, rule and severity. */
  lemma CheckIssueFields(db: Db, documentId: int, studyId: int)
    ensures var (db1, rule) := GetOrCreateRequiredSectionsRule(db);
      var (db2, issues) := CheckRequiredSections(db, documentId, studyId);
      && db2.qcRules == db1.qcRules
      && db2.csrDocuments == db.csrDocuments && db2.csrSections == db.csrSections
      && (forall i :: 0 <= i < |issues| ==>
            && issues[i].status == Open && issues[i].sectionId.None?
            && issues[i].documentId == Some(documentId) && issues[i].studyId == studyId
            && issues[i].ruleId == rule.id && issues[i].severity == rule.severity)
      && (!rule.isActive || !HasCsrDocument(db, documentId) ==> issues == [] && db2.qcIssues == db.qcIssues)
  {
  }

  /** With an active rule and a known document, the issues are one per missing section. */
  lemma CheckIssuesAreNew(db: Db, documentId: int, studyId: int)
    requires Active(db) && HasCsrDocument(db, documentId)
    ensures var (db1, rule) := GetOrCreateRequiredSectionsRule(db);
      var (db2, issues) := CheckRequiredSections(db, documentId, studyId);
      && issues == NewIssues(Missing(db, documentId), db1.nextId, studyId, documentId, rule)
      && db2.qcIssues == Filter(db.qcIssues, IsKept(documentId, rule.id)) + issues
  {
    var (db1, rule) := GetOrCreateRequiredSectionsRule(db);
    assert FirstWhere(db1.csrDocuments, (d: CsrDocument) => d.id == documentId).Some?;
  }

  lemma CheckCount(db: Db, documentId: int, studyId: int)
    ensures Active(db) && HasCsrDocument(db, documentId) ==>
      |CheckRequiredSections(db, documentId, studyId).1| == |Missing(db, documentId)|
  {
    if Active(db) && HasCsrDocument(db, documentId) {
      CheckIssuesAreNew(db, documentId, studyId);
    }
  }

  /** The messages name exactly the missing sections, one issue each. */
  lemma CheckMessages(db: Db, documentId: int, studyId: int)
    requires Active(db) && HasCsrDocument(db, documentId)
    ensures var issues := CheckRequiredSections(db, documentId, studyId).1;
      && |issues| == |Missing(db, documentId)|
      && (forall i :: 0 <= i < |issues| ==> issues[i].message == MissingMessage(Missing(db, documentId)[i]))
      && (set s | s in Missing(db, documentId) :: s.code) == RequiredCodes() - ExistingCodes(db.csrSections, documentId)
  {
    CheckIssuesAreNew(db, documentId, studyId);
    MissingSectionsSpec(ExistingCodes(db.csrSections, documentId));
  }

  /**
   * Only the open issues of this document and rule are deleted: an issue
   * survives exactly when it is not one of them.
   */
  lemma CheckDeletesOnlyReplaced(db: Db, documentId: int, studyId: int)
    requires Active(db) && HasCsrDocument(db, documentId)
    ensures var rule := GetOrCreateRequiredSectionsRule(db).1;
      var (db2, issues) := CheckRequiredSections(db, documentId, studyId);
      forall x :: x in db2.qcIssues && x !in issues <==> x in db.qcIssues && !Replaced(x, documentId, rule.id)
  {
    var (db1, rule) := GetOrCreateRequiredSectionsRule(db);
    var (db2, issues) := CheckRequiredSections(db, documentId, studyId);
    CheckIssuesAreNew(db, documentId, studyId);
    var kept := Filter(db.qcIssues, IsKept(documentId, rule.id));
    assert forall x :: x in kept ==> x !in issues;
  }

  /** After a run the document's open issues of the rule are exactly the ones just raised. */
  lemma CheckLeavesOnlyNewOpen(db: Db, documentId: int, studyId: int)
    requires Active(db) && HasCsrDocument(db, documentId)
    ensures var rule := GetOrCreateRequiredSectionsRule(db).1;
      var (db2, issues) := CheckRequiredSections(db, documentId, studyId);
      Filter(db2.qcIssues, IsReplaced(documentId, rule.id)) == issues
  {
    var (db1, rule) := GetOrCreateRequiredSectionsRule(db);
    var issues := CheckRequiredSections(db, documentId, studyId).1;
    CheckIssuesAreNew(db, documentId, studyId);
    var p := IsReplaced(documentId, rule.id);
    var kept := Filter(db.qcIssues, IsKept(documentId, rule.id));
    FilterAppend(kept, issues, p);
    FilterAll(issues, p);
    assert forall i :: 0 <= i < |kept| ==> !p(kept[i]) by {
      forall i | 0 <= i < |kept| ensures !p(kept[i]) {
        assert kept[i] in kept;
      }
    }
    FilterNone(kept, p);
  }

  /** The run keeps the rule, so the next get-or-create returns it unchanged. */
  lemma CheckKeepsRule(db: Db, documentId: int, studyId: int)
    ensures var (db1, rule) := GetOrCreateRequiredSectionsRule(db);
      var db2 := CheckRequiredSections(db, documentId, studyId).0;
      GetOrCreateRequiredSectionsRule(db2) == (db2, rule)
  {
    var (db1, rule) := GetOrCreateRequiredSectionsRule(db);
    var db2 := CheckRequiredSections(db, documentId, studyId).0;
    GetOrCreateIdempotent(db);
    CheckIssueFields(db, documentId, studyId);
    assert RuleWithCode(db2.qcRules, RequiredSectionsCode) == Some(rule);
  }

  /** On unchanged sections a second run raises the same issues under new keys. */
  lemma CheckRerun(db: Db, documentId: int, studyId: int)
    requires Active(db) && HasCsrDocument(db, documentId)
    ensures var (db2, issues) := CheckRequiredSections(db, documentId, studyId);
      var again := CheckRequiredSections(db2, documentId, studyId).1;
      && |again| == |issues|
      && (forall i :: 0 <= i < |issues| ==> again[i] == issues[i].(id := again[i].id))
  {
    var db2 := CheckRequiredSections(db, documentId, studyId).0;
    CheckKeepsRule(db, documentId, studyId);
    CheckIssueFields(db, documentId, studyId);
    assert HasCsrDocument(db2, documentId);
    assert Missing(db2, documentId) == Missing(db, documentId);
    CheckIssuesAreNew(db, documentId, studyId);
    CheckIssuesAreNew(db2, documentId, studyId);
  }

  lemma {:induction false} FilterNone<T(!new)>(s: seq<T>, p: T -> bool)
    requires forall i :: 0 <= i < |s| ==> !p(s[i])
    ensures Filter(s, p) == []
    decreases |s|
  {
    if s != [] {
      FilterNone(s[1..], p);
    }
  }
}

=== FILE: renderer.dfy ===
/**
 * Rendering of template content: every `{{name}}` placeholder (a run of
 * word characters between double braces) is replaced by the string form of
 * its context value; unknown names are kept as written and reported.
 */
module Renderer {
  import opened Wrappers
  import opened Seqs
  import opened Text
  import opened Assoc

  /** The context values the services supply: ids, strings and absent columns. */
  datatype Value = NoneValue | IntValue(i: int) | StrValue(s: string)

  /** `str(value)`; an absent value renders as the text "None". */
  function Str(v: Value): string {
    match v
    case NoneValue => "None"
    case IntValue(i) => IntToString(i)
    case StrValue(s) => s
  }

  /** The word characters of the placeholder pattern, restricted to ASCII. */
  predicate IsWordChar(c: char) {
    ('a' <= c <= 'z') || ('A' <= c <= 'Z') || ('0' <= c <= '9') || c == '_'
  }

  /** Length of the longest prefix of word characters. */
  function WordRun(s: string): (n: nat)
    ensures n <= |s|
    ensures forall i :: 0 <= i < n ==> IsWordChar(s[i])
    ensures n < |s| ==> !IsWordChar(s[n])
    decreases |s|
  {
    if s != [] && IsWordChar(s[0]) then 1 + WordRun(s[1..]) else 0
  }

  /** The template as the scanner sees it: literal characters and placeholders. */
  datatype Piece = Lit(c: char) | Placeholder(name: string)

  /**
   * The name of the placeholder starting at the front of `s`, if one does.
   * The word run is greedy and a brace is no word character, so trying
   * shorter runs could never find the closing braces.
   */
  function PlaceholderAt(s: string): (r: Option<string>)
    ensures r.Some? ==>
      && |r.value| >= 1
      && (forall i :: 0 <= i < |r.value| ==> IsWordChar(r.value[i]))
      && Braced(s, r.value)
  {
    if |s| >= 2 && s[0] == '{' && s[1] == '{' then
      var n := WordRun(s[2..]);
      if n >= 1 && |s| >= n + 4 && s[n + 2] == '}' && s[n + 3] == '}' then
        Some(s[2..n + 2])
      else None
    else None
  }

  /** `s` starts with `name` between double braces. */
  predicate Braced(s: string, name: string) {
    && |s| >= |name| + 4
    && s[0] == '{' && s[1] == '{'
    && s[2..|name| + 2] == name
    && s[|name| + 2] == '}' && s[|name| + 3] == '}'
  }

  /** A possible placeholder name: a non-empty run of word characters. */
  predicate IsWord(name: string) {
    |name| >= 1 && forall i :: 0 <= i < |name| ==> IsWordChar(name[i])
  }

  lemma {:induction false} WordRunExact(t: string, n: nat)
    requires n < |t|
    requires forall i :: 0 <= i < n ==> IsWordChar(t[i])
    requires !IsWordChar(t[n])
    ensures WordRun(t) == n
    decreases n
  {
    if n > 0 {
      WordRunExact(t[1..], n - 1);
    }
  }

  /** The scanner misses no placeholder: a braced word at the front is found. */
  lemma PlaceholderAtComplete(s: string, name: string)
    requires IsWord(name) && Braced(s, name)
    ensures PlaceholderAt(s) == Some(name)
  {
    var t := s[2..];
    forall i | 0 <= i < |name|
      ensures IsWordChar(t[i])
    {
      assert t[i] == s[2..|name| + 2][i] == name[i];
    }
    assert t[|name|] == s[|name| + 2] == '}';
    WordRunExact(t, |name|);
  }

  lemma BracedConcat(name: string, rest: string)
    ensures Braced("{{" + name + "}}" + rest, name)
    ensures ("{{" + name + "}}" + rest)[|name| + 4..] == rest
  {
    var s := "{{" + name + "}}" + rest;
    assert s[2..|name| + 2] == name;
  }

  lemma BracedText(s: string, name: string)
    requires Braced(s, name)
    ensures s[..|name| + 4] == "{{" + name + "}}"
  {
    var t := "{{" + name + "}}";
    forall k | 0 <= k < |name| + 4
      ensures s[k] == t[k]
    {
      if 2 <= k < |name| + 2 {
        assert s[k] == s[2..|name| + 2][k - 2];
      }
    }
  }

  /** The piece the scanner reads at the front of `s`. */
  function PieceAt(s: string): Piece
    requires s != []
  {
    match PlaceholderAt(s)
    case Some(name) => Placeholder(name)
    case None => Lit(s[0])
  }

  /** How many characters the scanner consumes at the front of `s`. */
  function Consumed(s: string): (n: nat)
    requires s != []
    ensures 1 <= n <= |s|
  {
    match PlaceholderAt(s)
    case Some(name) => |name| + 4
    case None => 1
  }

  /** Left-to-right, non-overlapping scan for placeholders, as `re.sub` does. */
  function Tokenize(s: string): seq<Piece>
    decreases |s|
  {
    if s == [] then [] else [PieceAt(s)] + Tokenize(s[Consumed(s)..])
  }

  function PieceText(p: Piece): string {
    match p
    case Lit(c) => [c]
    case Placeholder(name) => "{{" + name + "}}"
  }

  /** The text a sequence of pieces was scanned from. */
  function Untokenize(pieces: seq<Piece>): string
    decreases |pieces|
  {
    if pieces == [] then "" else PieceText(pieces[0]) + Untokenize(pieces[1..])
  }

  lemma UntokenizeCons(p: Piece, rest: seq<Piece>)
    ensures Untokenize([p] + rest) == PieceText(p) + Untokenize(rest)
  {
    assert ([p] + rest)[1..] == rest;
  }

  /** The piece read at the front spells out exactly the characters consumed. */
  lemma PieceAtText(s: string)
    requires s != []
    ensures PieceText(PieceAt(s)) == s[..Consumed(s)]
  {
    var m := PlaceholderAt(s);
    if m.Some? {
      BracedText(s, m.value);
    }
  }

  lemma UntokenizeStep(s: string)
    requires s != []
    ensures Untokenize(Tokenize(s)) == s[..Consumed(s)] + Untokenize(Tokenize(s[Consumed(s)..]))
  {
    PieceAtText(s);
    UntokenizeCons(PieceAt(s), Tokenize(s[Consumed(s)..]));
  }

  /** Scanning loses nothing: the pieces spell out the template again. */
  lemma {:induction false} TokenizeRoundTrip(s: string)
    ensures Untokenize(Tokenize(s)) == s
    decreases |s|
  {
    if s != [] {
      var k := Consumed(s);
      TokenizeRoundTrip(s[k..]);
      UntokenizeStep(s);
      assert s == s[..k] + s[k..];
    }
  }

  /** The placeholder names in order of appearance, repeats included. */
  function Names(pieces: seq<Piece>): seq<string>
    decreases |pieces|
  {
    if pieces == [] then []
    else if pieces[0].Placeholder? then [pieces[0].name] + Names(pieces[1..])
    else Names(pieces[1..])
  }

  /** Every name found is a non-empty run of word characters. */
  lemma {:induction false} NamesAreWords(s: string)
    ensures forall n :: n in Names(Tokenize(s)) ==> |n| >= 1 && forall i :: 0 <= i < |n| ==> IsWordChar(n[i])
    decreases |s|
  {
    if s != [] {
      NamesAreWords(s[Consumed(s)..]);
      assert Tokenize(s)[1..] == Tokenize(s[Consumed(s)..]);
    }
  }

  /** The replacement of one piece. */
  function RenderPiece(p: Piece, context: Dict<Value>): string {
    match p
    case Lit(c) => [c]
    case Placeholder(name) =>
      match Get(context, name)
      case Some(v) => Str(v)
      case None => "{{" + name + "}}"
  }

  function RenderPieces(pieces: seq<Piece>, context: Dict<Value>): string
    decreases |pieces|
  {
    if pieces == [] then "" else RenderPiece(pieces[0], context) + RenderPieces(pieces[1..], context)
  }

  /**
   * Rendering is a single pass: the output is the pieces' replacements
   * side by side, so a substituted value is never scanned again.
   */
  lemma {:induction false} RenderPiecesAppend(a: seq<Piece>, b: seq<Piece>, context: Dict<Value>)
    ensures RenderPieces(a + b, context) == RenderPieces(a, context) + RenderPieces(b, context)
    decreases |a|
  {
    if a == [] {
      assert a + b == b;
    } else {
      assert (a + b)[1..] == a[1..] + b;
      RenderPiecesAppend(a[1..], b, context);
    }
  }

  /** With none of the template's names in the context the template comes out unchanged. */
  lemma {:induction false} RenderUnknownNames(pieces: seq<Piece>, context: Dict<Value>)
    requires forall n :: n in Names(pieces) ==> n !in Keys(context)
    ensures RenderPieces(pieces, context) == Untokenize(pieces)
    decreases |pieces|
  {
    if pieces != [] {
      RenderUnknownNames(pieces[1..], context);
    }
  }

  function KnownNames(names: seq<string>, context: Dict<Value>): (r: seq<string>)
    ensures forall n :: n in r <==> n in names && n in Keys(context)
    decreases |names|
  {
    if names == [] then []
    else if names[0] in Keys(context) then [names[0]] + KnownNames(names[1..], context)
    else KnownNames(names[1..], context)
  }

  function UnknownNames(names: seq<string>, context: Dict<Value>): (r: seq<string>)
    ensures forall n :: n in r <==> n in names && n !in Keys(context)
    decreases |names|
  {
    if names == [] then []
    else if names[0] !in Keys(context) then [names[0]] + UnknownNames(names[1..], context)
    else UnknownNames(names[1..], context)
  }

  datatype Rendered = Rendered(text: string, used: Dict<Value>, missing: seq<string>)

  /**
   * `render_template_content`: the rendered text, the context entries that
   * were used (in order of first use) and the unknown names (each once, in
   * order of first appearance).
   */
  function RenderTemplateContent(content: string, context: Dict<Value>): Rendered {
    var pieces := Tokenize(content);
    var names := Names(pieces);
    Rendered(
      RenderPieces(pieces, context),
      FromKeys(KnownNames(names, context), (n: string) => Get(context, n).GetOr(NoneValue)),
      Dedup(UnknownNames(names, context)))
  }

  /**
   * Every placeholder name of the template is either used, with its context
   * value, or missing; never both, and nothing else is reported.
   */
  lemma RenderReports(content: string, context: Dict<Value>, n: string)
    ensures var r := RenderTemplateContent(content, context);
      var names := Names(Tokenize(content));
      && ValidDict(r.used)
      && NoDuplicates(r.missing)
      && (n in Keys(r.used) <==> n in names && n in Keys(context))
      && (n in r.missing <==> n in names && n !in Keys(context))
      && (n in Keys(r.used) ==> Get(r.used, n) == Get(context, n))
  {
    var names := Names(Tokenize(content));
    FromKeysSpec(KnownNames(names, context), (n: string) => Get(context, n).GetOr(NoneValue), n);
  }

  /**
   * A placeholder at the front is read as one piece, and scanning resumes
   * right after its closing braces.
   */
  lemma TokenizeFrontPlaceholder(name: string, rest: string)
    requires IsWord(name)
    ensures Tokenize("{{" + name + "}}" + rest) == [Placeholder(name)] + Tokenize(rest)
  {
    BracedConcat(name, rest);
    PlaceholderAtComplete("{{" + name + "}}" + rest, name);
  }

  lemma RenderPiecesCons(p: Piece, rest: seq<Piece>, context: Dict<Value>)
    ensures RenderPieces([p] + rest, context) == RenderPiece(p, context) + RenderPieces(rest, context)
  {
    assert ([p] + rest)[1..] == rest;
  }

  /**
   * The substitution itself: a `{{name}}` at the front becomes `str` of the
   * context value when the name is a context key and stays as written
   * otherwise; the rest of the template renders on its own.
   */
  lemma RenderFrontPlaceholder(name: string, rest: string, context: Dict<Value>)
    requires IsWord(name)
    ensures var text := RenderTemplateContent("{{" + name + "}}" + rest, context).text;
      var tail := RenderTemplateContent(rest, context).text;
      && (Get(context, name).Some? ==> text == Str(Get(context, name).value) + tail)
      && (Get(context, name).None? ==> text == "{{" + name + "}}" + tail)
  {
    TokenizeFrontPlaceholder(name, rest);
    RenderPiecesCons(Placeholder(name), Tokenize(rest), context);
  }

  /** A character that starts no placeholder is copied, and the rest renders on its own. */
  lemma RenderFrontLiteral(s: string, context: Dict<Value>)
    requires s != []
    requires forall name :: IsWord(name) ==> !Braced(s, name)
    ensures RenderTemplateContent(s, context).text == [s[0]] + RenderTemplateContent(s[1..], context).text
  {
    assert PlaceholderAt(s).None?;
    RenderPiecesCons(Lit(s[0]), Tokenize(s[1..]), context);
  }

  /** A template that is one known placeholder renders to the value's string form and uses it. */
  lemma SubstituteOne(name: string, v: Value, context: Dict<Value>)
    requires IsWord(name) && Get(context, name) == Some(v)
    ensures RenderTemplateContent("{{" + name + "}}", context).text == Str(v)
    ensures Get(RenderTemplateContent("{{" + name + "}}", context).used, name) == Some(v)
  {
    var content := "{{" + name + "}}";
    assert content + "" == content;
    RenderFrontPlaceholder(name, "", context);
    TokenizeFrontPlaceholder(name, "");
    var pieces := Tokenize(content);
    assert pieces == [Placeholder(name)];
    assert Names(pieces) == [name] by {
      assert pieces[1..] == [];
    }
    var known := KnownNames([name], context);
    assert known == [name] by {
      assert [name][1..] == [];
    }
    FromKeysSpec(known, (n: string) => Get(context, n).GetOr(NoneValue), name);
  }

  /** Content without a known placeholder renders to itself and reports no use. */
  lemma RenderIdentity(content: string, context: Dict<Value>)
    requires forall n :: n in Names(Tokenize(content)) ==> n !in Keys(context)
    ensures RenderTemplateContent(content, context).text == content
    ensures RenderTemplateContent(content, context).used == []
  {
    var names := Names(Tokenize(content));
    RenderUnknownNames(Tokenize(content), context);
    TokenizeRoundTrip(content);
  }
}

=== FILE: request_language.dfy ===
/**
 * The language of a request: the user's supported interface language,
 * else a case-insensitive substring test on the Accept-Language header
 * ("ru" before "en"), else "en". Quality values are not interpreted.
 */
module RequestLanguage {
  import opened Wrappers
  import opened Text
  import opened Models
  import ContentLanguage

  const DefaultLanguage: string := "en"

  /** `get_request_language`; a missing header reads as the empty string. */
  function GetRequestLanguage(user: Option<User>, acceptLanguage: Option<string>): (r: string)
    ensures ContentLanguage.Supported(r)
  {
    if user.Some? && user.value.uiLanguage != "" && ContentLanguage.Supported(user.value.uiLanguage) then
      user.value.uiLanguage
    else
      var header := Lower(acceptLanguage.GetOr(""));
      if Contains(header, "ru") then "ru"
      else if Contains(header, "en") then "en"
      else DefaultLanguage
  }

  /**
   * A supported preference wins over any header; otherwise any header
   * containing "ru" in any case gives "ru", one containing only "en" gives
   * "en", and no header gives "en".
   */
  lemma GetRequestLanguageSpec(user: Option<User>, acceptLanguage: Option<string>)
    ensures var r := GetRequestLanguage(user, acceptLanguage);
      var pref := if user.Some? then user.value.uiLanguage else "";
      var header := Lower(acceptLanguage.GetOr(""));
      && (ContentLanguage.Supported(pref) ==> r == pref)
      && (!ContentLanguage.Supported(pref) ==>
            && (r == "ru" <==> Contains(header, "ru"))
            && (r == "en" <==> !Contains(header, "ru")))
      && (!ContentLanguage.Supported(pref) && Contains(header, "en") && !Contains(header, "ru") ==> r == "en")
      && (!ContentLanguage.Supported(pref) && (acceptLanguage.None? || acceptLanguage == Some("")) ==> r == "en")
  {
    if acceptLanguage.None? || acceptLanguage == Some("") {
      assert Lower("") == "";
      assert !Contains("", "ru") && !Contains("", "en");
    }
  }

  /**
   * With no document, content language falls back to exactly the request
   * language computed for the same user.
   */
  lemma ContentFollowsRequest(user: Option<User>, acceptLanguage: Option<string>)
    ensures ContentLanguage.ResolveContentLanguage(None, user, GetRequestLanguage(user, acceptLanguage))
         == GetRequestLanguage(user, acceptLanguage)
  {
  }
}

=== FILE: retrieval.dfy ===
/**
 * Retrieval of RAG context: the earliest chunks of each source type of a
 * study, and the text blocks built from them for prompt templates.
 */
module Retrieval {
  import opened Wrappers
  import opened Seqs
  import opened Sorting
  import opened Text
  import opened Assoc
  import opened Models

  /** Source types looked up when the caller names none. */
  const DefaultSourceTypes: seq<string> := ["protocol", "sap", "tlf", "csr_prev"]
  const DefaultLimitPerSource: nat := 5
  const BlockSeparator: string := "\n\n"

  predicate Selected(c: RagChunk, studyId: int, sourceType: string) {
    c.studyId == studyId && c.sourceType == sourceType
  }

  /** The `WHERE study_id = ... AND source_type = ...` rows, in storage order. */
  function Matching(chunks: seq<RagChunk>, studyId: int, sourceType: string): (r: seq<RagChunk>)
    ensures forall c :: c in r <==> c in chunks && Selected(c, studyId, sourceType)
    ensures |r| <= |chunks|
    decreases |chunks|
  {
    if chunks == [] then []
    else if Selected(chunks[0], studyId, sourceType) then [chunks[0]] + Matching(chunks[1..], studyId, sourceType)
    else Matching(chunks[1..], studyId, sourceType)
  }

  function ByOrderIndex(): (le: (RagChunk, RagChunk) -> bool)
    ensures TotalPreorder(le)
  {
    (a: RagChunk, b: RagChunk) => a.orderIndex <= b.orderIndex
  }

  function Min(a: int, b: int): int {
    if a <= b then a else b
  }

  /** A prefix of a sorted sequence is sorted, and nothing after it sorts before its elements. */
  lemma SortedPrefix<T>(s: seq<T>, n: nat, le: (T, T) -> bool)
    requires SortedBy(s, le) && n <= |s|
    ensures SortedBy(s[..n], le)
    ensures multiset(s[..n]) <= multiset(s)
    ensures forall c, i :: c in s && c !in s[..n] && 0 <= i < n ==> le(s[i], c)
  {
    assert s == s[..n] + s[n..];
    assert multiset(s) == multiset(s[..n]) + multiset(s[n..]);
    forall c, i | c in s && c !in s[..n] && 0 <= i < n
      ensures le(s[i], c)
    {
      var j :| 0 <= j < |s| && s[j] == c;
      assert j >= n;
    }
  }

  /**
   * One query of the retrieval loop: the matching chunks ordered by
   * `order_index`, at most `limit` of them. The database breaks ties in an
   * unspecified order; the model keeps storage order.
   */
  function Query(chunks: seq<RagChunk>, studyId: int, sourceType: string, limit: nat): seq<RagChunk> {
    var sorted := InsertionSort(Matching(chunks, studyId, sourceType), ByOrderIndex());
    sorted[..Min(limit, |sorted|)]
  }

  /**
   * The query returns `limit` matching chunks (all of them when fewer
   * exist), ordered by `order_index`, and skips none that sorts earlier
   * than one it returns.
   */
  lemma QueryEarliest(chunks: seq<RagChunk>, studyId: int, sourceType: string, limit: nat)
    ensures var r := Query(chunks, studyId, sourceType, limit);
      && |r| == Min(limit, |Matching(chunks, studyId, sourceType)|)
      && (forall i :: 0 <= i < |r| ==> r[i] in chunks && Selected(r[i], studyId, sourceType))
      && SortedBy(r, ByOrderIndex())
      && multiset(r) <= multiset(Matching(chunks, studyId, sourceType))
      && (forall c, i ::
            c in chunks && Selected(c, studyId, sourceType) && c !in r && 0 <= i < |r| ==>
              r[i].orderIndex <= c.orderIndex)
  {
    var m := Matching(chunks, studyId, sourceType);
    var sorted := InsertionSort(m, ByOrderIndex());
    var n := Min(limit, |sorted|);
    SortedPrefix(sorted, n, ByOrderIndex());
    var r := sorted[..n];
    forall x | x in multiset(r)
      ensures x in m
    {
      assert x in multiset(sorted);
    }
    forall c | c in chunks && Selected(c, studyId, sourceType)
      ensures c in sorted
    {
      assert c in multiset(m);
    }
  }

  /**
   * `retrieve_rag_chunks`: for each requested source type (the four
   * defaults when none are given) the result of its query. A type named
   * twice is queried twice and keeps its first position.
   */
  function RetrieveRagChunks(chunks: seq<RagChunk>, studyId: int, sourceTypes: Option<seq<string>>, limit: nat)
    : Dict<seq<RagChunk>>
  {
    FromKeys(sourceTypes.GetOr(DefaultSourceTypes), (t: string) => Query(chunks, studyId, t, limit))
  }

  /**
   * Every requested type is a key exactly once, in request order, and maps
   * to its query result; no other key appears.
   */
  lemma RetrieveRagChunksSpec(chunks: seq<RagChunk>, studyId: int, sourceTypes: Option<seq<string>>, limit: nat, t: string)
    ensures var r := RetrieveRagChunks(chunks, studyId, sourceTypes, limit);
      var types := if sourceTypes.Some? then sourceTypes.value else DefaultSourceTypes;
      && ValidDict(r)
      && Keys(r) == Dedup(types)
      && Get(r, t) == if t in types then Some(Query(chunks, studyId, t, limit)) else None
  {
    FromKeysSpec(sourceTypes.GetOr(DefaultSourceTypes), (t: string) => Query(chunks, studyId, t, limit), t);
  }

  lemma DefaultTypesDistinct()
    ensures NoDuplicates(DefaultSourceTypes)
  {
    var firsts := ['p', 's', 't', 'c'];
    assert forall i :: 0 <= i < 4 ==> DefaultSourceTypes[i][0] == firsts[i];
  }

  /** With no types given, exactly the four default types are queried, in their order. */
  lemma RetrieveDefaultTypes(chunks: seq<RagChunk>, studyId: int, limit: nat)
    ensures Keys(RetrieveRagChunks(chunks, studyId, None, limit)) == DefaultSourceTypes
  {
    RetrieveRagChunksSpec(chunks, studyId, None, limit, "");
    DefaultTypesDistinct();
    DedupNoDuplicates(DefaultSourceTypes);
  }

  function Texts(chunks: seq<RagChunk>): (r: seq<string>)
    ensures |r| == |chunks|
    ensures forall i :: 0 <= i < |chunks| ==> r[i] == chunks[i].text
  {
    seq(|chunks|, i requires 0 <= i < |chunks| => chunks[i].text)
  }

  /** The context block of one source type: its chunk texts separated by blank lines. */
  function ContextBlock(chunks: seq<RagChunk>): string {
    Join(Texts(chunks), BlockSeparator)
  }

  lemma {:induction false} JoinLength(parts: seq<string>, sep: string)
    ensures |parts| > 0 ==> |Join(parts, sep)| == |Concat(parts)| + (|parts| - 1) * |sep|
    ensures |parts| == 0 ==> Join(parts, sep) == ""
    decreases |parts|
  {
    if |parts| > 1 {
      JoinLength(parts[1..], sep);
    } else if |parts| == 1 {
      assert Concat(parts) == parts[0] + Concat(parts[1..]);
    }
  }

  /**
   * A block holds every chunk text in order with nothing but blank-line
   * separators added: the same visible characters, and two extra
   * characters per gap. No chunks give the empty block.
   */
  lemma ContextBlockContents(chunks: seq<RagChunk>)
    ensures NonSpace(ContextBlock(chunks)) == NonSpace(Concat(Texts(chunks)))
    ensures |chunks| > 0 ==> |ContextBlock(chunks)| == |Concat(Texts(chunks))| + 2 * (|chunks| - 1)
    ensures chunks == [] ==> ContextBlock(chunks) == ""
  {
    assert NonSpace(BlockSeparator) == [] by {
      assert BlockSeparator == ['\n'] + ['\n'];
      NonSpaceAppend(['\n'], ['\n']);
    }
    NonSpaceJoin(Texts(chunks), BlockSeparator);
    JoinLength(Texts(chunks), BlockSeparator);
  }

  /** `build_rag_context_text`: one context block per source type. */
  function BuildRagContextText(chunksByType: Dict<seq<RagChunk>>): Dict<string> {
    MapValues(chunksByType, ContextBlock)
  }

  /** The text dictionary has the same keys in the same order, each mapped to its type's block. */
  lemma BuildRagContextTextSpec(chunksByType: Dict<seq<RagChunk>>, t: string)
    requires ValidDict(chunksByType)
    ensures ValidDict(BuildRagContextText(chunksByType))
    ensures Keys(BuildRagContextText(chunksByType)) == Keys(chunksByType)
    ensures Get(BuildRagContextText(chunksByType), t) ==
      if Get(chunksByType, t).Some? then Some(ContextBlock(Get(chunksByType, t).value)) else None
  {
    MapValuesSpec(chunksByType, ContextBlock, t);
  }
}

=== FILE: schemas.dfy ===
/** Request validation of documents and of user profile updates. */
module Schemas {
  import opened Wrappers
  import opened Text
  import opened Sorting

  const AllowedDocumentTypes: set<string> := {"csr", "protocol", "ib", "sap", "tlf"}
  const AllowedDocumentStatuses: set<string> := {"draft", "in_qc", "ready_for_submission", "archived"}

  /** The allowed names in sorted order, as the error messages list them. */
  const SortedDocumentTypes: seq<string> := ["csr", "ib", "protocol", "sap", "tlf"]
  const SortedDocumentStatuses: seq<string> := ["archived", "draft", "in_qc", "ready_for_submission"]

  /** The message lists are the allowed sets, sorted. */
  lemma SortedNamesSpec()
    ensures (set t | t in SortedDocumentTypes) == AllowedDocumentTypes
    ensures (set s | s in SortedDocumentStatuses) == AllowedDocumentStatuses
    ensures forall i :: 0 < i < |SortedDocumentTypes| ==> StringLe(SortedDocumentTypes[i - 1], SortedDocumentTypes[i])
    ensures forall i :: 0 < i < |SortedDocumentStatuses| ==> StringLe(SortedDocumentStatuses[i - 1], SortedDocumentStatuses[i])
  {
    var t, s := SortedDocumentTypes, SortedDocumentStatuses;
    assert StringLe(t[0], t[1]) && StringLe(t[1], t[2]) && StringLe(t[2], t[3]) && StringLe(t[3], t[4]);
    assert StringLe(s[0], s[1]) && StringLe(s[1], s[2]) && StringLe(s[2], s[3]);
  }

  function TypeError(): string {
    "Document type must be one of: " + Join(SortedDocumentTypes, ", ")
  }

  function StatusError(): string {
    "Document status must be one of: " + Join(SortedDocumentStatuses, ", ")
  }

  /** A document in a request body; `None` marks an omitted optional field. */
  datatype DocumentInput = DocumentInput(
    docType: string,
    title: string,
    templateCode: Option<string>,
    status: Option<string>,
    currentVersionLabel: Option<string>,
    language: Option<string>)

  datatype DocumentFields = DocumentFields(
    docType: string,
    title: string,
    templateCode: Option<string>,
    status: string,
    currentVersionLabel: Option<string>,
    language: string)

  /**
   * The checks shared by the document base and create schemas: the type and
   * a given status must be allowed (an omitted status is "draft" and is not
   * validated), every failing field is reported in field order, and the
   * language defaults to "ru" without any check.
   */
  function ValidateDocument(input: DocumentInput): (r: Result<DocumentFields, seq<string>>)
    ensures r.Success? <==>
      input.docType in AllowedDocumentTypes && (input.status.None? || input.status.value in AllowedDocumentStatuses)
    ensures r.Success? ==> r.value == DocumentFields(input.docType, input.title, input.templateCode,
      input.status.GetOr("draft"), input.currentVersionLabel, input.language.GetOr("ru"))
    ensures r.Failure? ==>
      (TypeError() in r.error <==> input.docType !in AllowedDocumentTypes) &&
      (StatusError() in r.error <==> input.status.Some? && input.status.value !in AllowedDocumentStatuses)
  {
    var typeErrors := if input.docType in AllowedDocumentTypes then [] else [TypeError()];
    var statusErrors := match input.status
      case Some(s) => if s in AllowedDocumentStatuses then [] else [StatusError()]
      case None => [];
    if typeErrors + statusErrors != [] then
      assert TypeError() != StatusError() by {
        assert TypeError()[9] == 't' && StatusError()[9] == 's';
      }
      Failure(typeErrors + statusErrors)
    else
      Success(DocumentFields(input.docType, input.title, input.templateCode,
        input.status.GetOr("draft"), input.currentVersionLabel, input.language.GetOr("ru")))
  }

  /** The language is never validated: any language with valid type and status is accepted as given. */
  lemma LanguageUnchecked(input: DocumentInput, language: string)
    ensures ValidateDocument(input.(language := Some(language))).Success? == ValidateDocument(input).Success?
    ensures ValidateDocument(input.(language := Some(language))).Success? ==>
      ValidateDocument(input.(language := Some(language))).value.language == language
  {
  }

  /** A profile update; every field may be omitted. */
  datatype UserUpdate = UserUpdate(
    username: Option<string>,
    fullName: Option<string>,
    email: Option<string>,
    uiLanguage: Option<string>)

  /** `ui_language` may be omitted, "ru" or "en"; nothing else, not even "RU". */
  function ValidateUiLanguage(v: Option<string>): (r: Result<Option<string>, string>)
    ensures r.Success? <==> v.None? || v.value == "ru" || v.value == "en"
    ensures r.Success? ==> r.value == v
  {
    if v.Some? && v.value != "ru" && v.value != "en" then Failure("ui_language must be 'ru' or 'en'")
    else Success(v)
  }

  /** Only the interface language is checked; the other fields pass through. */
  function ValidateUserUpdate(input: UserUpdate): (r: Result<UserUpdate, string>)
    ensures r.Success? <==> ValidateUiLanguage(input.uiLanguage).Success?
    ensures r.Success? ==> r.value == input
  {
    match ValidateUiLanguage(input.uiLanguage)
    case Success(_) => Success(input)
    case Failure(e) => Failure(e)
  }
}

=== FILE: section_defaults.dfy ===
/** The five sections every new clinical study report starts with. */
module SectionDefaults {
  import opened Wrappers
  import opened Seqs
  import opened Text

  datatype SectionSpec = SectionSpec(code: string, title: string)

  const DefaultCsrSections: seq<SectionSpec> := [
    SectionSpec("SYNOPSIS", "Synopsis"),
    SectionSpec("EFFICACY", "Efficacy Results"),
    SectionSpec("SAFETY", "Safety Results"),
    SectionSpec("PK", "Pharmacokinetics"),
    SectionSpec("DISCUSSION", "Discussion")]

  function Codes(specs: seq<SectionSpec>): (r: seq<string>)
    ensures |r| == |specs| && forall i :: 0 <= i < |specs| ==> r[i] == specs[i].code
  {
    seq(|specs|, i requires 0 <= i < |specs| => specs[i].code)
  }

  /** The default codes, in order, and no code occurs twice. */
  lemma DefaultCodesDistinct()
    ensures Codes(DefaultCsrSections) == ["SYNOPSIS", "EFFICACY", "SAFETY", "PK", "DISCUSSION"]
    ensures NoDuplicates(Codes(DefaultCsrSections))
  {
    var c := Codes(DefaultCsrSections);
    // the second letters Y, F, A, K, I tell the codes apart
    assert forall i :: 0 <= i < 5 ==> |c[i]| >= 2;
    assert c[0][1] == 'Y' && c[1][1] == 'F' && c[2][1] == 'A' && c[3][1] == 'K' && c[4][1] == 'I';
  }

  /** `title or f"CSR for study {study_id}"`: an absent or empty title gives the default. */
  function DefaultDocumentTitle(title: Option<string>, studyId: int): (r: string)
    ensures title.Some? && title.value != "" ==> r == title.value
    ensures title.None? || title.value == "" ==> r == "CSR for study " + IntToString(studyId)
  {
    match title
    case Some(t) => if t != "" then t else "CSR for study " + IntToString(studyId)
    case None => "CSR for study " + IntToString(studyId)
  }
}

=== FILE: security.dfy ===
/**
 * The password bytes handed to bcrypt: the UTF-8 encoding of the password
 * (section 3 of RFC 3629), cut to bcrypt's 72-byte limit. Hashing and
 * verification compute these bytes the same way; bcrypt itself is not
 * part of this model.
 */
module Security {
  import opened Wrappers

  type byte = x: int | 0 <= x < 256

  const BcryptLimit: nat := 72

  /** `10xxxxxx`: a byte that continues a multi-byte sequence. */
  predicate IsContinuation(b: byte) {
    0x80 <= b < 0xC0
  }

  /** The UTF-8 encoding of one scalar value: a lead byte followed by its continuation bytes. */
  function EncodeChar(c: char): (r: seq<byte>)
    ensures 1 <= |r| <= 4
    ensures !IsContinuation(r[0])
    ensures forall i :: 1 <= i < |r| ==> IsContinuation(r[i])
    ensures |r| == 1 <==> (c as int) < 0x80
  {
    var cp := c as int;
    if cp < 0x80 then [cp]
    else if cp < 0x800 then [0xC0 + cp / 64, 0x80 + cp % 64]
    else if cp < 0x10000 then [0xE0 + cp / 4096, 0x80 + (cp / 64) % 64, 0x80 + cp % 64]
    else [0xF0 + cp / 262144, 0x80 + (cp / 4096) % 64, 0x80 + (cp / 64) % 64, 0x80 + cp % 64]
  }

  /** `password.encode('utf-8')`. */
  function Encode(s: string): seq<byte>
    decreases |s|
  {
    if s == [] then [] else EncodeChar(s[0]) + Encode(s[1..])
  }

  lemma {:induction false} EncodeAppend(a: string, b: string)
    ensures Encode(a + b) == Encode(a) + Encode(b)
    decreases |a|
  {
    if a == [] {
      assert a + b == b;
    } else {
      assert (a + b)[1..] == a[1..] + b;
      EncodeAppend(a[1..], b);
    }
  }

  /** An encoding never ends in the lead byte of a multi-byte sequence. */
  lemma {:induction false} EncodeEndsComplete(s: string)
    ensures Encode(s) != [] ==> Encode(s)[|Encode(s)| - 1] < 0xC0
    decreases |s|
  {
    if s != [] {
      EncodeEndsComplete(s[1..]);
      var e := EncodeChar(s[0]);
      assert e[|e| - 1] < 0xC0;
    }
  }

  /** ASCII text encodes byte for byte. */
  lemma {:induction false} EncodeAscii(s: string)
    requires forall i :: 0 <= i < |s| ==> (s[i] as int) < 0x80
    ensures |Encode(s)| == |s|
    decreases |s|
  {
    if s != [] {
      EncodeAscii(s[1..]);
    }
  }

  /**
   * Drops trailing continuation bytes, as the loop after the cut does: the
   * longest prefix that is empty or ends in a byte that is not a
   * continuation byte, every byte dropped being one.
   */
  function TrimContinuation(b: seq<byte>): (r: seq<byte>)
    ensures r <= b
    ensures r == [] || !IsContinuation(r[|r| - 1])
    ensures forall i :: |r| <= i < |b| ==> IsContinuation(b[i])
    decreases |b|
  {
    if b != [] && IsContinuation(b[|b| - 1]) then TrimContinuation(b[..|b| - 1]) else b
  }

  /**
   * The bytes as the source computes them: the whole encoding when it fits;
   * otherwise the first 72 bytes, shortened by exactly the run of
   * continuation bytes at their end.
   */
  function PasswordBytesAsWritten(password: string): (r: seq<byte>)
    ensures r <= Encode(password)
    ensures |Encode(password)| <= BcryptLimit ==> r == Encode(password)
    ensures |Encode(password)| > BcryptLimit ==>
      && r <= Encode(password)[..BcryptLimit]
      && (r == [] || !IsContinuation(r[|r| - 1]))
      && forall i :: |r| <= i < BcryptLimit ==> IsContinuation(Encode(password)[i])
  {
    var b := Encode(password);
    if |b| > BcryptLimit then
      var r := TrimContinuation(b[..BcryptLimit]);
      assert r <= b[..BcryptLimit] <= b;
      r
    else b
  }

  /**
   * A password whose 72-byte cut splits "é": the cut keeps the lead byte
   * 0xC3 without its continuation, which no string encodes to.
   */
  lemma DanglingLeadByte()
    ensures var p := seq(70, i => 'a') + "éb";
      && |Encode(p)| == 73
      && PasswordBytesAsWritten(p) == Encode(seq(70, i => 'a')) + [0xC3]
      && forall s: string :: PasswordBytesAsWritten(p) != Encode(s)
  {
    var a := seq(70, i => 'a');
    var p := a + "éb";
    EncodeAscii(a);
    EncodeAppend(a, "éb");
    assert Encode("éb") == [0xC3, 0xA9, 0x62];
    var b := Encode(p);
    assert b[..72] == Encode(a) + [0xC3, 0xA9];
    assert (Encode(a) + [0xC3, 0xA9])[..71] == Encode(a) + [0xC3];
    var r := PasswordBytesAsWritten(p);
    var x := Encode(a);
    assert (x + [0xC3, 0xA9])[..|x| + 1] == x + [0xC3];
    assert TrimContinuation(x + [0xC3, 0xA9]) == TrimContinuation(x + [0xC3]);
    assert r == Encode(a) + [0xC3];
    forall s: string
      ensures r != Encode(s)
    {
      EncodeEndsComplete(s);
    }
  }

  /** The longest prefix of `s` whose encoding fits in `budget` bytes. */
  function TakeChars(s: string, budget: nat): (r: string)
    ensures r <= s
    ensures |Encode(r)| <= budget
    decreases |s|
  {
    if s == [] || |EncodeChar(s[0])| > budget then ""
    else
      var rest := TakeChars(s[1..], budget - |EncodeChar(s[0])|);
      assert ([s[0]] + rest)[1..] == rest;
      [s[0]] + rest
  }

  lemma {:induction false} TakeCharsCommon(a: string, b: string, n: nat, budget: nat)
    requires budget < n <= |a| && n <= |b| && a[..n] == b[..n]
    ensures TakeChars(a, budget) == TakeChars(b, budget)
    decreases n
  {
    assert a[0] == a[..n][0] && b[0] == b[..n][0];
    var e := |EncodeChar(a[0])|;
    if e <= budget {
      assert a[1..][..n - 1] == a[..n][1..] && b[1..][..n - 1] == b[..n][1..];
      TakeCharsCommon(a[1..], b[1..], n - 1, budget - e);
    }
  }

  lemma EncodeSingle(c: char)
    ensures Encode([c]) == EncodeChar(c)
  {
    assert [c][1..] == [];
  }

  /** Nothing longer fits: the next character would cross the budget. */
  lemma {:induction false} TakeCharsMaximal(s: string, budget: nat)
    ensures var k := |TakeChars(s, budget)|;
      k == |s| || |Encode(s[..k + 1])| > budget
    decreases |s|
  {
    if s != [] && |EncodeChar(s[0])| <= budget {
      var b := budget - |EncodeChar(s[0])|;
      TakeCharsMaximal(s[1..], b);
      var k := |TakeChars(s[1..], b)|;
      if k < |s[1..]| {
        assert s[..k + 2] == [s[0]] + s[1..][..k + 1];
        EncodeAppend([s[0]], s[1..][..k + 1]);
        EncodeSingle(s[0]);
      }
    } else if s != [] {
      assert s[..1] == [s[0]];
      EncodeSingle(s[0]);
    }
  }

  lemma {:induction false} TakeCharsAll(s: string, budget: nat)
    requires |Encode(s)| <= budget
    ensures TakeChars(s, budget) == s
    decreases |s|
  {
    if s != [] {
      TakeCharsAll(s[1..], budget - |EncodeChar(s[0])|);
    }
  }

  lemma EncodePrefix(a: string, b: string)
    requires a <= b
    ensures Encode(a) <= Encode(b)
  {
    assert b == a + b[|a|..];
    EncodeAppend(a, b[|a|..]);
  }

  /**
   * The cut the loop evidently aims at: the encoding of the longest prefix
   * of whole characters that fits in 72 bytes.
   */
  function PasswordBytes(password: string): (r: seq<byte>)
    ensures |r| <= BcryptLimit
    ensures exists k :: 0 <= k <= |password| && r == Encode(password[..k])
  {
    var t := TakeChars(password, BcryptLimit);
    assert t == password[..|t|];
    Encode(t)
  }

  /** The corrected bytes are a prefix of the encoding, and the whole encoding when it fits. */
  lemma PasswordBytesSpec(password: string)
    ensures PasswordBytes(password) <= Encode(password)
    ensures |Encode(password)| <= BcryptLimit ==> PasswordBytes(password) == Encode(password)
  {
    EncodePrefix(TakeChars(password, BcryptLimit), password);
    if |Encode(password)| <= BcryptLimit {
      TakeCharsAll(password, BcryptLimit);
    }
  }

  /** Every prefix of the example password up to "é" fits in 72 bytes. */
  lemma ExamplePrefixFits(j: nat)
    requires j <= 71
    ensures |Encode((seq(70, i => 'a') + "éb")[..j])| <= 72
  {
    var a := seq(70, i => 'a');
    var p := a + "éb";
    if j <= 70 {
      assert p[..j] == a[..j];
      EncodeAscii(a[..j]);
    } else {
      assert p[..71] == a + "é";
      EncodeAscii(a);
      EncodeAppend(a, "é");
      assert Encode("é") == [0xC3, 0xA9];
    }
  }

  /** On the password above the corrected cut keeps the whole "é". */
  lemma CorrectedKeepsWholeCharacter()
    ensures PasswordBytes(seq(70, i => 'a') + "éb") == Encode(seq(70, i => 'a') + "é")
  {
    var a := seq(70, i => 'a');
    var p := a + "éb";
    var t := TakeChars(p, BcryptLimit);
    TakeCharsMaximal(p, BcryptLimit);
    if |t| == 72 {
      assert t == p;
      EncodeAscii(a);
      EncodeAppend(a, "éb");
      assert false;
    } else if |t| < 71 {
      ExamplePrefixFits(|t| + 1);
      assert false;
    }
    assert t == p[..71] == a + "é";
  }

  /** Each character takes at least one byte. */
  lemma {:induction false} EncodeLength(s: string)
    ensures |Encode(s)| >= |s|
    decreases |s|
  {
    if s != [] {
      EncodeLength(s[1..]);
    }
  }

  /** Both cuts are the whole encoding when it fits in 72 bytes. */
  lemma CutsAgreeWhenFits(password: string)
    requires |Encode(password)| <= BcryptLimit
    ensures PasswordBytesAsWritten(password) == PasswordBytes(password) == Encode(password)
  {
    PasswordBytesSpec(password);
  }

  /**
   * `get_password_hash` with bcrypt as a parameter: `hash` stands for
   * bcrypt under some salt, applied to the bytes the source cuts.
   */
  function GetPasswordHash(password: string, hash: seq<byte> -> string): string {
    hash(PasswordBytesAsWritten(password))
  }

  /**
   * `verify_password` with `bcrypt.checkpw` as a parameter: `check` gives
   * its verdict, or `None` when it raises `ValueError` or `TypeError`,
   * which the source turns into a rejection.
   */
  function VerifyPassword(plain: string, hashed: string, check: (seq<byte>, string) -> Option<bool>): bool {
    check(PasswordBytesAsWritten(plain), hashed) == Some(true)
  }

  /**
   * Hashing and verification cut the password the same way: when bcrypt
   * accepts the bytes it hashed, every password verifies against its own
   * hash, and so does any password cut to the same bytes; a hash that
   * bcrypt rejects or cannot read never verifies.
   */
  lemma HashThenVerify(password: string, other: string, hashed: string,
                       hash: seq<byte> -> string, check: (seq<byte>, string) -> Option<bool>)
    requires forall b :: check(b, hash(b)) == Some(true)
    ensures VerifyPassword(password, GetPasswordHash(password, hash), check)
    ensures PasswordBytesAsWritten(other) == PasswordBytesAsWritten(password) ==>
      VerifyPassword(other, GetPasswordHash(password, hash), check)
    ensures check(PasswordBytesAsWritten(password), hashed) != Some(true) ==>
      !VerifyPassword(password, hashed, check)
  {
    assert check(PasswordBytesAsWritten(password), hash(PasswordBytesAsWritten(password))) == Some(true);
  }

  /**
   * The source's cut depends on nothing past the 72nd character: each
   * character takes at least one byte, so passwords sharing a longer prefix
   * have the same first 72 bytes and are cut alike.
   */
  lemma LongPasswordsAgree(a: string, b: string, n: nat)
    requires BcryptLimit < n <= |a| && n <= |b| && a[..n] == b[..n]
    ensures PasswordBytesAsWritten(a) == PasswordBytesAsWritten(b)
  {
    assert a == a[..n] + a[n..] && b == b[..n] + b[n..];
    EncodeAppend(a[..n], a[n..]);
    EncodeAppend(b[..n], b[n..]);
    EncodeLength(a[..n]);
    assert Encode(a)[..BcryptLimit] == Encode(a[..n])[..BcryptLimit];
    assert Encode(b)[..BcryptLimit] == Encode(b[..n])[..BcryptLimit];
  }

  /** `get_password_hash` on the corrected cut. */
  function GetPasswordHashCorrected(password: string, hash: seq<byte> -> string): string {
    hash(PasswordBytes(password))
  }

  /** `verify_password` on the corrected cut. */
  function VerifyPasswordCorrected(plain: string, hashed: string, check: (seq<byte>, string) -> Option<bool>): bool {
    check(PasswordBytes(plain), hashed) == Some(true)
  }

  /** The round trip of `HashThenVerify`, for the corrected cut. */
  lemma HashThenVerifyCorrected(password: string, other: string, hashed: string,
                                hash: seq<byte> -> string, check: (seq<byte>, string) -> Option<bool>)
    requires forall b :: check(b, hash(b)) == Some(true)
    ensures VerifyPasswordCorrected(password, GetPasswordHashCorrected(password, hash), check)
    ensures PasswordBytes(other) == PasswordBytes(password) ==>
      VerifyPasswordCorrected(other, GetPasswordHashCorrected(password, hash), check)
    ensures check(PasswordBytes(password), hashed) != Some(true) ==>
      !VerifyPasswordCorrected(password, hashed, check)
  {
    assert check(PasswordBytes(password), hash(PasswordBytes(password))) == Some(true);
  }

  /** The corrected cut, too, ignores everything past the 72nd character. */
  lemma LongPasswordsAgreeCorrected(a: string, b: string, n: nat)
    requires BcryptLimit < n <= |a| && n <= |b| && a[..n] == b[..n]
    ensures PasswordBytes(a) == PasswordBytes(b)
  {
    TakeCharsCommon(a, b, n, BcryptLimit);
  }
}

=== FILE: seqs.dfy ===
/** Generic sequence helpers: flattening and first-occurrence de-duplication. */
module Seqs {
  import opened Wrappers

  function Flatten<T>(xss: seq<seq<T>>): seq<T>
    decreases |xss|
  {
    if xss == [] then [] else xss[0] + Flatten(xss[1..])
  }

  lemma {:induction false} FlattenAppend<T>(a: seq<seq<T>>, b: seq<seq<T>>)
    ensures Flatten(a + b) == Flatten(a) + Flatten(b)
    decreases |a|
  {
    if a == [] {
      assert a + b == b;
    } else {
      assert (a + b)[1..] == a[1..] + b;
      FlattenAppend(a[1..], b);
    }
  }

  /** Every element of every inner sequence occurs in the flattening. */
  lemma {:induction false} InFlatten<T>(xss: seq<seq<T>>, i: nat, j: nat)
    requires i < |xss| && j < |xss[i]|
    ensures xss[i][j] in Flatten(xss)
    decreases i
  {
    if i > 0 {
      InFlatten(xss[1..], i - 1, j);
    }
  }

  predicate NoDuplicates<T(==)>(s: seq<T>) {
    forall i, j :: 0 <= i < j < |s| ==> s[i] != s[j]
  }

  /** Position of the first occurrence of `x` in `s`. */
  function IndexOf<T(==)>(s: seq<T>, x: T): (k: nat)
    requires x in s
    ensures k < |s| && s[k] == x
    ensures forall i :: 0 <= i < k ==> s[i] != x
  {
    if s[0] == x then 0 else 1 + IndexOf(s[1..], x)
  }

  /** The first occurrence of an element of a prefix lies in that prefix. */
  lemma {:induction false} IndexOfPrefix<T>(s: seq<T>, n: nat, x: T)
    requires n <= |s| && x in s[..n]
    ensures IndexOf(s, x) == IndexOf(s[..n], x)
    decreases n
  {
    if s[0] != x {
      assert s[1..][..n - 1] == s[..n][1..];
      IndexOfPrefix(s[1..], n - 1, x);
    }
  }

  /**
   * `list(dict.fromkeys(s))`: the distinct elements of `s` in the order of
   * their first occurrence.
   */
  function Dedup<T(==,!new)>(s: seq<T>): (r: seq<T>)
    ensures NoDuplicates(r)
    ensures forall x :: x in r <==> x in s
    ensures forall i, j :: 0 <= i < j < |r| ==> IndexOf(s, r[i]) < IndexOf(s, r[j])
    decreases |s|
  {
    if s == [] then []
    else
      var init := s[..|s| - 1];
      var last := s[|s| - 1];
      var d := Dedup(init);
      assert s == init + [last];
      assert forall i :: 0 <= i < |d| ==> IndexOf(s, d[i]) == IndexOf(init, d[i]) by {
        forall i | 0 <= i < |d|
          ensures IndexOf(s, d[i]) == IndexOf(init, d[i])
        {
          IndexOfPrefix(s, |s| - 1, d[i]);
        }
      }
      if last in d then d
      else
        assert IndexOf(s, last) == |s| - 1;
        d + [last]
  }

  /** De-duplicating a sequence without repeats changes nothing. */
  lemma {:induction false} DedupNoDuplicates<T(!new)>(s: seq<T>)
    requires NoDuplicates(s)
    ensures Dedup(s) == s
    decreases |s|
  {
    if s != [] {
      var init := s[..|s| - 1];
      assert NoDuplicates(init);
      DedupNoDuplicates(init);
      assert s[|s| - 1] !in init;
      assert s == init + [s[|s| - 1]];
    }
  }

  lemma DedupSnoc<T(!new)>(s: seq<T>, x: T)
    ensures Dedup(s + [x]) == if x in Dedup(s) then Dedup(s) else Dedup(s) + [x]
  {
    assert (s + [x])[..|s + [x]| - 1] == s;
  }

  /** The first element satisfying `p`, as a query's `.first()` returns it. */
  function FirstWhere<T>(s: seq<T>, p: T -> bool): (r: Option<T>)
    ensures r.None? <==> forall i :: 0 <= i < |s| ==> !p(s[i])
    ensures r.Some? ==> exists i :: 0 <= i < |s| && s[i] == r.value && p(r.value) && forall j :: 0 <= j < i ==> !p(s[j])
    decreases |s|
  {
    if s == [] then None
    else if p(s[0]) then Some(s[0])
    else
      var r := FirstWhere(s[1..], p);
      assert r.Some? ==> exists i :: 0 <= i < |s| && s[i] == r.value && p(r.value) && forall j :: 0 <= j < i ==> !p(s[j]) by {
        if r.Some? {
          var i :| 0 <= i < |s[1..]| && s[1..][i] == r.value && p(r.value) && forall j :: 0 <= j < i ==> !p(s[1..][j]);
          assert s[i + 1] == r.value;
          assert forall j :: 0 <= j < i + 1 ==> !p(s[j]) by {
            forall j | 0 <= j < i + 1
              ensures !p(s[j])
            {
              if j > 0 {
                assert s[j] == s[1..][j - 1];
              }
            }
          }
        }
      }
      r
  }

  /** The elements of `s` that satisfy `p`, in their original order. */
  function Filter<T(!new)>(s: seq<T>, p: T -> bool): (r: seq<T>)
    ensures |r| <= |s|
    ensures forall x :: x in r <==> x in s && p(x)
    decreases |s|
  {
    if s == [] then []
    else (if p(s[0]) then [s[0]] else []) + Filter(s[1..], p)
  }

  lemma {:induction false} FilterAppend<T(!new)>(a: seq<T>, b: seq<T>, p: T -> bool)
    ensures Filter(a + b, p) == Filter(a, p) + Filter(b, p)
    decreases |a|
  {
    if a == [] {
      assert a + b == b;
    } else {
      assert (a + b)[1..] == a[1..] + b;
      FilterAppend(a[1..], b, p);
    }
  }

  /** Filtering keeps a sequence whose every element passes. */
  lemma {:induction false} FilterAll<T(!new)>(s: seq<T>, p: T -> bool)
    requires forall i :: 0 <= i < |s| ==> p(s[i])
    ensures Filter(s, p) == s
    decreases |s|
  {
    if s != [] {
      FilterAll(s[1..], p);
    }
  }

  /** `f` applied to each element, with the empty results left out. */
  function MapNonEmpty<T, U>(xs: seq<T>, f: T -> seq<U>): seq<seq<U>>
    decreases |xs|
  {
    if xs == [] then []
    else if f(xs[0]) == [] then MapNonEmpty(xs[1..], f)
    else [f(xs[0])] + MapNonEmpty(xs[1..], f)
  }

  /** When no result is empty nothing is left out: element `i` maps to result `i`. */
  lemma {:induction false} MapNonEmptyAt<T, U>(xs: seq<T>, f: T -> seq<U>, i: nat)
    requires forall k :: 0 <= k < |xs| ==> f(xs[k]) != []
    requires i < |xs|
    ensures |MapNonEmpty(xs, f)| == |xs|
    ensures MapNonEmpty(xs, f)[i] == f(xs[i])
    decreases |xs|
  {
    var tail := xs[1..];
    assert forall k :: 0 <= k < |tail| ==> f(tail[k]) != [] by {
      forall k | 0 <= k < |tail| ensures f(tail[k]) != [] {
        assert tail[k] == xs[k + 1];
      }
    }
    assert f(xs[0]) != [];
    if i > 0 {
      MapNonEmptyAt(tail, f, i - 1);
      assert tail[i - 1] == xs[i];
    } else if |tail| > 0 {
      MapNonEmptyAt(tail, f, 0);
    }
  }
}

=== FILE: sorting.dfy ===
/**
 * Stable insertion sort under a total preorder: the model of a SQL
 * `ORDER BY` whose ties keep the order in which rows are stored.
 */
module Sorting {

  ghost predicate TotalPreorder<T(!new)>(le: (T, T) -> bool) {
    && (forall x, y :: le(x, y) || le(y, x))
    && (forall x, y, z :: le(x, y) && le(y, z) ==> le(x, z))
  }

  predicate SortedBy<T>(s: seq<T>, le: (T, T) -> bool) {
    forall i, j :: 0 <= i < j < |s| ==> le(s[i], s[j])
  }

  /** Inserts `x` before the first element it is not greater than. */
  function Insert<T(!new)>(x: T, s: seq<T>, le: (T, T) -> bool): (r: seq<T>)
    requires TotalPreorder(le)
    requires SortedBy(s, le)
    ensures multiset(r) == multiset(s) + multiset{x}
    ensures SortedBy(r, le)
    decreases |s|
  {
    if s == [] then [x]
    else if le(x, s[0]) then [x] + s
    else
      var rest := Insert(x, s[1..], le);
      assert forall k :: 0 <= k < |rest| ==> le(s[0], rest[k]) by {
        forall k | 0 <= k < |rest|
          ensures le(s[0], rest[k])
        {
          assert rest[k] in multiset(rest);
          assert s == [s[0]] + s[1..];
          if rest[k] != x {
            assert rest[k] in multiset(s[1..]);
            var j :| 0 <= j < |s[1..]| && s[1..][j] == rest[k];
            assert s[j + 1] == rest[k];
          }
        }
      }
      assert s == [s[0]] + s[1..];
      [s[0]] + rest
  }

  /** A sorted permutation of `s`; elements that compare equal keep their order. */
  function InsertionSort<T(!new)>(s: seq<T>, le: (T, T) -> bool): (r: seq<T>)
    requires TotalPreorder(le)
    ensures multiset(r) == multiset(s)
    ensures |r| == |s|
    ensures SortedBy(r, le)
    decreases |s|
  {
    if s == [] then []
    else
      assert s == [s[0]] + s[1..];
      var r := Insert(s[0], InsertionSort(s[1..], le), le);
      assert |r| == |multiset(r)| == |multiset(s)| == |s|;
      r
  }

  /** The elements of `s` that compare equal to `x` under `le`, in their order in `s`. */
  function Ties<T>(s: seq<T>, x: T, le: (T, T) -> bool): seq<T>
    decreases |s|
  {
    if s == [] then []
    else (if Tie(s[0], x, le) then [s[0]] else []) + Ties(s[1..], x, le)
  }

  /** `x` and `y` compare equal. */
  predicate Tie<T>(x: T, y: T, le: (T, T) -> bool) {
    le(x, y) && le(y, x)
  }

  lemma TiesCons<T>(a: T, s: seq<T>, x: T, le: (T, T) -> bool)
    ensures Ties([a] + s, x, le) == (if Tie(a, x, le) then [a] else []) + Ties(s, x, le)
  {
    assert ([a] + s)[1..] == s;
  }

  /** An element that sorts strictly before `a` cannot tie with the same `x` as `a`. */
  lemma NotBothTies<T(!new)>(y: T, a: T, x: T, le: (T, T) -> bool)
    requires TotalPreorder(le)
    requires !le(y, a)
    ensures !(Tie(y, x, le) && Tie(a, x, le))
  {
  }

  /**
   * Inserting `y` puts it ahead of every element that compares equal to it,
   * and moves no other tie.
   */
  lemma {:induction false} InsertTies<T(!new)>(y: T, s: seq<T>, x: T, le: (T, T) -> bool)
    requires TotalPreorder(le)
    requires SortedBy(s, le)
    ensures Ties(Insert(y, s, le), x, le) == (if Tie(y, x, le) then [y] else []) + Ties(s, x, le)
    decreases |s|
  {
    if s == [] {
      TiesCons(y, [], x, le);
    } else if le(y, s[0]) {
      TiesCons(y, s, x, le);
    } else {
      assert SortedBy(s[1..], le);
      InsertTies(y, s[1..], x, le);
      InsertTiesStep(y, s, x, le);
    }
  }

  /** The step of `InsertTies` where `y` goes past `s[0]`, given the claim for `s[1..]`. */
  lemma InsertTiesStep<T(!new)>(y: T, s: seq<T>, x: T, le: (T, T) -> bool)
    requires TotalPreorder(le)
    requires SortedBy(s, le) && s != [] && !le(y, s[0])
    requires SortedBy(s[1..], le)
    requires Ties(Insert(y, s[1..], le), x, le) == (if Tie(y, x, le) then [y] else []) + Ties(s[1..], x, le)
    ensures Ties(Insert(y, s, le), x, le) == (if Tie(y, x, le) then [y] else []) + Ties(s, x, le)
  {
    InsertPast(y, s, le);
    TiesPast(y, s[0], Insert(y, s[1..], le), Ties(s[1..], x, le), x, le);
    TiesCons(s[0], s[1..], x, le);
    assert [s[0]] + s[1..] == s;
  }

  /** The step of `Insert` where `y` goes past `s[0]`. */
  lemma InsertPast<T(!new)>(y: T, s: seq<T>, le: (T, T) -> bool)
    requires TotalPreorder(le)
    requires SortedBy(s, le) && s != [] && !le(y, s[0])
    ensures SortedBy(s[1..], le)
    ensures Insert(y, s, le) == [s[0]] + Insert(y, s[1..], le)
  {
  }

  /** The ties of `[a] + r` when `y` sorts strictly before `a` and `r` lists `y`'s tie first. */
  lemma TiesPast<T(!new)>(y: T, a: T, r: seq<T>, t: seq<T>, x: T, le: (T, T) -> bool)
    requires TotalPreorder(le)
    requires !le(y, a)
    requires Ties(r, x, le) == (if Tie(y, x, le) then [y] else []) + t
    ensures Ties([a] + r, x, le) == (if Tie(y, x, le) then [y] else []) + ((if Tie(a, x, le) then [a] else []) + t)
  {
    TiesCons(a, r, x, le);
    NotBothTies(y, a, x, le);
  }

  /**
   * The sort is stable: for every `x`, the elements that compare equal to
   * `x` appear in the result in the same order as in `s`.
   */
  lemma {:induction false} InsertionSortStable<T(!new)>(s: seq<T>, x: T, le: (T, T) -> bool)
    requires TotalPreorder(le)
    ensures Ties(InsertionSort(s, le), x, le) == Ties(s, x, le)
    decreases |s|
  {
    if s != [] {
      InsertionSortStable(s[1..], x, le);
      InsertTies(s[0], InsertionSort(s[1..], le), x, le);
    }
  }

  /** Code-point lexicographic order on strings, the order of a binary collation. */
  predicate StringLe(a: string, b: string)
    decreases |a|
  {
    a == [] || (b != [] && (a[0] < b[0] || (a[0] == b[0] && StringLe(a[1..], b[1..]))))
  }

  lemma {:induction false} StringLeTotal(a: string, b: string)
    ensures StringLe(a, b) || StringLe(b, a)
    decreases |a|
  {
    if a != [] && b != [] && a[0] == b[0] {
      StringLeTotal(a[1..], b[1..]);
    }
  }

  lemma {:induction false} StringLeTransitive(a: string, b: string, c: string)
    requires StringLe(a, b) && StringLe(b, c)
    ensures StringLe(a, c)
    decreases |a|
  {
    if a != [] && a[0] == b[0] && b[0] == c[0] {
      StringLeTransitive(a[1..], b[1..], c[1..]);
    }
  }

  lemma {:induction false} StringLeAntisymmetric(a: string, b: string)
    requires StringLe(a, b) && StringLe(b, a)
    ensures a == b
    decreases |a|
  {
    if a != [] {
      StringLeAntisymmetric(a[1..], b[1..]);
      assert a == [a[0]] + a[1..] && b == [b[0]] + b[1..];
    }
  }
}

=== FILE: source_model.dfy ===
/**
 * Uploaded source documents and the three closed value sets their check
 * constraints enforce: content language, lifecycle status and indexing
 * status.
 */
module SourceModel {
  import opened Wrappers

  datatype Language = Ru | En {
    function Name(): string {
      match this
      case Ru => "ru"
      case En => "en"
    }
  }

  datatype SourceStatus = Active | Superseded | Archived {
    function Name(): string {
      match this
      case Active => "active"
      case Superseded => "superseded"
      case Archived => "archived"
    }
  }

  datatype IndexStatus = NotIndexed | Indexed | IndexError {
    function Name(): string {
      match this
      case NotIndexed => "not_indexed"
      case Indexed => "indexed"
      case IndexError => "error"
    }
  }

  /** The language check constraint: a stored value is one of the two codes. */
  function ParseLanguage(s: string): (r: Option<Language>)
    ensures r.Some? ==> r.value.Name() == s
  {
    if s == "ru" then Some(Ru) else if s == "en" then Some(En) else None
  }

  function ParseSourceStatus(s: string): (r: Option<SourceStatus>)
    ensures r.Some? ==> r.value.Name() == s
  {
    if s == "active" then Some(Active)
    else if s == "superseded" then Some(Superseded)
    else if s == "archived" then Some(Archived)
    else None
  }

  function ParseIndexStatus(s: string): (r: Option<IndexStatus>)
    ensures r.Some? ==> r.value.Name() == s
  {
    if s == "not_indexed" then Some(NotIndexed)
    else if s == "indexed" then Some(Indexed)
    else if s == "error" then Some(IndexError)
    else None
  }

  /** Each stored name parses back to its value, and only stored names parse. */
  lemma LanguageRoundTrip(l: Language, s: string)
    ensures ParseLanguage(l.Name()) == Some(l)
    ensures ParseLanguage(s).Some? <==> s in {"ru", "en"}
  {
  }

  lemma SourceStatusRoundTrip(st: SourceStatus, s: string)
    ensures ParseSourceStatus(st.Name()) == Some(st)
    ensures ParseSourceStatus(s).Some? <==> s in {"active", "superseded", "archived"}
  {
  }

  lemma IndexStatusRoundTrip(st: IndexStatus, s: string)
    ensures ParseIndexStatus(st.Name()) == Some(st)
    ensures ParseIndexStatus(s).Some? <==> s in {"not_indexed", "indexed", "error"}
  {
  }

  datatype SourceDocument = SourceDocument(
    id: int,
    studyId: int,
    sourceType: string,
    fileName: string,
    storagePath: string,
    uploadedBy: Option<string>,
    language: Language,
    versionLabel: Option<string>,
    status: SourceStatus,
    isCurrent: bool,
    isRagEnabled: bool,
    indexStatus: IndexStatus)

  /**
   * A freshly inserted source document: columns not given take their
   * defaults (language ru, status active, current, RAG-enabled, not indexed).
   */
  function NewSourceDocument(
    id: int, studyId: int, sourceType: string, fileName: string, storagePath: string,
    uploadedBy: Option<string>, versionLabel: Option<string>,
    language: Option<Language>, status: Option<SourceStatus>,
    isCurrent: Option<bool>, isRagEnabled: Option<bool>, indexStatus: Option<IndexStatus>)
    : (d: SourceDocument)
    ensures d.language == (if language.Some? then language.value else Ru)
    ensures d.status == (if status.Some? then status.value else Active)
    ensures d.isCurrent == (isCurrent != Some(false))
    ensures d.isRagEnabled == (isRagEnabled != Some(false))
    ensures d.indexStatus == (if indexStatus.Some? then indexStatus.value else NotIndexed)
  {
    SourceDocument(
      id, studyId, sourceType, fileName, storagePath, uploadedBy,
      language.GetOr(Ru), versionLabel, status.GetOr(Active),
      isCurrent.GetOr(true), isRagEnabled.GetOr(true), indexStatus.GetOr(NotIndexed))
  }
}

=== FILE: store.dfy ===
/**
 * The database as one immutable value: every table is a sequence of rows
 * in storage order, and `nextId` is the next primary key to hand out (one
 * counter shared by all tables, which only strengthens uniqueness).
 */
module Store {
  import opened Models
  import opened SourceModel
  import opened QcModel

  datatype Db = Db(
    studies: seq<Study>,
    users: seq<User>,
    members: seq<StudyMember>,
    documents: seq<Document>,
    csrDocuments: seq<CsrDocument>,
    csrSections: seq<CsrSection>,
    outputDocuments: seq<OutputDocument>,
    outputSections: seq<OutputSection>,
    sources: seq<SourceDocument>,
    chunks: seq<RagChunk>,
    templates: seq<Template>,
    qcRules: seq<QcRule>,
    qcIssues: seq<QcIssue>,
    nextId: int)

  predicate HasStudy(db: Db, studyId: int) {
    exists i :: 0 <= i < |db.studies| && db.studies[i].id == studyId
  }

  /** `db.get(Study, id)`: the study stored under that key, if any. */
  function FindStudy(studies: seq<Study>, studyId: int): (r: Wrappers.Option<Study>)
    ensures r.Some? ==> r.value in studies && r.value.id == studyId
    ensures r.None? <==> forall i :: 0 <= i < |studies| ==> studies[i].id != studyId
  {
    if studies == [] then Wrappers.None
    else if studies[0].id == studyId then Wrappers.Some(studies[0])
    else FindStudy(studies[1..], studyId)
  }

  function FindSource(sources: seq<SourceDocument>, id: int): (r: Wrappers.Option<nat>)
    ensures r.Some? ==> r.value < |sources| && sources[r.value].id == id
    ensures r.Some? ==> forall j :: 0 <= j < r.value ==> sources[j].id != id
    ensures r.None? <==> forall i :: 0 <= i < |sources| ==> sources[i].id != id
  {
    if sources == [] then Wrappers.None
    else if sources[0].id == id then Wrappers.Some(0)
    else match FindSource(sources[1..], id)
      case None => Wrappers.None
      case Some(k) => Wrappers.Some(k + 1)
  }

  /** The first row with the id is the one found. */
  lemma FindSourceFirst(sources: seq<SourceDocument>, id: int, k: nat)
    requires k < |sources| && sources[k].id == id
    requires forall j :: 0 <= j < k ==> sources[j].id != id
    ensures FindSource(sources, id) == Wrappers.Some(k)
  {
    var r := FindSource(sources, id);
    assert r.Some?;
    assert !(r.value < k);
    assert !(k < r.value);
  }

  function FindDocument(documents: seq<Document>, id: int): (r: Wrappers.Option<Document>)
    ensures r.Some? ==> r.value in documents && r.value.id == id
    ensures r.None? <==> forall i :: 0 <= i < |documents| ==> documents[i].id != id
  {
    if documents == [] then Wrappers.None
    else if documents[0].id == id then Wrappers.Some(documents[0])
    else FindDocument(documents[1..], id)
  }
}

=== FILE: study_members.dfy ===
/** Study membership lookup. */
module StudyMembers {
  import opened Wrappers
  import opened Models

  predicate IsMembership(m: StudyMember, studyId: int, userId: int) {
    m.studyId == studyId && m.userId == userId
  }

  /** The unique constraint on (study, user): one membership row at most. */
  predicate UniqueMemberships(members: seq<StudyMember>) {
    forall i, j :: 0 <= i < j < |members| ==>
      !(members[i].studyId == members[j].studyId && members[i].userId == members[j].userId)
  }

  /** The first membership row of the user in the study, as `.first()` returns it. */
  function FirstMembership(members: seq<StudyMember>, studyId: int, userId: int): (r: Option<StudyMember>)
    ensures r.None? <==> forall i :: 0 <= i < |members| ==> !IsMembership(members[i], studyId, userId)
    ensures r.Some? ==> r.value in members && IsMembership(r.value, studyId, userId)
    decreases |members|
  {
    if members == [] then None
    else if IsMembership(members[0], studyId, userId) then Some(members[0])
    else FirstMembership(members[1..], studyId, userId)
  }

  /** Under the unique constraint the row found is the only one. */
  lemma FirstMembershipUnique(members: seq<StudyMember>, studyId: int, userId: int, i: nat)
    requires UniqueMemberships(members)
    requires i < |members| && IsMembership(members[i], studyId, userId)
    ensures FirstMembership(members, studyId, userId) == Some(members[i])
  {
    var r := FirstMembership(members, studyId, userId);
    var j :| 0 <= j < |members| && members[j] == r.value;
    assert j == i;
  }

  /** `get_user_study_role`: the role of the user's membership, or nothing for a non-member or unknown study. */
  function GetUserStudyRole(members: seq<StudyMember>, userId: int, studyId: int): Option<string> {
    match FirstMembership(members, studyId, userId)
    case None => None
    case Some(m) => Some(m.role)
  }

  /**
   * No role exactly when no membership row exists; otherwise the role of
   * that row, which is the only one under the unique constraint.
   */
  lemma GetUserStudyRoleSpec(members: seq<StudyMember>, userId: int, studyId: int)
    ensures GetUserStudyRole(members, userId, studyId).None? <==>
      forall i :: 0 <= i < |members| ==> !IsMembership(members[i], studyId, userId)
    ensures UniqueMemberships(members) ==>
      forall i :: 0 <= i < |members| && IsMembership(members[i], studyId, userId) ==>
        GetUserStudyRole(members, userId, studyId) == Some(members[i].role)
  {
    if UniqueMemberships(members) {
      forall i | 0 <= i < |members| && IsMembership(members[i], studyId, userId)
        ensures GetUserStudyRole(members, userId, studyId) == Some(members[i].role)
      {
        FirstMembershipUnique(members, studyId, userId, i);
      }
    }
  }
}

=== FILE: template_context.dfy ===
/** The base context for rendering a study's templates. */
module TemplateContext {
  import opened Wrappers
  import opened Seqs
  import opened Assoc
  import opened Models
  import opened Store
  import opened Renderer

  const BaseKeys: seq<string> := ["study_id", "study_code", "study_title", "phase", "indication", "sponsor_name"]

  function OptionalText(v: Option<string>): Value {
    match v
    case Some(s) => StrValue(s)
    case None => NoneValue
  }

  /** The six study columns templates can refer to. */
  function BaseContext(study: Study): (ctx: Dict<Value>)
    ensures Keys(ctx) == BaseKeys
  {
    [("study_id", IntValue(study.id)),
     ("study_code", StrValue(study.code)),
     ("study_title", StrValue(study.title)),
     ("phase", OptionalText(study.phase)),
     ("indication", OptionalText(study.indication)),
     ("sponsor_name", OptionalText(study.sponsorName))]
  }

  lemma BaseKeysDistinct()
    ensures NoDuplicates(BaseKeys)
  {
    var lengths := [8, 10, 11, 5, 10, 12];
    assert forall i :: 0 <= i < 6 ==> |BaseKeys[i]| == lengths[i];
    assert BaseKeys[1][0] != BaseKeys[4][0];
  }

  /**
   * `build_template_context`: the study's base context overlaid with the
   * extra entries; an unknown study is an error.
   */
  function BuildTemplateContext(studies: seq<Study>, studyId: int, extra: Option<Dict<Value>>)
    : Result<Dict<Value>, string>
  {
    match FindStudy(studies, studyId)
    case None => Failure("Study with id " + Text.IntToString(studyId) + " not found")
    case Some(study) =>
      match extra
      case Some(e) => Success(Update(BaseContext(study), e))
      case None => Success(BaseContext(study))
  }

  /**
   * The context exists exactly for a stored study; it lists the six base
   * keys first, then the new extra keys, and an extra entry wins over a base
   * entry of the same name.
   */
  lemma BuildTemplateContextSpec(studies: seq<Study>, studyId: int, extra: Option<Dict<Value>>, k: string)
    requires extra.Some? ==> ValidDict(extra.value)
    ensures var r := BuildTemplateContext(studies, studyId, extra);
      && (r.Success? <==> exists i :: 0 <= i < |studies| && studies[i].id == studyId)
      && (r.Success? ==>
            var e := if extra.Some? then extra.value else [];
            var study := FindStudy(studies, studyId).value;
            && ValidDict(r.value)
            && Keys(r.value) == Dedup(BaseKeys + Keys(e))
            && Get(r.value, k) == if k in Keys(e) then Get(e, k) else Get(BaseContext(study), k))
  {
    BaseKeysDistinct();
    match FindStudy(studies, studyId)
    case None =>
    case Some(study) =>
      var e := if extra.Some? then extra.value else [];
      UpdateKeys(BaseContext(study), e);
      UpdateGet(BaseContext(study), e, k);
      UpdateValid(BaseContext(study), e);
  }
}

=== FILE: text.dfy ===
/**
 * String helpers with the meaning Python gives them: `str.isspace`, `strip`,
 * `split(sep)`, `sep.join(parts)`, `in` on strings, `lower` (ASCII part) and
 * `str(int)`.
 */
module Text {

  /** Python's `str.isspace()`: the characters `strip()` removes. */
  predicate IsSpace(c: char) {
    || c == ' ' || c == '\t' || c == '\n' || c == '\r'
    || c == '\U{000B}' || c == '\U{000C}'
    || ('\U{001C}' <= c <= '\U{001F}')
    || c == '\U{0085}' || c == '\U{00A0}' || c == '\U{1680}'
    || ('\U{2000}' <= c <= '\U{200A}')
    || c == '\U{2028}' || c == '\U{2029}' || c == '\U{202F}'
    || c == '\U{205F}' || c == '\U{3000}'
  }

  /** The non-whitespace characters of `s`, in order. */
  function NonSpace(s: string): (r: string)
    ensures |r| <= |s|
  {
    if s == [] then []
    else if IsSpace(s[0]) then NonSpace(s[1..])
    else [s[0]] + NonSpace(s[1..])
  }

  predicate AllSpace(s: string) {
    forall i :: 0 <= i < |s| ==> IsSpace(s[i])
  }

  lemma {:induction false} NonSpaceAppend(a: string, b: string)
    ensures NonSpace(a + b) == NonSpace(a) + NonSpace(b)
    decreases |a|
  {
    if a == [] {
      assert a + b == b;
    } else {
      assert (a + b)[1..] == a[1..] + b;
      NonSpaceAppend(a[1..], b);
    }
  }

  lemma {:induction false} NonSpaceOfAllSpace(s: string)
    requires AllSpace(s)
    ensures NonSpace(s) == []
    decreases |s|
  {
    if s != [] {
      NonSpaceOfAllSpace(s[1..]);
    }
  }

  lemma {:induction false} NonSpaceEmptyIsAllSpace(s: string)
    requires NonSpace(s) == []
    ensures AllSpace(s)
    decreases |s|
  {
    if s != [] {
      NonSpaceEmptyIsAllSpace(s[1..]);
    }
  }

  /** `s.lstrip()`: drops leading whitespace and nothing else. */
  function StripLeft(s: string): (r: string)
    ensures |r| <= |s| && r == s[|s| - |r|..]
    ensures r == [] || !IsSpace(r[0])
    ensures NonSpace(r) == NonSpace(s)
    decreases |s|
  {
    if s != [] && IsSpace(s[0]) then StripLeft(s[1..]) else s
  }

  /** `s.rstrip()`: drops trailing whitespace and nothing else. */
  function StripRight(s: string): (r: string)
    ensures |r| <= |s| && r == s[..|r|]
    ensures r == [] || !IsSpace(r[|r| - 1])
    ensures NonSpace(r) == NonSpace(s)
    decreases |s|
  {
    if s != [] && IsSpace(s[|s| - 1]) then
      var p := s[..|s| - 1];
      assert s == p + [s[|s| - 1]];
      NonSpaceAppend(p, [s[|s| - 1]]);
      StripRight(p)
    else s
  }

  /** `s.strip()`: the longest slice of `s` with no whitespace at either end. */
  function Strip(s: string): (r: string)
    ensures |r| <= |s|
    ensures r == [] || (!IsSpace(r[0]) && !IsSpace(r[|r| - 1]))
    ensures NonSpace(r) == NonSpace(s)
  {
    StripRight(StripLeft(s))
  }

  lemma AllSpaceIffNoNonSpace(s: string)
    ensures AllSpace(s) <==> NonSpace(s) == []
  {
    if AllSpace(s) {
      NonSpaceOfAllSpace(s);
    }
    if NonSpace(s) == [] {
      NonSpaceEmptyIsAllSpace(s);
    }
  }

  /** A stripped string is empty exactly when the input was all whitespace. */
  lemma StripEmptyIffAllSpace(s: string)
    ensures Strip(s) == [] <==> AllSpace(s)
  {
    var r := Strip(s);
    if r != [] {
      assert NonSpace(r) == [r[0]] + NonSpace(r[1..]);
    }
    AllSpaceIffNoNonSpace(s);
  }

  /** `sep.join(parts)`. */
  function Join(parts: seq<string>, sep: string): string
    decreases |parts|
  {
    if |parts| == 0 then ""
    else if |parts| == 1 then parts[0]
    else parts[0] + sep + Join(parts[1..], sep)
  }

  /** The concatenation of all strings of `parts`, with no separator. */
  function Concat(parts: seq<string>): string
    decreases |parts|
  {
    if |parts| == 0 then "" else parts[0] + Concat(parts[1..])
  }

  lemma {:induction false} JoinSnoc(parts: seq<string>, x: string, sep: string)
    requires |parts| > 0
    ensures Join(parts + [x], sep) == Join(parts, sep) + sep + x
    decreases |parts|
  {
    if |parts| == 1 {
      assert (parts + [x])[1..] == [x];
    } else {
      assert (parts + [x])[1..] == parts[1..] + [x];
      JoinSnoc(parts[1..], x, sep);
    }
  }

  lemma {:induction false} ConcatAppend(a: seq<string>, b: seq<string>)
    ensures Concat(a + b) == Concat(a) + Concat(b)
    decreases |a|
  {
    if a == [] {
      assert a + b == b;
    } else {
      assert (a + b)[1..] == a[1..] + b;
      ConcatAppend(a[1..], b);
    }
  }

  lemma ConcatSnoc(init: seq<string>, x: string)
    ensures Concat(init + [x]) == Concat(init) + x
  {
    ConcatAppend(init, [x]);
    assert [x][1..] == [];
  }

  /** Moving the first part of `rest` to the end of `acc` keeps the concatenation. */
  lemma ConcatShift(acc: seq<string>, rest: seq<string>)
    requires rest != []
    ensures Concat(acc + [rest[0]]) + Concat(rest[1..]) == Concat(acc) + Concat(rest)
  {
    ConcatSnoc(acc, rest[0]);
    assert Concat(rest) == rest[0] + Concat(rest[1..]);
  }

  lemma ConcatLast(parts: seq<string>)
    requires parts != []
    ensures Concat(parts) == Concat(parts[..|parts| - 1]) + parts[|parts| - 1]
  {
    assert parts == parts[..|parts| - 1] + [parts[|parts| - 1]];
    ConcatSnoc(parts[..|parts| - 1], parts[|parts| - 1]);
  }

  /** Joining with a separator that has no non-space characters loses none of them. */
  lemma {:induction false} NonSpaceJoin(parts: seq<string>, sep: string)
    requires NonSpace(sep) == []
    ensures NonSpace(Join(parts, sep)) == NonSpace(Concat(parts))
    decreases |parts|
  {
    if |parts| == 1 {
      assert Concat(parts[1..]) == "";
      assert Concat(parts) == parts[0] + "" == parts[0];
    } else if |parts| > 1 {
      NonSpaceJoin(parts[1..], sep);
      NonSpaceAppend(parts[0] + sep, Join(parts[1..], sep));
      NonSpaceAppend(parts[0], sep);
      NonSpaceAppend(parts[0], Concat(parts[1..]));
    }
  }

  /** `s.split(sep)` for a non-empty separator: leftmost, non-overlapping. */
  function Split(s: string, sep: string): (r: seq<string>)
    requires |sep| > 0
    ensures |r| >= 1
    decreases |s|
  {
    if |s| < |sep| then [s]
    else if s[..|sep|] == sep then [""] + Split(s[|sep|..], sep)
    else
      var rest := Split(s[1..], sep);
      [[s[0]] + rest[0]] + rest[1..]
  }

  lemma JoinConsEmpty(rest: seq<string>, sep: string)
    requires |rest| > 0
    ensures Join([""] + rest, sep) == sep + Join(rest, sep)
  {
    assert ([""] + rest)[1..] == rest;
  }

  lemma JoinConsHead(c: char, rest: seq<string>, sep: string)
    requires |rest| > 0
    ensures Join([[c] + rest[0]] + rest[1..], sep) == [c] + Join(rest, sep)
  {
    var r := [[c] + rest[0]] + rest[1..];
    assert r[1..] == rest[1..];
  }

  /** Splitting and re-joining with the same separator gives the input back. */
  lemma {:induction false} JoinSplit(s: string, sep: string)
    requires |sep| > 0
    ensures Join(Split(s, sep), sep) == s
    decreases |s|
  {
    if |s| < |sep| {
    } else if s[..|sep|] == sep {
      JoinSplit(s[|sep|..], sep);
      JoinConsEmpty(Split(s[|sep|..], sep), sep);
      assert s == s[..|sep|] + s[|sep|..];
    } else {
      JoinSplit(s[1..], sep);
      JoinConsHead(s[0], Split(s[1..], sep), sep);
      assert s == [s[0]] + s[1..];
    }
  }

  /** No piece returned by a one-character split contains that character. */
  lemma {:induction false} SplitPiecesAvoidSeparator(s: string, c: char)
    ensures forall i :: 0 <= i < |Split(s, [c])| ==> c !in Split(s, [c])[i]
    decreases |s|
  {
    if |s| >= 1 {
      SplitPiecesAvoidSeparator(s[1..], c);
    }
  }

  /** Joining pieces that avoid a one-character separator, then splitting, recovers the pieces. */
  lemma {:induction false} SplitJoin(parts: seq<string>, c: char)
    requires |parts| > 0
    requires forall i :: 0 <= i < |parts| ==> c !in parts[i]
    ensures Split(Join(parts, [c]), [c]) == parts
    decreases |parts|, |parts[0]|
  {
    var sep := [c];
    if |parts| == 1 {
      SplitNoSeparator(parts[0], c);
    } else if parts[0] == [] {
      var s := Join(parts, sep);
      assert s == sep + Join(parts[1..], sep);
      assert s[..1] == sep && s[1..] == Join(parts[1..], sep);
      SplitJoin(parts[1..], c);
      assert parts == [""] + parts[1..];
    } else {
      var s := Join(parts, sep);
      var parts' := [parts[0][1..]] + parts[1..];
      assert parts'[1..] == parts[1..];
      assert Join(parts', sep) == parts[0][1..] + sep + Join(parts[1..], sep);
      assert s == [parts[0][0]] + Join(parts', sep);
      assert s[0] != c by { assert parts[0][0] in parts[0]; }
      assert forall i :: 0 <= i < |parts'| ==> c !in parts'[i] by {
        forall i | 0 <= i < |parts'|
          ensures c !in parts'[i]
        {
          if i == 0 {
            assert forall x :: x in parts[0][1..] ==> x in parts[0];
          } else {
            assert parts'[i] == parts[i];
          }
        }
      }
      SplitJoin(parts', c);
      assert s[1..] == Join(parts', sep);
      assert parts[0] == [parts[0][0]] + parts[0][1..];
      assert parts == [[parts[0][0]] + parts'[0]] + parts'[1..];
    }
  }

  lemma {:induction false} SplitNoSeparator(s: string, c: char)
    requires c !in s
    ensures Split(s, [c]) == [s]
    decreases |s|
  {
    if |s| >= 1 {
      assert s[0] in s;
      assert forall x :: x in s[1..] ==> x in s;
      SplitNoSeparator(s[1..], c);
      assert s == [s[0]] + s[1..];
    }
  }

  /** `sub in s` for strings. */
  predicate Contains(s: string, sub: string) {
    exists i :: 0 <= i <= |s| - |sub| && OccursAt(s, sub, i)
  }

  predicate OccursAt(s: string, sub: string, i: int)
    requires 0 <= i <= |s| - |sub|
  {
    s[i..i + |sub|] == sub
  }

  lemma ContainsLeft(a: string, b: string, sub: string)
    requires Contains(a, sub)
    ensures Contains(a + b, sub)
  {
    var i :| 0 <= i <= |a| - |sub| && OccursAt(a, sub, i);
    assert (a + b)[i..i + |sub|] == a[i..i + |sub|];
    assert OccursAt(a + b, sub, i);
  }

  lemma ContainsRight(a: string, b: string, sub: string)
    requires Contains(b, sub)
    ensures Contains(a + b, sub)
  {
    var i :| 0 <= i <= |b| - |sub| && OccursAt(b, sub, i);
    assert (a + b)[|a| + i..|a| + i + |sub|] == b[i..i + |sub|];
    assert OccursAt(a + b, sub, |a| + i);
  }

  /** Every part occurs in the joined string. */
  lemma {:induction false} JoinContains(parts: seq<string>, sep: string, i: nat)
    requires i < |parts|
    ensures Contains(Join(parts, sep), parts[i])
    decreases |parts|
  {
    var s := Join(parts, sep);
    if |parts| == 1 {
      assert OccursAt(s, parts[0], 0);
    } else if i == 0 {
      assert OccursAt(parts[0], parts[0], 0);
      ContainsLeft(parts[0], sep + Join(parts[1..], sep), parts[0]);
      assert s == parts[0] + (sep + Join(parts[1..], sep));
    } else {
      JoinContains(parts[1..], sep, i - 1);
      ContainsRight(parts[0] + sep, Join(parts[1..], sep), parts[i]);
    }
  }

  /** ASCII part of `str.lower()`. */
  function LowerChar(c: char): char {
    if 'A' <= c <= 'Z' then (c as int + 32) as char else c
  }

  function Lower(s: string): (r: string)
    ensures |r| == |s|
    ensures forall i :: 0 <= i < |s| ==> r[i] == LowerChar(s[i])
  {
    seq(|s|, i requires 0 <= i < |s| => LowerChar(s[i]))
  }

  function DigitChar(d: nat): char
    requires d < 10
  {
    ['0', '1', '2', '3', '4', '5', '6', '7', '8', '9'][d]
  }

  /** `str(n)` for a non-negative integer: its decimal digits. */
  function NatToString(n: nat): (r: string)
    ensures |r| >= 1
    ensures forall i :: 0 <= i < |r| ==> '0' <= r[i] <= '9'
    decreases n
  {
    if n < 10 then [DigitChar(n)] else NatToString(n / 10) + [DigitChar(n % 10)]
  }

  /** `str(i)` for any integer. */
  function IntToString(i: int): (r: string)
    ensures |r| >= 1
  {
    if i < 0 then "-" + NatToString(-i) else NatToString(i)
  }
}

=== FILE: wrappers.dfy ===
/** Failure-compatible wrappers used for the error paths of the services. */
module Wrappers {

  datatype Option<+T> = None | Some(value: T) {
    predicate IsFailure() { None? }

    function PropagateFailure<U>(): Option<U>
      requires None?
    {
      None
    }

    function Extract(): T
      requires Some?
    {
      value
    }

    function GetOr(default: T): T {
      match this
      case Some(v) => v
      case None => default
    }
  }

  datatype Result<+R, +E> = Success(value: R) | Failure(error: E) {
    predicate IsFailure() { Failure? }

    function PropagateFailure<U>(): Result<U, E>
      requires Failure?
    {
      Failure(error)
    }

    function Extract(): R
      requires Success?
    {
      value
    }
  }
}
